=== FILE: README.md ===
# Tenant Trakker Pro: payments core in Dafny

This project models the payment core of Tenant Trakker Pro, a
property-management dashboard. Landlords use it to ask tenants for rent
through MTN Mobile Money (MoMo). The model has two halves.

- **Edge functions.** The backend's functions talk to the MoMo provider and
  keep the `payments` table up to date: request-to-pay, invoice creation,
  invoice status, invoice cancellation, the transaction-status poller and the
  provider's callback. Each is a pure function from its inputs to an
  `Outcome`. The inputs are:
  - the request body and the caller;
  - the configuration and the stored row;
  - the provider's replies, the clock and the random ids.

  The `Outcome` holds the HTTP response, the ordered list of external calls
  and the row update (if any). Row updates are `PaymentUpdate`s, and
  `Records.Apply` applies them to a row.
- **Dashboard.** The browser-side logic:
  - the client service and the `useMtnMomo` hook;
  - the status display (`getPaymentStatusDisplay`);
  - the zod form schemas;
  - the invoices page, the payments and tenants views and the tenant detail
    page;
  - the realtime payment notifications.

  Each page handler is a pure function of the page state and of the outcome
  of the edge function it calls. The invoices page calls the models of the
  edge functions directly.

Shared modules:
- `Wrappers`: `Option` and `Result`.
- `Seqs`: `filter`, `find` and sums.
- `Text`: ASCII case mapping, the ECMAScript trim, split, substring, and
  number printing.
- `Uuid`: the 8-4-4-4-12 identifier format.
- `Http`: calls and replies.
- `Records`: rows and updates.
- `PaymentStatus` / `ProviderStatus`: the two status vocabularies.

The invoice-status function, the request-to-pay poller and the callback map
provider statuses onto payment statuses. `StatusAgreement` states where
these three mappings agree and where they do not.

## Model

| member | source | states |
|---|---|---|
| Uuid.CheckUuid | supabase/functions/mtn-momo-transaction-status/index.ts:33-36 | a left-to-right scan accepts exactly the strings of the 8-4-4-4-12 hexadecimal pattern, ignoring case |
| Uuid.PositionalIsGrouped | supabase/functions/mtn-momo-transaction-status/index.ts:33-36 | the positional reading of the identifier pattern and the reading as five hyphen-separated hex groups of lengths 8, 4, 4, 4, 12 accept the same strings |
| Uuid.UuidSplitsIntoGroups | src/services/mtnMomoService.ts:60-63 | a well-formed identifier splits on `-` into the five groups |
| Uuid.GroupsAreUuid | src/services/mtnMomoService.ts:60-63 | five groups of the right lengths and digits form a well-formed identifier |
| Text.Upper | supabase/functions/mtn-momo-transaction-status/index.ts:242 | upper-casing keeps the length and maps each letter to its capital |
| Text.UpperIdempotent | supabase/functions/mtn-momo-transaction-status/index.ts:242 | upper-casing twice is upper-casing once, and leaves no small ASCII letter |
| Text.Lower | src/pages/Invoices.tsx:38-43 | lower-casing keeps the length and maps each capital to its small letter |
| Text.LowerIdempotent | src/pages/Invoices.tsx:38-43 | lower-casing twice is lower-casing once |
| Text.KeepDigitsAndPlus | supabase/functions/mtn-momo-request-payment/index.ts:102 | `replace(/[^\d+]/g, '')` leaves only digits and plus signs, keeps every digit and plus sign of the input, and is never longer than the input |
| Text.KeepDigits | supabase/functions/mtn-momo-invoice-CreateInvoice/index.ts:124 | `replace(/\D/g, '')` leaves only digits, keeps every digit of the input, and is never longer than the input |
| Text.KeepDigitsAndPlusOfClean | supabase/functions/mtn-momo-request-payment/index.ts:102 | cleaning a cleaned number changes nothing |
| Text.KeepDigitsAndPlusPointwise | supabase/functions/mtn-momo-request-payment/index.ts:102 | the cleaning keeps a single character exactly when it is a digit or a plus sign, and cleans a concatenation piece by piece, in order |
| Text.KeepDigitsPointwise | supabase/functions/mtn-momo-invoice-CreateInvoice/index.ts:124 | the cleaning keeps a single character exactly when it is a digit, and cleans a concatenation piece by piece, in order |
| Text.TrimShape | src/lib/validations.ts:5 | the trimmed text is a middle slice of the input, with no JavaScript white space at either end |
| Text.TrimIdempotent | src/lib/validations.ts:5 | trimming twice is trimming once |
| Text.Split | src/components/Tenants.tsx:208 | `split` returns at least one part, and no part contains the separator |
| Text.JoinSplit | src/components/Tenants.tsx:208 | joining the parts of a split with the separator gives back the text |
| Text.AfterLast | src/pages/TenantDetail.tsx:69 | the last part of a split contains no separator |
| Text.AfterLastIsSuffix | src/pages/TenantDetail.tsx:69 | `split('.').pop()` is the suffix after the last dot |
| Text.ParseNatToString | supabase/functions/mtn-momo-request-payment/index.ts:180 | the decimal text of a number reads back as the number |
| Seqs.Filter | src/components/Payments.tsx:19-20 | the kept elements are exactly the input's elements that pass the test |
| Seqs.FilterConcat | src/components/Payments.tsx:19-20 | filtering a concatenation concatenates the filtered halves, which fixes the order of the result |
| Seqs.FilterFilter | src/pages/Invoices.tsx:36-44 | filtering twice is filtering once by the conjunction |
| Seqs.SumByPartition | src/components/Payments.tsx:76-91 | the sums over a filter and over its complement add up to the whole sum |
| Seqs.FindIndex | src/pages/TenantDetail.tsx:39 | the index found is the first whose element passes, and there is none exactly when no element passes |
| Seqs.Find | src/pages/Invoices.tsx:51 | `find` returns an element that passes, and returns one exactly when some element passes |
| PaymentStatus.ParseRaw | src/components/Payments.tsx:22-33 | reading the status column and writing it back are inverse |
| ProviderStatus.ParseRaw | supabase/functions/mtn-momo-invoice-status/index.ts:117-149 | reading a provider status and writing it back are inverse |
| Records.Apply | supabase/functions/mtn-momo-invoice-status/index.ts:112-154 | a column the update writes takes the written value; every column it does not write, and every column no update can write, keeps its value |
| Records.ApplyTwice | supabase/functions/mtn-momo-transaction-status/index.ts:260-270 | sending the same update twice leaves the row as sending it once |
| Records.ApplyNoChange | supabase/functions/mtn-momo-invoice-status/index.ts:112-115 | an update writing no column leaves the row unchanged |
| TransactionStatus.ErrorStatusCode | supabase/functions/mtn-momo-transaction-status/index.ts:314-324 | "not found"/404 gives 404 before "Authentication"/401 gives 401, before "forbidden"/403 gives 403, before "Invalid"/"required" gives 400; a message with none of these markers gives 500, and only such a message does |
| TransactionStatus.ValidationErrorsAre400 | supabase/functions/mtn-momo-transaction-status/index.ts:105-114 | the missing-reference and bad-format errors are answered with 400 |
| TransactionStatus.ReferenceRequiredIs400 | supabase/functions/mtn-momo-transaction-status/index.ts:105-108 | the missing-reference error is answered with 400 |
| TransactionStatus.InvalidReferenceFormatIs400 | supabase/functions/mtn-momo-transaction-status/index.ts:111-114 | the bad-format error is answered with 400 |
| TransactionStatus.TransactionNotFoundIs404 | supabase/functions/mtn-momo-transaction-status/index.ts:213-214 | the provider's not-found message is answered with 404 |
| TransactionStatus.ProviderAuthenticationFailedIs401 | supabase/functions/mtn-momo-transaction-status/index.ts:215-216 | the provider's authentication failure is answered with 401 |
| TransactionStatus.ProviderForbiddenIs403 | supabase/functions/mtn-momo-transaction-status/index.ts:217-218 | the provider's refusal is answered with 403 |
| TransactionStatus.ProviderRejectionsKeepTheirCodes | supabase/functions/mtn-momo-transaction-status/index.ts:203-222 | a provider 404, 401 or 403 reaches the browser with the same code |
| TransactionStatus.NoMarkers | supabase/functions/mtn-momo-transaction-status/index.ts:314-324 | a message built from pieces without the marker words is a server error |
| TransactionStatus.ConfigurationErrorsAre500 | supabase/functions/mtn-momo-transaction-status/index.ts:128-176 | missing provider credentials and a token reply without a token are answered with 500 |
| TransactionStatus.MissingMomoCredentialsIs500 | supabase/functions/mtn-momo-transaction-status/index.ts:128-135 | missing provider credentials are answered with 500 |
| TransactionStatus.NoAccessTokenIs500 | supabase/functions/mtn-momo-transaction-status/index.ts:173-176 | a token reply without an access token is answered with 500 |
| TransactionStatus.RequestToPayStatus | supabase/functions/mtn-momo-transaction-status/index.ts:239-258 | a status is paid exactly when it upper-cases to SUCCESSFUL, failed exactly when it upper-cases to FAILED or REJECTED, and pending otherwise |
| TransactionStatus.RequestToPayStatusIgnoresCase | supabase/functions/mtn-momo-transaction-status/index.ts:242 | the mapping ignores the case of the provider's status |
| TransactionStatus.StatusUpdate | supabase/functions/mtn-momo-transaction-status/index.ts:260-267 | the update writes the mapped status and the time, and writes a paid date (today's) exactly when the status is paid |
| TransactionStatus.UnknownStatusResetsPaidRow | supabase/functions/mtn-momo-transaction-status/index.ts:242-258 | a status the provider does not define turns a paid row back to pending |
| TransactionStatus.Poll | supabase/functions/mtn-momo-transaction-status/index.ts:105-298 | the poll succeeds exactly with a well-formed reference, both credentials, a token and an OK provider reply; a missing or malformed reference and each missing credential give their own error after reading the body alone; a token is only fetched with both credentials and the provider only asked with a usable token; a token failure and a provider failure give their messages; success returns the transaction with its status upper-cased; the row is written exactly when a payment is named and the transaction has a status, with that status |
| TransactionStatus.Normalized | supabase/functions/mtn-momo-transaction-status/index.ts:291-296 | the transaction returned keeps every field but the status, which is upper-cased, and present exactly when the provider gave one |
| TransactionStatus.Handle | supabase/functions/mtn-momo-transaction-status/index.ts:46-335 | no header gives 401 with no call; a header without the backend's address or key gives 400 with the client library's message and no call, whoever the caller is; otherwise a caller who is not an administrator is refused with 401 or 403 before the body is read; for an administrator, 200 exactly with a well-formed reference, the provider's credentials, a token and an OK provider reply, answering the normalized transaction stamped with the check time and updating the row with the provider status exactly when a payment is named and the status present; an error's code is the one its message classifies to |
| TransactionStatus.MalformedReferenceIsRefused | supabase/functions/mtn-momo-transaction-status/index.ts:111-114 | with the backend configured, an administrator's malformed reference is answered with 400 after reading the body, with no other call and no update |
| TransactionStatus.MissingReferenceIsRefused | supabase/functions/mtn-momo-transaction-status/index.ts:102-108 | with the backend configured, an administrator's missing reference is answered with 400 after reading the body, with no other call and no update |
| TransactionStatus.MissingMomoCredentialsIsServerError | supabase/functions/mtn-momo-transaction-status/index.ts:122-135 | with the backend configured, an administrator's well-formed reference without the provider's credentials is answered with 500 after reading the body alone |
| TransactionStatus.ClientErrorsAre400 | supabase/functions/mtn-momo-transaction-status/index.ts:314-324 | the client library's refusals of a missing address or key classify as 400 |
| TransactionStatus.MissingBackendConfigurationIs400 | supabase/functions/mtn-momo-transaction-status/index.ts:46-61 | a request with a header but without the backend's address or key is answered with 400 and the library's message before the caller is checked |
| TransactionStatus.BackendGuardIsUnreachable | supabase/functions/mtn-momo-transaction-status/index.ts:137-140 | no request is ever answered with the poll's own missing-backend message |
| TransactionStatus.UnknownReferenceIs404 | supabase/functions/mtn-momo-transaction-status/index.ts:213-214 | a reference the provider does not know is answered with 404 and leaves the row alone |
| InvoiceStatus.ResolveReference | supabase/functions/mtn-momo-invoice-status/index.ts:38-55 | a given reference is used as it is; otherwise the one stored on the named payment; the lookup fails exactly when neither is available |
| InvoiceStatus.InvoicePaymentStatus | supabase/functions/mtn-momo-invoice-status/index.ts:117-149 | CREATED and PENDING become pending, or expired when past due; SUCCESSFUL becomes paid; FAILED and CANCELLED become failed; any other status gives no payment status |
| InvoiceStatus.InvoiceUpdate | supabase/functions/mtn-momo-invoice-status/index.ts:112-149 | the provider's status and the time are always written; the paid date (today) and the transaction id come exactly with a payment, the id only when non-empty; a failure with a reason writes its code and message, an empty one as null |
| InvoiceStatus.Handle | supabase/functions/mtn-momo-invoice-status/index.ts:25-185 | answers 200 or 500; the provider is asked exactly when there are credentials, a resolvable reference and a token; 200 exactly after an OK reply, naming the resolved reference and the reply's status or UNKNOWN; the row is written exactly after success for a named payment, with the status expired when the row's due date has passed |
| InvoiceStatus.OverdueOpenInvoiceExpires | supabase/functions/mtn-momo-invoice-status/index.ts:100-132 | a successful check of an open invoice for a named payment leaves the row expired exactly when its due date has passed, and pending otherwise |
| InvoiceStatus.UnknownStatusKeepsRowStatus | supabase/functions/mtn-momo-invoice-status/index.ts:112-149 | any other status, including a missing one, writes only the provider's status and the time, and keeps the row's payment status |
| InvoiceStatus.MissingStatusIsUnknown | supabase/functions/mtn-momo-invoice-status/index.ts:95 | a reply without a status is reported as UNKNOWN and maps to no payment status |
| Callback.CallbackStatus | supabase/functions/mtn-momo-callback/index.ts:50-66 | SUCCESSFUL means paid, FAILED means failed, and every other value means pending |
| Callback.Handle | supabase/functions/mtn-momo-callback/index.ts:37-97 | a notification without an external id is refused with 400; otherwise it is acknowledged with 200, echoing its fields and the mapped status; a paid date is set exactly for a successful one |
| Callback.LowerCaseSuccessIsPending | supabase/functions/mtn-momo-callback/index.ts:50-66 | the callback compares case-sensitively, so `successful` is pending |
| CancelInvoice.ResolveIds | supabase/functions/mtn-momo-cancel-invoice/index.ts:32-43 | without a reference and a payment id the request fails with "referenceId or paymentId required"; with a payment id but no stored reference with "No momo_reference_id for payment"; a given reference is used with the external id given, else the payment id, else a random id; a stored reference is used with the external id given, else the stored one, else the payment id |
| CancelInvoice.CancelUpdate | supabase/functions/mtn-momo-cancel-invoice/index.ts:80-86 | a cancellation writes exactly status failed, invoice status CANCELLED and the given time |
| CancelInvoice.Handle | supabase/functions/mtn-momo-cancel-invoice/index.ts:25-94 | answers 200 or 500; missing credentials and unresolvable ids fail before the token is fetched; the DELETE carries exactly the resolved ids and is sent exactly with credentials, resolved ids and a token; an accepted cancellation with a readable reply answers 200 with the resolved reference, and marks a named payment failed and cancelled; a refused one answers 500 with the provider's code and text and writes nothing; 200 requires the provider's acceptance |
| CancelInvoice.GivenExternalIdIsKept | supabase/functions/mtn-momo-cancel-invoice/index.ts:36-43 | an empty external id in the body is not replaced by a fallback |
| CancelInvoice.StoredExternalIdBeforePaymentId | supabase/functions/mtn-momo-cancel-invoice/index.ts:35-39 | for a payment looked up by id, the stored external id wins over the payment id |
| CancelInvoice.UnreadableReplyAfterCancellation | supabase/functions/mtn-momo-cancel-invoice/index.ts:73-91 | a provider acceptance whose body is not JSON is answered with 500 even though the row was already cancelled |
| RequestPayment.CleanPayerPhone | supabase/functions/mtn-momo-request-payment/index.ts:99-112 | the payer's number starts with `+` and holds only digits and plus signs; it is the cleaned input or the sandbox payer |
| RequestPayment.CleanPayerPhoneByFirstCharacters | supabase/functions/mtn-momo-request-payment/index.ts:102-112 | the cleaned number is kept exactly when it starts with `+` and not with `+1`; otherwise the sandbox payer is used |
| RequestPayment.PayerPartyId | supabase/functions/mtn-momo-request-payment/index.ts:185 | the party id is the number without its leading plus |
| RequestPayment.BuildRequest | supabase/functions/mtn-momo-request-payment/index.ts:99-190 | the payer is the cleaned msisdn, or the cleaned phone number when msisdn is empty, without the plus; the description fills both messages, else their defaults; a validity in hours is sent in seconds, and only when non-zero; the reference is both the header and the external id |
| RequestPayment.RequestedUpdate | supabase/functions/mtn-momo-request-payment/index.ts:226-238 | the update writes exactly status pending, the method "MTN Mobile Money", the reference, request status PENDING and the given time |
| RequestPayment.Handle | supabase/functions/mtn-momo-request-payment/index.ts:40-275 | no authorization header gives 401 without any call, an unknown user 401, a non-administrator 403, none of them reading the body; the request is sent exactly for an administrator with credentials, a token and an amount, and is the body's request under the given external id or a random one; once sent, an OK reply answers 200 and a refusal 500 with the provider's code and text and no update; the one id is the header, the external id, the id answered and the id recorded by the update |
| RequestPayment.MissingPhoneFallsBackToSandbox | supabase/functions/mtn-momo-request-payment/index.ts:99-112 | without a number the sandbox payer is asked |
| RequestPayment.InternationalNumberIsKept | supabase/functions/mtn-momo-request-payment/index.ts:102-112 | a cleaned `+` number outside North America is the party id without its plus |
| CreateInvoice.CleanInvoicePhone | supabase/functions/mtn-momo-invoice-CreateInvoice/index.ts:124-129 | the invoice number is `+` followed by digits: the input's digits, or the sandbox payer |
| CreateInvoice.CleanInvoicePhoneAddsPlus | supabase/functions/mtn-momo-invoice-CreateInvoice/index.ts:124-129 | digits starting with 1 give the sandbox payer; any other digits get a leading plus |
| CreateInvoice.CreatedUpdate | supabase/functions/mtn-momo-invoice-CreateInvoice/index.ts:249-269 | the update writes exactly the reference, invoice status PENDING and the given time |
| CreateInvoice.Handle | supabase/functions/mtn-momo-invoice-CreateInvoice/index.ts:38-296 | no header gives 401, missing backend configuration 500, an unknown user 401, a non-administrator 403, in that order; an administrator without amount or number gets 400 before any token is asked for; the invoice is sent exactly for a configured administrator with amount, number and token, and it is the body's invoice; once sent, a refusal answers 500 "Failed to create invoice", and an OK reply answers 200 naming the header's reference and the payload's external id, except that a named payment without the service key answers 500 after the invoice exists; the row is updated exactly on a 200 for a named payment |
| CreateInvoice.BuildInvoice | supabase/functions/mtn-momo-invoice-CreateInvoice/index.ts:107-223 | the external id is the payment id, or a random id without one; the validity defaults to 24 hours and is sent in seconds; the payer is the cleaned number, the payee the given one or the sandbox payee; the description defaults to "Invoice"; the callback header only with a configured URL |
| CreateInvoice.ExternalIdIsPaymentId | supabase/functions/mtn-momo-invoice-CreateInvoice/index.ts:192-206 | a named payment's id is the invoice's external id |
| CreateInvoice.DefaultValidityIsOneDay | supabase/functions/mtn-momo-invoice-CreateInvoice/index.ts:106 | without a validity the invoice is valid for 86400 seconds |
| StatusAgreement.AgreeOnSuccessAndFailure | supabase/functions/mtn-momo-callback/index.ts:50-66 | the three status mappings agree on SUCCESSFUL and on FAILED |
| StatusAgreement.RejectedDisagrees | supabase/functions/mtn-momo-transaction-status/index.ts:247-250 | REJECTED is failed for the poller but pending for the callback |
| StatusAgreement.LowerCaseSuccessDisagrees | supabase/functions/mtn-momo-transaction-status/index.ts:242 | a lower-case success is paid for the poller, pending for the callback, and unhandled for the invoice poller |
| StatusAgreement.OngoingOnPaidRow | supabase/functions/mtn-momo-invoice-status/index.ts:122-149 | ONGOING turns a paid row pending through the poller, but keeps it paid through the invoice poller |
| StatusAgreement.OnlyInvoicePollerExpires | supabase/functions/mtn-momo-invoice-status/index.ts:122-132 | only the invoice poller ever writes expired |
| Invoke.Unwrap | src/hooks/useMtnMomo.ts:86-93 | the client gets a value exactly when the invocation returned with success, and the value is the payload; an invocation error keeps its message behind the prefix; an unsuccessful reply gives its error, or the fallback when that is empty |
| Invoke.UpperStatus | src/hooks/useMtnMomo.ts:141 | the status is present exactly when the record has one, and is upper-cased |
| MomoHook.RequestPayment | src/hooks/useMtnMomo.ts:70-113 | the function is invoked exactly for a number and a positive amount; the value is the reply's reference exactly when the reply succeeded, else none; a toast is always shown, destructive exactly with a failure, with the refusal's or the invocation error's message; the loading flag goes up then down |
| MomoHook.CheckTransactionStatus | src/hooks/useMtnMomo.ts:115-156 | the function is invoked exactly for a well-formed reference; a value comes exactly from a successful reply, with the status upper-cased and no toast; a failure gives a destructive toast |
| MomoHook.InvoiceAsPayment | src/hooks/useMtnMomo.ts:190-196 | the invoice becomes a payment request with the same number, amount and payment id |
| MomoHook.CreateInvoice | src/hooks/useMtnMomo.ts:190-196 | an invoice behaves as the payment request with its number, amount and payment id, whatever its validity and description |
| MomoHook.GetInvoiceStatus | src/hooks/useMtnMomo.ts:198-200 | a present reference is checked exactly as `checkTransactionStatus` checks it; a missing one invokes nothing, resolves to no value and shows the invalid-format destructive toast |
| MomoService.CreatePayment | src/services/mtnMomoService.ts:70-140 | the request is sent exactly when the number is international, the amount positive and any given currency supported, and carries the number, amount, ids and messages given with the currency upper-cased (EUR by default); otherwise the first failing check's message, in the order required fields, number, amount, currency; the reference returned is the reply's exactly when the reply succeeded |
| MomoService.ServicePaymentsIgnoreCurrencyAndMessages | src/services/mtnMomoService.ts:111-122 | a payment created through the service is asked for in euros with the default message, and the function never updates a row for it |
| MomoService.AcceptedNumbersReachTheProvider | src/services/mtnMomoService.ts:47-55 | a number the service accepts reaches the provider unchanged unless it is North American, which the function replaces by the sandbox payer |
| MomoService.GetPaymentStatus | src/services/mtnMomoService.ts:147-200 | the function is invoked exactly for a well-formed reference; an empty one is refused as required, any other malformed one as an invalid format; a result comes exactly from a successful reply and carries the record's fields, its status upper-cased and its check time or else now |
| MomoService.IsPaymentCompleted | src/services/mtnMomoService.ts:219-227 | a payment is completed exactly when the check succeeded with status SUCCESSFUL |
| MomoService.ExpectedWait | src/services/mtnMomoService.ts:235-266 | the wait ends with a final status or an error from some poll, or else with the time-out error |
| MomoService.WaitForCompletion | src/services/mtnMomoService.ts:235-266 | the polling loop returns the first poll that ends the wait, or the time-out, and makes no poll after it |
| StatusDisplay.PaymentStatusDisplay | src/lib/statusUtils.ts:12-129 | a non-empty request status decides the display, else a non-empty invoice status, else the row's own status; badge, text and expired flag agree, and a display is expired only past the due date or for an expired row |
| StatusDisplay.RequestDisplay | src/lib/statusUtils.ts:18-54 | PENDING shows awaiting payment or expired by the due date; SUCCESSFUL shows paid; FAILED and REJECTED show the failure with its message; any other status shows processing |
| StatusDisplay.InvoiceDisplay | src/lib/statusUtils.ts:57-94 | CREATED and PENDING show awaiting payment or expired by the due date; SUCCESSFUL shows paid; FAILED and CANCELLED show the failure with its message; any other status shows processing |
| StatusDisplay.LocalDisplay | src/lib/statusUtils.ts:97-129 | a paid row shows paid, a failed row plain "Failed" in red, an expired row expired; any other row awaiting payment or expired by the due date |
| StatusDisplay.FailedDisplay | src/lib/statusUtils.ts:40-47 | a failure shows "Failed: " and the stored message, or "Payment failed" without one, in red and not expired |
| StatusDisplay.ByDueDate | src/lib/statusUtils.ts:13-15 | the display is expired exactly past the due date, and otherwise shows awaiting payment |
| StatusDisplay.RequestStatusDominates | src/lib/statusUtils.ts:18-54 | once a request status is stored, the display depends only on it, the due date and the error message |
| StatusDisplay.InvoiceStatusHidesLocalStatus | src/lib/statusUtils.ts:57-94 | without a request status, a stored invoice status decides the display whatever the local status |
| StatusDisplay.ProviderFailureShowsReason | src/lib/statusUtils.ts:40-87 | a failed or rejected request, or a failed or cancelled invoice, shows "Failed: " and the stored error, or "Payment failed" |
| StatusDisplay.SettledNeverExpired | src/lib/statusUtils.ts:34-102 | a settled payment shows as paid, even past its due date |
| StatusDisplay.RowBadge | src/components/Payments.tsx:22-33 | paid rows get the default badge, overdue rows the destructive one, and all other rows the secondary one; never the outline badge |
| StatusDisplay.RowBadgeVersusDisplay | src/components/Payments.tsx:22-33 | without provider statuses the table's badge matches the status display for paid rows, but shows overdue rows as destructive where the display does not |
| Validations.AmountInCents | src/lib/validations.ts:30-33 | an amount in whole cents passes exactly when it is between one cent and a billion |
| Validations.AmountIssuesIgnoreTrailingZero | src/lib/validations.ts:30-33 | the amount checks give the same messages whatever trailing zeros the decimal carries |
| Validations.Verdict | src/lib/validations.ts:4-27 | a schema accepts exactly when it finds no issue |
| Validations.ParsePhone | src/lib/validations.ts:4-7 | a number is accepted exactly when the trimmed input matches `^\+?[1-9]\d{1,14}$`, and the accepted value is the trimmed input; a refusal ends with the format message, and an empty input also gets the required message first |
| Validations.ParseName | src/lib/validations.ts:17-21 | a name is accepted exactly when the trimmed input has 1 to 100 characters, all letters, white space, hyphens or apostrophes, and the accepted value is the trimmed input; a too-long or ill-formed name carries the matching message |
| Validations.ParseAddress | src/lib/validations.ts:24-27 | an address is accepted exactly when its trimmed form has 1 to 255 characters, and the trimmed form is the value |
| Validations.ParseIsIdempotent | src/lib/validations.ts:4-27 | parsing an accepted value again gives the same value |
| Validations.PhoneSchemaForgivesSurroundingSpace | src/lib/validations.ts:4-7 | white space around a valid number is dropped, not refused |
| Validations.ServiceNumbersPassTheSchema | src/services/mtnMomoService.ts:47-55 | every number the service accepts passes the form schema |
| Validations.SchemaNumberTheServiceRefuses | src/lib/validations.ts:4-7 | some number passes the form schema yet the service refuses it |
| Validations.TenantFormFieldwise | src/lib/validations.ts:36-45 | the tenant form passes exactly when each field passes its own schema |
| Validations.BedroomsRange | src/lib/validations.ts:55-58 | a whole number of bedrooms passes exactly from 0 to 20 |
| Validations.QuickPaymentOptionalFields | src/lib/validations.ts:82-88 | leaving out the optional fields never makes a quick payment fail; without them, the phone and the amount decide |
| InvoicesPage.Invoices | src/pages/Invoices.tsx:35-45 | every listed payment is an invoice that matches the search |
| InvoicesPage.InvoicesAreOneFilter | src/pages/Invoices.tsx:35-45 | the list keeps the payments' order, and a payment is listed exactly when it is an invoice and matches |
| InvoicesPage.EmptySearchListsAllInvoices | src/pages/Invoices.tsx:37 | an empty search lists every invoice |
| InvoicesPage.SearchIgnoresCase | src/pages/Invoices.tsx:38-43 | the search ignores the case of the query |
| InvoicesPage.ReferenceFindsInvoice | src/pages/Invoices.tsx:42 | an invoice is found by its reference id |
| InvoicesPage.CheckStatus | src/pages/Invoices.tsx:121-140 | the refresh is reported exactly when the status function answered; a settled answer names the reference stored on the row |
| InvoicesPage.ListedInvoiceIsCheckedByItsReference | src/pages/Invoices.tsx:121-140 | every listed invoice reaches the provider under its stored reference, and a provider answer updates the row and reports the refresh |
| InvoicesPage.PaidInvoiceLeavesCheckAll | src/pages/Invoices.tsx:143-145 | a check that finds the invoice paid makes the row paid, so "check all" no longer polls it |
| InvoicesPage.Ids | src/pages/Invoices.tsx:155-157 | one payment id per checked invoice, in order |
| InvoicesPage.CheckAllStatuses | src/pages/Invoices.tsx:143-175 | nothing is polled exactly when no invoice is unpaid with a reference; otherwise each such invoice is polled once, in order, and the toast counts them all |
| InvoicesPage.DisabledExactlyWhenNothingToCheck | src/pages/Invoices.tsx:268-272 | on the listed invoices, the idle "check all" button is disabled exactly when pressing it would find nothing to check |
| InvoicesPage.SelectTenant | src/pages/Invoices.tsx:48-56 | choosing a tenant copies the first matching tenant's rent and phone; an unknown id changes only the choice |
| InvoicesPage.InvoiceBody | src/pages/Invoices.tsx:87-93 | the page sends the row's id, the amount, the number, the validity and the description, and no payee |
| InvoicesPage.CreateFromForm | src/pages/Invoices.tsx:59-118 | an incomplete form only shows an error; a created invoice resets the form and names the reference; the inserted row is a pending MoMo payment due in thirty days |
| InvoicesPage.CreatedInvoiceIsListed | src/pages/Invoices.tsx:59-118 | an invoice reported as created is on the list with the reference the toast names, and "check all" will poll it |
| InvoicesPage.EnabledButtonPassesGuard | src/pages/Invoices.tsx:354-357 | whenever the create button can be pressed, the handler's guard passes; a zero validity disables the button but passes the guard |
| InvoicesPage.InvoiceBadge | src/pages/Invoices.tsx:210-219 | SUCCESSFUL gets the default badge, FAILED and CANCELLED the destructive one, and any other or no status the secondary one |
| InvoicesPage.InvoiceBadgeAgreesWithDisplay | src/pages/Invoices.tsx:210-219 | where the invoice status decides the display and it is not expired, the invoice badge matches it |
| InvoicesPage.CancelRow | src/pages/Invoices.tsx:177-197 | the cancellation is reported exactly when the cancel function answered; the provider is asked with the row's stored reference and its external id or else its payment id |
| InvoicesPage.CancelledRowOffersNoAction | src/pages/Invoices.tsx:440-458 | after a reported cancellation the row offers neither cancellation nor deletion; its status is failed, yet "check all" still polls it |
| PaymentsView.CompletedAndPendingAreDisjoint | src/components/Payments.tsx:19-20 | no payment is both completed and pending, and each set holds exactly the payments of its statuses |
| PaymentsView.TotalsPartitionTheAmounts | src/components/Payments.tsx:76-91 | collected, outstanding and the remaining amounts add up to the sum of all amounts |
| PaymentsView.TotalsBounded | src/components/Payments.tsx:76-91 | with non-negative amounts, both totals are non-negative and together at most the sum of all amounts |
| PaymentsView.OverdueCount | src/components/Payments.tsx:106 | the overdue count is at most the number of pending payments |
| PaymentsView.OverdueCountCountsAllOverdue | src/components/Payments.tsx:106 | counting overdue payments among the pending ones counts all overdue payments |
| PaymentsView.SuccessRate | src/components/Payments.tsx:121 | there is no rate exactly when there are no payments; otherwise it is the number of paid payments over the number of all payments, at most 100 percent |
| PaymentsView.FullRateMeansAllPaid | src/components/Payments.tsx:121 | the rate is full exactly when every payment is paid |
| PaymentsView.MethodIcon | src/components/Payments.tsx:35-43 | the card icon is chosen exactly when the method mentions card or credit in any case; the cash icon exactly when it mentions cash and neither of those |
| PaymentsView.MethodIconIgnoresCase | src/components/Payments.tsx:35-43 | the icon ignores the case of the method |
| PaymentsView.MethodWithoutCIsGeneric | src/components/Payments.tsx:35-43 | a method without the letter c gets the generic icon |
| PaymentsView.MobileMoneyIsGeneric | src/components/Payments.tsx:35-43 | "MTN Mobile Money" gets the generic icon |
| TenantsView.RecentPayment | src/components/Tenants.tsx:25-30 | there is no recent payment exactly when the tenant has none; otherwise it is the latest one, the earliest listed among equally recent ones |
| TenantsView.MostRecentIsUnique | src/components/Tenants.tsx:25-30 | at most one payment is the most recent |
| TenantsView.Label | src/components/Tenants.tsx:226-234 | pending reads "Payment Requested", paid "Recently Paid", and every other status "Payment Overdue", each with its own badge: secondary, default, destructive |
| TenantsView.LabelVersusRowBadge | src/components/Tenants.tsx:226-234 | the tenants card agrees with the payments table on paid, pending and overdue, but calls a failed payment overdue |
| TenantsView.CountsAreDisjoint | src/components/Tenants.tsx:117-118 | the active and overdue counts together are at most the number of tenants |
| TenantsView.TotalRentOfConcat | src/components/Tenants.tsx:119 | the total rent of two lists is the sum of their totals |
| TenantsView.TenantBadge | src/components/Tenants.tsx:104-115 | active tenants get the default badge, overdue ones the destructive one, and all others the secondary one |
| TenantsView.OverdueCardCountsDestructiveBadges | src/components/Tenants.tsx:104-118 | the overdue card counts exactly the tenants shown with a destructive badge |
| TenantsView.Initials | src/components/Tenants.tsx:208 | the initials have at most one letter per space-separated part and no space |
| TenantsView.InitialsOfTwoNames | src/components/Tenants.tsx:208 | a first and a last name give their two first letters |
| TenantsView.RequestedAmount | src/components/Tenants.tsx:61 | the entered amount is used unless it is zero, then the rent |
| TenantsView.SendPaymentRequest | src/components/Tenants.tsx:58-94 | a second press while loading is ignored; the inserted row is a pending MoMo payment for the tenant; the request follows only a successful insert; the dialog closes only once a reference came back |
| TenantsView.NoPhoneKeepsDialogOpen | src/components/Tenants.tsx:78-89 | a tenant without a phone is not asked, and the dialog stays open |
| TenantDetail.SetField | src/pages/TenantDetail.tsx:43-45 | changing a field sets it and keeps every other field |
| TenantDetail.EditContact | src/pages/TenantDetail.tsx:47-51 | editing a contact changes only that part of that contact |
| TenantDetail.AddContact | src/pages/TenantDetail.tsx:53-57 | adding appends one blank contact and keeps everything else |
| TenantDetail.RemoveContact | src/pages/TenantDetail.tsx:59-63 | removing deletes exactly the contact at the index and shifts the later ones; an index past the end changes nothing |
| TenantDetail.RemoveUndoesAdd | src/pages/TenantDetail.tsx:53-63 | removing the contact just added restores the contacts |
| TenantDetail.EditWithSameNameKeepsContacts | src/pages/TenantDetail.tsx:47-51 | writing a contact's own name back changes nothing |
| TenantDetail.AssignedProperty | src/pages/TenantDetail.tsx:37-40 | no property without a tenant id; otherwise the first property of the tenant, and none exactly when the tenant has none |
| TenantDetail.Extension | src/pages/TenantDetail.tsx:69 | the extension has no dot and is the text after the last dot |
| TenantDetail.ExtensionAfterLastDot | src/pages/TenantDetail.tsx:69 | a name ending in a dot and a dot-free extension gives that extension |
| TenantDetail.StoredName | src/pages/TenantDetail.tsx:69 | a stored file name is `tenantId_type_now.ext`: it starts with the tenant id, the type and the time stamp with their separators, has exactly their lengths plus the extension's and three separators, and its own extension is the uploaded file's |
| TenantDetail.HandleUpload | src/pages/TenantDetail.tsx:65-101 | nothing happens without a tenant; the file goes to the document type's bucket under the stored name; success records the URL in the type's field, failure keeps the form and shows a destructive toast |
| TenantDetail.UploadKeepsOtherDocument | src/pages/TenantDetail.tsx:65-101 | uploading the ID document keeps the lease document's field |
| Notifications.OnInsert | src/hooks/usePaymentNotifications.ts:21-27 | a new row is announced exactly when it is a pending MoMo payment |
| Notifications.OnUpdate | src/hooks/usePaymentNotifications.ts:42-57 | at most one notice: received exactly when the row just became paid, overdue exactly when it just became overdue |
| Notifications.UnchangedStatusIsSilent | src/hooks/usePaymentNotifications.ts:42-57 | an update that keeps the status shows nothing |
| Notifications.SuccessfulPollAnnouncesPayment | src/hooks/usePaymentNotifications.ts:42-48 | a successful poll announces the payment exactly when the row was not paid yet |
| Notifications.FunctionsNeverRaiseOverdue | src/hooks/usePaymentNotifications.ts:51-57 | no edge function's update ever triggers the overdue notice |

## Left out

- Network, HTTP headers, JSON parsing and the provider's token exchange are inputs: each reply is a parameter, and a body that fails to parse is not modelled.
- Clocks, `Date.now()`, `crypto.randomUUID()` and today's date are parameters.
- The OPTIONS (CORS preflight) path of every function is left out: it only returns the CORS headers.
- `logDebug` and console logging are left out: they do not change any outcome.
- A failed row update in the functions is only logged, so it is not modelled as a separate outcome.
- A `TypeError` thrown by a body field of the wrong JSON type is left out: the model types every field.
- `null` and `undefined` are both `None`.
- Case mapping covers ASCII letters only. Strings are sequences of characters, not UTF-16 code units.
- Amounts are whole currency units. The zod amount schema uses exact decimals (`Decimal`) rather than floating point, so `multipleOf(0.01)`'s rounding on binary doubles is not modelled.
- `toLocaleString` and `toFixed` formatting are left out.
- Dates are compared as numbers. An invalid or missing `created_at` (a NaN sort key) is not modelled.
- The email format test of `z.string().email()` is a boolean parameter, `Validations.EmailIssues`. zod's `uuid()` is taken to be the same 8-4-4-4-12 check as the functions'.
- `getAccountBalance` and `manageInvoice` of the hook (src/hooks/useMtnMomo.ts:37-67, 158-188) are left out: they call `mtn-momo-balance` and `mtn-momo-invoice`, which are not part of this model.
- The service's singleton accessor `getInstance` is left out.
- `MomoService.WaitForCompletion` takes the poll results as a sequence: the sleep between polls and the wall-clock deadline become the number of polls.
- "Check all" runs its polls concurrently with `Promise.all`. `InvoicesPage.CheckAllStatuses` lists the polls in order and ignores their interleaving, because each failure is caught on its own.
- `handleDeleteInvoice` (src/pages/Invoices.tsx:222-240) only calls the payments hook's delete, which is not part of this model; only its button's visibility (`DeleteShown`) is modelled.
- Data refetching and the loading and spinner flags of the pages are left out; only the hook's loading flag is modelled.
- The client library's message for a reply outside 2xx is a parameter of `InvoicesPage.CreateFromForm`.
- InvoicesPage.CheckStatus: the row the status function reads is taken to be the row the page shows, so a lookup failure in the database is not modelled.
- InvoicesPage.CancelRow: as above, the cancel function reads the ids stored on the row the page shows.
- TenantDetail.EditContact: requires an index of an existing contact. The page only passes indices of listed contacts, and writing past the end of a JavaScript array is not modelled.
- TenantsView.Initials: states a bound and the absence of spaces, plus the two-name case (`InitialsOfTwoNames`), rather than the initials of every name. An empty part contributes nothing, as `join` writes `undefined` as an empty string.
- The tenant detail page's save and delete handlers, and the tenant and property forms' dialogs, only call hooks that are not part of this model.
- The callback's `reason` field is read but never used by the function, so it is not modelled.
- Notifications.OnUpdate: reads the row's previous status from the change event, which the database only sends in full when the table's replica identity is FULL; that setting is not part of this model and is taken to hold.
- TransactionStatus.Handle: the backend client library is not part of this model. Its refusal of an empty address or key ("supabaseUrl is required." or "supabaseKey is required.") is taken from the library's documented behaviour.
- RequestPayment.Handle: the backend client built before the caller check throws without the backend's address or key, which answers 500 with the library's message. The model takes the backend as configured.
- Callback.Handle: the backend client throws without the backend's address or key, which answers 500. The model takes the backend as configured, so its codes 200 and 400 and its single body read assume it.
- CancelInvoice.Handle: the backend client throws without the backend's address or key, which answers 500 before the body is read. The model takes the backend as configured.
- InvoiceStatus.Handle: the backend client throws without the backend's address or key, which answers 500 before the body is read. The model takes the backend as configured.
- The invoice-status function parses the row's due date with `new Date`. Here that date is an optional number parameter.

=== FILE: callback.dfy ===
/** The `mtn-momo-callback` edge function: the provider's notification about
    a request-to-pay. It maps the reported status onto a payment status and
    echoes it back; it writes nothing to the database. */
module Callback {
  import opened Wrappers
  import opened Text
  import opened Http
  import PaymentStatus
  import ProviderStatus

  /** The notification's fields (`reason` is read but not used). */
  datatype Notification = Notification(
    externalId: Option<string>,
    status: Option<string>,
    amount: Option<string>,
    currency: Option<string>,
    financialTransactionId: Option<string>)

  datatype Processed = Processed(
    externalId: string,
    status: PaymentStatus.Status,
    amount: Option<string>,
    currency: Option<string>,
    financialTransactionId: Option<string>)

  datatype ResponseBody = Accepted(message: string, processed: Processed) | Error(error: string)

  datatype Response = Response(code: int, body: ResponseBody)

  /** The response, the calls made, and the paid date the function computes
      (it only logs it). */
  datatype Outcome = Outcome(response: Response, calls: seq<Call>, paidDate: Option<string>)

  /** The payment status a notified status stands for, by exact comparison:
      only `SUCCESSFUL` and `FAILED` change anything, every other status,
      a missing one included, reads as pending. */
  function CallbackStatus(status: Option<string>): (st: PaymentStatus.Status)
    ensures st in {PaymentStatus.Paid, PaymentStatus.Failed, PaymentStatus.Pending}
    ensures st == PaymentStatus.Paid <==> status == Some("SUCCESSFUL")
    ensures st == PaymentStatus.Failed <==> status == Some("FAILED")
  {
    if status.None? then PaymentStatus.Pending
    else
      match ProviderStatus.Parse(status.value)
      case Successful => PaymentStatus.Paid
      case Failed => PaymentStatus.Failed
      case Pending => PaymentStatus.Pending
      case _ => PaymentStatus.Pending
  }

  /** The whole function. A notification without an external id is refused
      with 400; any other is accepted with 200, its status mapped and its
      other fields echoed unchanged. Nothing is written either way. */
  function Handle(n: Notification, today: string): (o: Outcome)
    ensures o.calls == [ReadBody]
    ensures o.response.code in {200, 400}
    ensures o.response.code == 400 <==> !Truthy(n.externalId)
    ensures o.response.body.Accepted? <==> o.response.code == 200
    ensures o.response.body.Accepted? ==>
      var d := o.response.body.processed;
      && Some(d.externalId) == n.externalId
      && d.amount == n.amount && d.currency == n.currency
      && d.financialTransactionId == n.financialTransactionId
      && d.status == CallbackStatus(n.status)
    ensures o.paidDate.Some? <==> o.response.code == 200 && n.status == Some("SUCCESSFUL")
  {
    if !Truthy(n.externalId) then
      Outcome(Response(400, Error("Missing externalId in callback")), [ReadBody], None)
    else
      var st := CallbackStatus(n.status);
      var processed := Processed(n.externalId.value, st, n.amount, n.currency, n.financialTransactionId);
      Outcome(Response(200, Accepted("Callback processed successfully", processed)), [ReadBody],
              if st == PaymentStatus.Paid then Some(today) else None)
  }

  /** The mapping is case-sensitive: a lower-case `successful` is not a payment. */
  lemma LowerCaseSuccessIsPending()
    ensures CallbackStatus(Some("successful")) == PaymentStatus.Pending
  {
  }
}

=== FILE: cancel_invoice.dfy ===
/** The `mtn-momo-cancel-invoice` edge function: cancels an invoice at the
    provider, by reference id or through the payment row that stores it, and
    marks the payment failed. */
module CancelInvoice {
  import opened Wrappers
  import opened Text
  import opened Http
  import opened Records
  import PaymentStatus

  datatype Body = Body(paymentId: Option<string>, referenceId: Option<string>, externalId: Option<string>)

  /** The ids stored on the payment row. */
  datatype StoredIds = StoredIds(referenceId: Option<string>, externalId: Option<string>)

  /** The provider's reply to the cancellation; `parseError` is the JSON
      parser's message when the text is not valid JSON. */
  datatype CancelReply = CancelReply(code: int, text: string, parseError: Option<string>)

  /** The DELETE request sent to the provider: the invoice's reference id and
      the external id in the body. */
  datatype CancelRequest = CancelRequest(referenceId: string, externalId: string)

  datatype ResponseBody = Cancelled(referenceId: string) | Error(error: string)

  datatype Response = Response(code: int, body: ResponseBody)

  datatype Outcome = Outcome(
    response: Response,
    calls: seq<Call>,
    request: Option<CancelRequest>,
    update: Option<PaymentUpdate>)

  function Thrown(message: string): string { "Error: " + message }

  const MissingCredentials := "Missing MoMo credentials"
  const NoStoredReference := "No momo_reference_id for payment"
  const ReferenceOrPaymentRequired := "referenceId or paymentId required"

  /** The reference and external ids to cancel with, or the error thrown.
      `stored` is absent when the row lookup fails; `generated` is the random id
      used when nothing else supplies an external id. */
  function ResolveIds(body: Body, stored: Option<StoredIds>, generated: string): (r: Result<CancelRequest, string>)
    ensures r.Ok? ==> r.value.referenceId != ""
    ensures r == Err(NoStoredReference) <==>
      !Truthy(body.referenceId) && Truthy(body.paymentId) && !(stored.Some? && Truthy(stored.value.referenceId))
    ensures r == Err(ReferenceOrPaymentRequired) <==> !Truthy(body.referenceId) && !Truthy(body.paymentId)
    ensures Truthy(body.referenceId) ==>
      r == Ok(CancelRequest(body.referenceId.value,
                            if body.externalId.Some? then body.externalId.value
                            else if body.paymentId.Some? then body.paymentId.value
                            else generated))
    ensures !Truthy(body.referenceId) && Truthy(body.paymentId) && stored.Some? && Truthy(stored.value.referenceId) ==>
      r == Ok(CancelRequest(stored.value.referenceId.value,
                            if body.externalId.Some? then body.externalId.value
                            else if stored.value.externalId.Some? then stored.value.externalId.value
                            else body.paymentId.value))
  {
    var ref := body.referenceId;
    var ext := body.externalId;
    if !Truthy(ref) && Truthy(body.paymentId) then
      if stored.None? || !Truthy(stored.value.referenceId) then Err(NoStoredReference)
      else
        var ext' := Coalesce(ext, Coalesce(stored.value.externalId, body.paymentId));
        Ok(CancelRequest(stored.value.referenceId.value, Coalesce(ext', body.paymentId).GetOr(generated)))
    else if !Truthy(ref) then Err(ReferenceOrPaymentRequired)
    else Ok(CancelRequest(ref.value, Coalesce(ext, body.paymentId).GetOr(generated)))
  }

  /** The update for a cancelled invoice: failed, cancelled, and the time. */
  function CancelUpdate(now: string): (u: PaymentUpdate)
    ensures Columns(u) == {"status", "momo_invoice_status", "updated_at"}
    ensures u.status == Some(PaymentStatus.Failed) && u.invoiceStatus == Some("CANCELLED")
    ensures u.updatedAt == Some(now)
  {
    NoChange.(status := Some(PaymentStatus.Failed), invoiceStatus := Some("CANCELLED"), updatedAt := Some(now))
  }

  /** The whole function. The provider is only asked to cancel once the
      credentials are present and the ids resolved; the row is only updated
      after the provider accepted the cancellation, and only for a named
      payment. The response is 200 only when the cancellation went through
      and its reply could be read. */
  function Handle(credentials: bool, body: Body, stored: Option<StoredIds>, generated: string,
                  token: TokenReply, reply: CancelReply, now: string): (o: Outcome)
    ensures o.response.code in {200, 500}
    ensures o.response.code == 200 <==> o.response.body.Cancelled?
    ensures o.request.Some? <==> ProviderCall in o.calls
    ensures o.request.Some? ==> credentials && IsOk(token.code)
    ensures o.update.Some? ==> o.request.Some? && IsOk(reply.code) && Truthy(body.paymentId)
    ensures o.update.Some? ==> o.update.value == CancelUpdate(now)
    ensures o.response.code == 200 ==> o.request.Some? && IsOk(reply.code)
    ensures !credentials ==> o.response == Response(500, Error(Thrown(MissingCredentials))) && o.calls == []
    ensures credentials && ResolveIds(body, stored, generated).Err? ==>
      o.response == Response(500, Error(Thrown(ResolveIds(body, stored, generated).error))) && FetchToken !in o.calls
    ensures o.request.Some? <==> credentials && ResolveIds(body, stored, generated).Ok? && IsOk(token.code)
    ensures o.request.Some? ==> ResolveIds(body, stored, generated) == Ok(o.request.value)
    ensures o.request.Some? && IsOk(reply.code) && Truthy(body.paymentId) ==> o.update == Some(CancelUpdate(now))
    ensures o.request.Some? && IsOk(reply.code) && (reply.text == "" || reply.parseError.None?) ==>
      o.response == Response(200, Cancelled(o.request.value.referenceId))
    ensures o.request.Some? && !IsOk(reply.code) ==>
      o.response == Response(500, Error(Thrown("CancelInvoice error " + IntToString(reply.code) + ": " + reply.text)))
      && o.update.None?
  {
    if !credentials then Outcome(Response(500, Error(Thrown(MissingCredentials))), [], None, None)
    else
      var lookup := if !Truthy(body.referenceId) && Truthy(body.paymentId) then [ReadPayment] else [];
      match ResolveIds(body, stored, generated)
      case Err(e) => Outcome(Response(500, Error(Thrown(e))), [ReadBody] + lookup, None, None)
      case Ok(request) =>
        var asked := [ReadBody] + lookup + [FetchToken];
        if !IsOk(token.code) then
          Outcome(Response(500, Error(Thrown("Token error " + IntToString(token.code) + ": " + token.text))),
                  asked, None, None)
        else if !IsOk(reply.code) then
          Outcome(Response(500, Error(Thrown("CancelInvoice error " + IntToString(reply.code) + ": " + reply.text))),
                  asked + [ProviderCall], Some(request), None)
        else
          var update := if Truthy(body.paymentId) then Some(CancelUpdate(now)) else None;
          var written := asked + [ProviderCall] + (if update.Some? then [WritePayment] else []);
          var response :=
            if reply.text != "" && reply.parseError.Some? then
              Response(500, Error("SyntaxError: " + reply.parseError.value))
            else Response(200, Cancelled(request.referenceId));
          Outcome(response, written, Some(request), update)
  }

  /** An external id given in the body, even an empty one, is used as it is:
      the fallbacks only apply when it is absent. */
  lemma GivenExternalIdIsKept(body: Body, stored: Option<StoredIds>, generated: string)
    requires Truthy(body.referenceId) && body.externalId == Some("")
    ensures ResolveIds(body, stored, generated) == Ok(CancelRequest(body.referenceId.value, ""))
  {
  }

  /** Cancelling through the payment row uses the row's external id before
      the payment id. */
  lemma StoredExternalIdBeforePaymentId(body: Body, ids: StoredIds, generated: string)
    requires !Truthy(body.referenceId) && Truthy(body.paymentId) && body.externalId.None?
    requires Truthy(ids.referenceId) && ids.externalId.Some?
    ensures ResolveIds(body, Some(ids), generated) == Ok(CancelRequest(ids.referenceId.value, ids.externalId.value))
  {
  }

  /** A non-empty reply that is not JSON turns a cancellation that went
      through, and was recorded on the row, into a 500 response. */
  lemma UnreadableReplyAfterCancellation(body: Body, stored: Option<StoredIds>, generated: string,
                                         token: TokenReply, reply: CancelReply, now: string)
    requires Truthy(body.referenceId) && Truthy(body.paymentId)
    requires IsOk(token.code) && IsOk(reply.code) && reply.text != "" && reply.parseError.Some?
    ensures Handle(true, body, stored, generated, token, reply, now).response.code == 500
    ensures Handle(true, body, stored, generated, token, reply, now).update == Some(CancelUpdate(now))
  {
  }
}

=== FILE: create_invoice.dfy ===
/** The `mtn-momo-invoice-CreateInvoice` edge function: an administrator
    creates an invoice at the provider for an amount and a payer's phone; the
    invoice gets a fresh reference id, which is recorded on the payment row. */
module CreateInvoice {
  import opened Wrappers
  import opened Text
  import opened Http
  import opened Records

  /** The caller as the backend resolves it: `user` is absent when the token
      lookup fails or finds no user, `role` when no profile row is found. */
  datatype Caller = Caller(authHeader: Option<string>, user: Option<string>, role: Option<string>)

  /** What the function reads from its configuration: the backend's address
      and public key, the provider's credentials, the callback address, and
      the backend's service key, which is only read to update a row. */
  datatype Env = Env(backendConfig: bool, momoConfig: bool, callbackUrl: Option<string>, serviceKey: bool)

  datatype Body = Body(
    paymentId: Option<string>,
    amount: Option<int>,
    msisdn: Option<string>,
    validityHours: Option<int>,
    description: Option<string>,
    payeeMsisdn: Option<string>)

  /** The invoice as sent: headers and payload. */
  datatype InvoiceRequest = InvoiceRequest(
    referenceHeader: string,
    callbackHeader: Option<string>,
    externalId: string,
    amount: string,
    currency: string,
    validitySeconds: string,
    payerPartyId: string,
    payeePartyId: string,
    description: string)

  datatype ResponseBody = Created(referenceId: string, externalId: string) | Error(error: string)

  datatype Response = Response(code: int, body: ResponseBody)

  datatype Outcome = Outcome(
    response: Response,
    calls: seq<Call>,
    request: Option<InvoiceRequest>,
    update: Option<PaymentUpdate>)

  const SandboxPayer := "+46114699151"
  const SandboxPayee := "+4611234567"

  /** The payer's number as sent: its digits behind a plus sign, or the
      sandbox test payer when the digits start with `1`. */
  function CleanInvoicePhone(msisdn: string): (phone: string)
    ensures |phone| > 0 && phone[0] == '+'
    ensures AllDigits(phone[1..])
    ensures phone == SandboxPayer || phone == "+" + KeepDigits(msisdn)
  {
    var clean := KeepDigits(msisdn);
    if StartsWith(clean, "1") then SandboxPayer
    else if !StartsWith(clean, "+") then "+" + clean
    else clean
  }

  /** The digits of a number never start with a plus sign, so every number
      whose digits do not start with `1` gets one put in front. */
  lemma CleanInvoicePhoneAddsPlus(msisdn: string)
    ensures var c := KeepDigits(msisdn);
      CleanInvoicePhone(msisdn) == (if |c| > 0 && c[0] == '1' then SandboxPayer else "+" + c)
  {
    var c := KeepDigits(msisdn);
    if |c| > 0 {
      assert IsDigit(c[0]);
    }
  }

  /** The update that records a created invoice on the payment row. */
  function CreatedUpdate(referenceId: string, now: string): (u: PaymentUpdate)
    ensures Columns(u) == {"momo_reference_id", "momo_invoice_status", "updated_at"}
    ensures u.momoReferenceId == Some(referenceId) && u.invoiceStatus == Some("PENDING")
    ensures u.updatedAt == Some(now)
  {
    NoChange.(momoReferenceId := Some(referenceId), invoiceStatus := Some("PENDING"), updatedAt := Some(now))
  }

  /** The invoice sent for a body. `referenceId` and `externalId` are the two
      random ids the function draws: the first always names the invoice, the
      second only stands in for a missing payment id. An absent validity means
      a day, an absent description "Invoice", an empty payee the sandbox
      payee. */
  function BuildInvoice(env: Env, body: Body, amount: int, msisdn: string,
                        referenceId: string, externalId: string): (r: InvoiceRequest)
    ensures r.referenceHeader == referenceId
    ensures r.callbackHeader == (if Truthy(env.callbackUrl) then env.callbackUrl else None)
    ensures r.externalId == (if Truthy(body.paymentId) then body.paymentId.value else externalId)
    ensures r.amount == IntToString(amount) && r.currency == "EUR"
    ensures r.validitySeconds == IntToString((if body.validityHours.Some? then body.validityHours.value else 24) * 3600)
    ensures r.payerPartyId == CleanInvoicePhone(msisdn)
    ensures r.payeePartyId == (if Truthy(body.payeeMsisdn) then body.payeeMsisdn.value else SandboxPayee)
    ensures r.description == (if body.description.Some? then body.description.value else "Invoice")
  {
    InvoiceRequest(
      referenceId,
      if Truthy(env.callbackUrl) then env.callbackUrl else None,
      OrDefault(body.paymentId, externalId),
      IntToString(amount),
      "EUR",
      IntToString(body.validityHours.GetOr(24) * 3600),
      CleanInvoicePhone(msisdn),
      OrDefault(body.payeeMsisdn, SandboxPayee),
      body.description.GetOr("Invoice"))
  }

  predicate IsAdmin(caller: Caller) {
    Truthy(caller.authHeader) && caller.user.Some? && caller.role == Some("admin")
  }

  /** The whole function. `referenceId` and `externalId` are the random ids
      it draws. Only an administrator's request with an amount and a number
      reaches the provider; the response names the reference id sent in the
      header and the external id sent in the payload; the row is only
      updated once the invoice exists, and only for a named payment. */
  function Handle(caller: Caller, env: Env, body: Body, referenceId: string, externalId: string,
                  token: TokenReply, reply: PlainReply, now: string): (o: Outcome)
    ensures o.response.code in {200, 400, 401, 403, 500}
    ensures o.response.code == 200 <==> o.response.body.Created?
    ensures o.request.Some? <==> ProviderCall in o.calls
    ensures o.request.Some? ==>
      IsAdmin(caller) && env.backendConfig && env.momoConfig && IsOk(token.code)
      && body.amount.Some? && body.amount.value != 0 && Truthy(body.msisdn)
    ensures o.response.body.Created? ==>
      && o.request.Some? && IsOk(reply.code)
      && o.response.body.referenceId == o.request.value.referenceHeader == referenceId
      && o.response.body.externalId == o.request.value.externalId
    ensures o.update.Some? <==> o.response.code == 200 && Truthy(body.paymentId)
    ensures o.update.Some? ==> o.update.value == CreatedUpdate(referenceId, now)
    ensures !Truthy(caller.authHeader) ==> o.response == Response(401, Error("Missing authorization header")) && o.calls == []
    ensures Truthy(caller.authHeader) && !env.backendConfig ==>
      o.response == Response(500, Error("Server configuration error")) && o.calls == []
    ensures Truthy(caller.authHeader) && env.backendConfig && caller.user.None? ==>
      o.response == Response(401, Error("Authentication failed")) && ReadBody !in o.calls
    ensures Truthy(caller.authHeader) && env.backendConfig && caller.user.Some? && caller.role != Some("admin") ==>
      o.response == Response(403, Error("Insufficient permissions")) && ReadBody !in o.calls
    ensures IsAdmin(caller) && env.backendConfig && !(body.amount.Some? && body.amount.value != 0 && Truthy(body.msisdn)) ==>
      o.response == Response(400, Error("Missing required fields: amount and msisdn")) && FetchToken !in o.calls
    ensures IsAdmin(caller) && env.backendConfig && body.amount.Some? && body.amount.value != 0 && Truthy(body.msisdn)
            && !env.momoConfig ==>
      o.response == Response(500, Error("MTN MoMo configuration not found")) && FetchToken !in o.calls
    ensures o.request.Some? <==>
      IsAdmin(caller) && env.backendConfig && env.momoConfig && IsOk(token.code)
      && body.amount.Some? && body.amount.value != 0 && Truthy(body.msisdn)
    ensures o.request.Some? ==>
      o.request.value == BuildInvoice(env, body, body.amount.value, body.msisdn.value, referenceId, externalId)
    ensures o.request.Some? && !IsOk(reply.code) ==>
      o.response == Response(500, Error("Failed to create invoice")) && o.update.None?
    ensures o.request.Some? && IsOk(reply.code) && (env.serviceKey || !Truthy(body.paymentId)) ==>
      o.response == Response(200, Created(referenceId, o.request.value.externalId))
    ensures o.request.Some? && IsOk(reply.code) && Truthy(body.paymentId) && !env.serviceKey ==>
      o.response == Response(500, Error("Internal server error")) && o.update.None?
  {
    if !Truthy(caller.authHeader) then Outcome(Response(401, Error("Missing authorization header")), [], None, None)
    else if !env.backendConfig then Outcome(Response(500, Error("Server configuration error")), [], None, None)
    else if caller.user.None? then Outcome(Response(401, Error("Authentication failed")), [CheckCaller], None, None)
    else if caller.role != Some("admin") then
      Outcome(Response(403, Error("Insufficient permissions")), [CheckCaller], None, None)
    else if body.amount.None? || body.amount.value == 0 || !Truthy(body.msisdn) then
      Outcome(Response(400, Error("Missing required fields: amount and msisdn")), [CheckCaller, ReadBody], None, None)
    else if !env.momoConfig then
      Outcome(Response(500, Error("MTN MoMo configuration not found")), [CheckCaller, ReadBody], None, None)
    else if !IsOk(token.code) then
      Outcome(Response(500, Error("Failed to obtain access token")), [CheckCaller, ReadBody, FetchToken], None, None)
    else
      var request := BuildInvoice(env, body, body.amount.value, body.msisdn.value, referenceId, externalId);
      var asked := [CheckCaller, ReadBody, FetchToken, ProviderCall];
      if !IsOk(reply.code) then
        Outcome(Response(500, Error("Failed to create invoice")), asked, Some(request), None)
      else if Truthy(body.paymentId) && !env.serviceKey then
        // the invoice exists, but the client for the row update cannot be built
        Outcome(Response(500, Error("Internal server error")), asked, Some(request), None)
      else if Truthy(body.paymentId) then
        Outcome(Response(200, Created(referenceId, request.externalId)), asked + [WritePayment],
                Some(request), Some(CreatedUpdate(referenceId, now)))
      else
        Outcome(Response(200, Created(referenceId, request.externalId)), asked, Some(request), None)
  }

  /** The invoice's external id is the payment id when one is given, so a
      later callback can be matched with the row. */
  lemma ExternalIdIsPaymentId(env: Env, body: Body, amount: int, msisdn: string, referenceId: string, externalId: string)
    requires Truthy(body.paymentId)
    ensures BuildInvoice(env, body, amount, msisdn, referenceId, externalId).externalId == body.paymentId.value
  {
  }

  /** Without a validity in the body the invoice is valid for a day. */
  lemma DefaultValidityIsOneDay(env: Env, body: Body, amount: int, msisdn: string, referenceId: string, externalId: string)
    requires body.validityHours.None?
    ensures BuildInvoice(env, body, amount, msisdn, referenceId, externalId).validitySeconds == "86400"
  {
    assert NatToString(8) == "8";
    assert NatToString(86) == "86";
    assert NatToString(864) == "864";
    assert NatToString(8640) == "8640";
    assert NatToString(86400) == "86400";
  }
}

=== FILE: http.dfy ===
/** What the edge functions see of the outside world: the calls they make, in
    order, and the replies of the provider's HTTP API. */
module Http {
  import opened Wrappers

  /** One effect of a handler, recorded in the order it happens. */
  datatype Call =
    | CheckCaller     // resolving the caller's user and role from the backend
    | ReadBody        // parsing the request's JSON body
    | ReadPayment     // a select on the `payments` table
    | FetchToken      // POST to the provider's token endpoint
    | ProviderCall    // the provider operation proper
    | WritePayment    // an update of the `payments` table

  /** `response.ok` of the Fetch API. */
  predicate IsOk(code: int) { 200 <= code <= 299 }

  /** The token endpoint's reply: status code, raw text and, when it parsed,
      the `access_token` field. */
  datatype TokenReply = TokenReply(code: int, text: string, accessToken: Option<string>)

  /** A provider reply whose body the handler only reads on failure. */
  datatype PlainReply = PlainReply(code: int, text: string)
}

=== FILE: invoice_status.dfy ===
/** The `mtn-momo-invoice-status` edge function: looks up the provider's
    status of an invoice, by reference id or through the payment row that
    stores it, and records the status on the payment row, marking open
    invoices past their due date as expired. */
module InvoiceStatus {
  import opened Wrappers
  import opened Text
  import opened Http
  import opened Records
  import PaymentStatus
  import ProviderStatus

  datatype Body = Body(paymentId: Option<string>, referenceId: Option<string>)

  /** The `reason` object of a failed invoice. */
  datatype Reason = Reason(code: Option<string>, message: Option<string>)

  /** The provider's invoice record, as far as the function reads it. */
  datatype InvoiceReply = InvoiceReply(
    code: int,
    text: string,
    status: Option<string>,
    financialTransactionId: Option<string>,
    reason: Option<Reason>)

  datatype ResponseBody = Settled(referenceId: string, status: string) | Error(error: string)

  datatype Response = Response(code: int, body: ResponseBody)

  datatype Outcome = Outcome(response: Response, calls: seq<Call>, update: Option<PaymentUpdate>)

  const MissingCredentials := "Missing MoMo credentials"
  const NoStoredReference := "No momo_reference_id found for payment"
  const ReferenceOrPaymentRequired := "referenceId or paymentId required"

  /** `String(error)` of a thrown `Error`. */
  function Thrown(message: string): string { "Error: " + message }

  /** The reference id to query: the one given, else the one stored on the
      named payment row (`stored` is absent when the lookup fails). */
  function ResolveReference(body: Body, stored: Option<string>): (r: Result<string, string>)
    ensures r.Ok? ==> r.value != ""
    ensures Truthy(body.referenceId) ==> r == Ok(body.referenceId.value)
    ensures !Truthy(body.referenceId) && Truthy(body.paymentId) && Truthy(stored) ==> r == Ok(stored.value)
    ensures r.Err? <==> !Truthy(body.referenceId) && !(Truthy(body.paymentId) && Truthy(stored))
  {
    if Truthy(body.referenceId) then Ok(body.referenceId.value)
    else if Truthy(body.paymentId) then
      if Truthy(stored) then Ok(stored.value) else Err(NoStoredReference)
    else Err(ReferenceOrPaymentRequired)
  }

  /** The invoice statuses the function maps onto a payment status. */
  predicate HandledStatus(s: string) {
    s in ["CREATED", "PENDING", "SUCCESSFUL", "FAILED", "CANCELLED"]
  }

  /** The payment status an invoice status is recorded as, if any: open
      invoices are pending, or expired once past due; settled ones paid;
      failed or cancelled ones failed; any other status leaves the column
      alone. */
  function InvoicePaymentStatus(invoiceStatus: string, expired: bool): (st: Option<PaymentStatus.Status>)
    ensures st.None? <==> !HandledStatus(invoiceStatus)
    ensures invoiceStatus == "CREATED" || invoiceStatus == "PENDING" ==>
      st == Some(if expired then PaymentStatus.Expired else PaymentStatus.Pending)
    ensures invoiceStatus == "SUCCESSFUL" ==> st == Some(PaymentStatus.Paid)
    ensures invoiceStatus == "FAILED" || invoiceStatus == "CANCELLED" ==> st == Some(PaymentStatus.Failed)
    ensures st == Some(PaymentStatus.Expired) ==> expired
  {
    match ProviderStatus.Parse(invoiceStatus)
    case Created | Pending => Some(if expired then PaymentStatus.Expired else PaymentStatus.Pending)
    case Successful => Some(PaymentStatus.Paid)
    case Failed | Cancelled => Some(PaymentStatus.Failed)
    case _ => None
  }

  /** `x || null` on a reason field. */
  function OrNull(x: Option<string>): Option<string> {
    if Truthy(x) then x else None
  }

  /** The update the function sends for an invoice status. It always records
      the provider's status and the time; the paid date and transaction id
      only come with a payment, the error details only with a failure. */
  function InvoiceUpdate(invoiceStatus: string, expired: bool, financialTransactionId: Option<string>,
                         reason: Option<Reason>, now: string, today: string): (u: PaymentUpdate)
    ensures u.invoiceStatus == Some(invoiceStatus) && u.updatedAt == Some(now)
    ensures u.status == InvoicePaymentStatus(invoiceStatus, expired)
    ensures u.paidDate.Some? <==> u.status == Some(PaymentStatus.Paid)
    ensures u.paidDate.Some? ==> u.paidDate.value == today
    ensures u.financialTransactionId.Some? <==> u.status == Some(PaymentStatus.Paid) && Truthy(financialTransactionId)
    ensures u.financialTransactionId.Some? ==> u.financialTransactionId == financialTransactionId
    ensures u.errorCode.Some? <==> u.status == Some(PaymentStatus.Failed) && reason.Some?
    ensures u.errorMessage.Some? <==> u.errorCode.Some?
    ensures u.errorCode.Some? ==>
      u.errorCode.value == (if Truthy(reason.value.code) then reason.value.code else None) &&
      u.errorMessage.value == (if Truthy(reason.value.message) then reason.value.message else None)
    ensures Columns(u) - {"status", "paid_date", "momo_financial_transaction_id", "momo_error_code",
                          "momo_error_message"} == {"momo_invoice_status", "updated_at"}
  {
    var base := NoChange.(invoiceStatus := Some(invoiceStatus), updatedAt := Some(now));
    match InvoicePaymentStatus(invoiceStatus, expired)
    case None => base
    case Some(st) =>
      if st == PaymentStatus.Paid then
        base.(status := Some(st), paidDate := Some(today),
              financialTransactionId := if Truthy(financialTransactionId) then financialTransactionId else None)
      else if st == PaymentStatus.Failed && reason.Some? then
        base.(status := Some(st), errorCode := Some(OrNull(reason.value.code)),
              errorMessage := Some(OrNull(reason.value.message)))
      else
        base.(status := Some(st))
  }

  /** `statusData.status || 'UNKNOWN'`. */
  function ReportedStatus(reply: InvoiceReply): string {
    OrDefault(reply.status, "UNKNOWN")
  }

  /** The whole function. `stored` is the reference id the payment row holds
      (absent when the lookup fails), `due` the row's parsed due date (absent
      when the lookup fails or the row has none), `clock` the current time. */
  function Handle(credentials: bool, body: Body, stored: Option<string>, token: TokenReply,
                  reply: InvoiceReply, due: Option<int>, clock: int, now: string, today: string): (o: Outcome)
    ensures o.response.code in {200, 500}
    ensures o.response.code == 200 <==> o.response.body.Settled?
    ensures ProviderCall in o.calls ==> credentials
    ensures o.update.Some? <==> WritePayment in o.calls
    ensures o.update.Some? ==> o.response.code == 200 && Truthy(body.paymentId)
    ensures o.response.body.Settled? ==> ResolveReference(body, stored) == Ok(o.response.body.referenceId)
    ensures ProviderCall in o.calls <==>
      credentials && ResolveReference(body, stored).Ok? && IsOk(token.code)
    ensures o.response.body.Settled? <==> ProviderCall in o.calls && IsOk(reply.code)
    ensures o.response.body.Settled? ==> o.response.body.status == ReportedStatus(reply)
    ensures o.update.Some? <==> o.response.body.Settled? && Truthy(body.paymentId)
    ensures o.update.Some? ==>
      o.update.value == InvoiceUpdate(ReportedStatus(reply), due.Some? && clock > due.value,
                                      reply.financialTransactionId, reply.reason, now, today)
  {
    if !credentials then Outcome(Response(500, Error(Thrown(MissingCredentials))), [], None)
    else
      var lookup := if !Truthy(body.referenceId) && Truthy(body.paymentId) then [ReadPayment] else [];
      match ResolveReference(body, stored)
      case Err(e) => Outcome(Response(500, Error(Thrown(e))), [ReadBody] + lookup, None)
      case Ok(ref) =>
        var asked := [ReadBody] + lookup + [FetchToken];
        if !IsOk(token.code) then
          Outcome(Response(500, Error(Thrown("Token error " + IntToString(token.code) + ": " + token.text))), asked, None)
        else if !IsOk(reply.code) then
          Outcome(Response(500, Error(Thrown("Status check error " + IntToString(reply.code) + ": " + reply.text))),
                  asked + [ProviderCall], None)
        else
          var status := ReportedStatus(reply);
          var response := Response(200, Settled(ref, status));
          if Truthy(body.paymentId) then
            var expired := due.Some? && clock > due.value;
            var u := InvoiceUpdate(status, expired, reply.financialTransactionId, reply.reason, now, today);
            Outcome(response, asked + [ProviderCall, ReadPayment, WritePayment], Some(u))
          else
            Outcome(response, asked + [ProviderCall], None)
  }

  /** A successful check of an open invoice for a payment row marks the row
      expired exactly when its due date has passed, and pending otherwise. */
  lemma OverdueOpenInvoiceExpires(p: Payment, credentials: bool, body: Body, stored: Option<string>,
                                  token: TokenReply, reply: InvoiceReply, due: Option<int>, clock: int,
                                  now: string, today: string)
    requires ReportedStatus(reply) == "CREATED" || ReportedStatus(reply) == "PENDING"
    requires Handle(credentials, body, stored, token, reply, due, clock, now, today).response.body.Settled?
    requires Truthy(body.paymentId)
    ensures Handle(credentials, body, stored, token, reply, due, clock, now, today).update.Some?
    ensures Apply(Handle(credentials, body, stored, token, reply, due, clock, now, today).update.value, p).status
      == if due.Some? && clock > due.value then PaymentStatus.Expired else PaymentStatus.Pending
  {
  }

  /** A status other than the five it knows, including a missing status,
      leaves the row's payment status as it was and only records the
      provider's status. */
  lemma UnknownStatusKeepsRowStatus(p: Payment, reply: InvoiceReply, expired: bool, now: string, today: string)
    requires !HandledStatus(ReportedStatus(reply))
    ensures Columns(InvoiceUpdate(ReportedStatus(reply), expired, reply.financialTransactionId, reply.reason, now, today))
      == {"momo_invoice_status", "updated_at"}
    ensures Apply(InvoiceUpdate(ReportedStatus(reply), expired, reply.financialTransactionId, reply.reason, now, today), p).status
      == p.status
  {
  }

  /** A reply without a status is reported and recorded as `UNKNOWN`. */
  lemma MissingStatusIsUnknown(reply: InvoiceReply)
    requires !Truthy(reply.status)
    ensures ReportedStatus(reply) == "UNKNOWN"
    ensures InvoicePaymentStatus(ReportedStatus(reply), true).None?
  {
  }
}

=== FILE: invoices_page.dfy ===
/** The invoices page: the list of invoices with its search box, the form
    that creates an invoice, the "check all statuses" action and the badges
    and buttons of each row. */
module InvoicesPage {
  import opened Wrappers
  import opened Text
  import opened Seqs
  import PaymentStatus
  import opened Records
  import StatusDisplay
  import opened Http
  import InvoiceStatus
  import CancelInvoice
  import CreateInvoice
  import MomoHook

  // ------------------------------------------------------------ the list

  /** A payment is an invoice once a provider reference is stored on it. */
  predicate IsInvoice(p: Payment) { Truthy(p.momoReferenceId) }

  /** `field?.toLowerCase().includes(query)` for an optional field. */
  predicate FieldMatches(field: Option<string>, query: string) {
    field.Some? && Contains(Lower(field.value), query)
  }

  /** The search box's test: an empty query keeps everything; otherwise the
      lower-cased query must occur in the lower-cased tenant name, property
      name or reference id. */
  predicate Matches(p: Payment, search: string) {
    search == ""
    || FieldMatches(p.tenantName, Lower(search))
    || FieldMatches(p.propertyName, Lower(search))
    || FieldMatches(p.momoReferenceId, Lower(search))
  }

  function SearchFilter(search: string): Payment -> bool {
    p => Matches(p, search)
  }

  /** Both tests at once. */
  function Listed(search: string): Payment -> bool {
    p => IsInvoice(p) && Matches(p, search)
  }

  /** The listed invoices. */
  function Invoices(payments: seq<Payment>, search: string): (r: seq<Payment>)
    ensures forall i :: 0 <= i < |r| ==> IsInvoice(r[i]) && Matches(r[i], search)
  {
    Filter(Filter(payments, IsInvoice), SearchFilter(search))
  }

  /** The list is one filter by both tests, so it keeps the payments' order,
      and a payment is listed exactly when it passes both. */
  lemma {:induction false} InvoicesAreOneFilter(payments: seq<Payment>, search: string)
    ensures Invoices(payments, search) == Filter(payments, Listed(search))
    ensures forall p :: p in payments ==>
      (p in Invoices(payments, search) <==> IsInvoice(p) && Matches(p, search))
    decreases |payments|
  {
    if payments != [] {
      InvoicesAreOneFilter(payments[1..], search);
    }
  }

  /** An empty search lists every invoice. */
  lemma {:induction false} EmptySearchListsAllInvoices(payments: seq<Payment>)
    ensures Invoices(payments, "") == Filter(payments, IsInvoice)
  {
    var inv := Filter(payments, IsInvoice);
    FilterKeepsAll(inv, SearchFilter(""));
  }

  /** The search ignores the case of the query. */
  lemma SearchIgnoresCase(p: Payment, search: string)
    ensures Matches(p, Lower(search)) <==> Matches(p, search)
  {
    LowerIdempotent(search);
  }

  /** An invoice is found by its reference id written in lower case. */
  lemma ReferenceFindsInvoice(p: Payment)
    requires IsInvoice(p)
    ensures Matches(p, Lower(p.momoReferenceId.value))
  {
    var r := Lower(p.momoReferenceId.value);
    LowerIdempotent(p.momoReferenceId.value);
    assert MatchAt(r, r, 0);
  }

  // ------------------------------------------------------------ one status check

  const StatusUpdated := MomoHook.Toast("Status Updated", "Invoice status has been refreshed", false)
  const CheckFailed := MomoHook.Toast("Error", "Failed to check invoice status", true)

  /** A single check: the status function's outcome and the page's toast. */
  datatype StatusCheck = StatusCheck(outcome: InvoiceStatus.Outcome, toast: MomoHook.Toast)

  /** `handleCheckStatus`: the status function is called with the row's
      payment id alone and reads the reference id stored on the row `p`. The
      client throws on a reply outside 2xx, which the page reports as a
      failure. The other parameters are those of `InvoiceStatus.Handle`. */
  function CheckStatus(p: Payment, credentials: bool, token: TokenReply, reply: InvoiceStatus.InvoiceReply,
                       due: Option<int>, clock: int, now: string, today: string): (c: StatusCheck)
    ensures c.toast == StatusUpdated <==> c.outcome.response.body.Settled?
    ensures c.toast != StatusUpdated ==> c.toast == CheckFailed
    ensures c.outcome.response.body.Settled? ==>
      IsInvoice(p) && p.id != "" && c.outcome.response.body.referenceId == p.momoReferenceId.value
    ensures c.outcome.update.Some? ==> IsInvoice(p) && c.toast == StatusUpdated
  {
    var o := InvoiceStatus.Handle(credentials, InvoiceStatus.Body(Some(p.id), None), p.momoReferenceId,
                                  token, reply, due, clock, now, today);
    StatusCheck(o, if IsOk(o.response.code) then StatusUpdated else CheckFailed)
  }

  /** Every listed invoice is checked under the reference stored on it: with
      credentials and a token the provider is asked, and when it answers the
      row is updated and the page reports the refresh. */
  lemma ListedInvoiceIsCheckedByItsReference(payments: seq<Payment>, search: string, i: nat,
                                             credentials: bool, token: TokenReply, reply: InvoiceStatus.InvoiceReply,
                                             due: Option<int>, clock: int, now: string, today: string)
    requires i < |Invoices(payments, search)| && Invoices(payments, search)[i].id != ""
    requires credentials && IsOk(token.code)
    ensures var c := CheckStatus(Invoices(payments, search)[i], credentials, token, reply, due, clock, now, today);
      && ProviderCall in c.outcome.calls
      && (IsOk(reply.code) ==>
            c.toast == StatusUpdated && c.outcome.update.Some?
            && c.outcome.response.body.referenceId == Invoices(payments, search)[i].momoReferenceId.value)
  {
  }

  /** A check that finds the invoice paid turns the row paid, so that
      "check all" no longer polls it. */
  lemma PaidInvoiceLeavesCheckAll(p: Payment, credentials: bool, token: TokenReply, reply: InvoiceStatus.InvoiceReply,
                                  due: Option<int>, clock: int, now: string, today: string)
    requires IsInvoice(p) && p.id != "" && credentials && IsOk(token.code) && IsOk(reply.code)
    requires reply.status == Some("SUCCESSFUL")
    ensures var c := CheckStatus(p, credentials, token, reply, due, clock, now, today);
      && c.outcome.update.Some?
      && Apply(c.outcome.update.value, p).status == PaymentStatus.Paid
      && !NeedsCheck(Apply(c.outcome.update.value, p))
  {
  }

  // ------------------------------------------------------------ check all

  /** The invoices "check all" polls: stored reference, not yet paid. */
  predicate NeedsCheck(p: Payment) { Truthy(p.momoReferenceId) && p.status != PaymentStatus.Paid }

  function Ids(ps: seq<Payment>): (ids: seq<string>)
    ensures |ids| == |ps| && forall i :: 0 <= i < |ps| ==> ids[i] == ps[i].id
  {
    seq(|ps|, i requires 0 <= i < |ps| => ps[i].id)
  }

  /** What "check all" does: nothing but an information toast when no
      invoice needs a check; otherwise one status poll per such invoice, in
      list order, and a toast counting them all. */
  datatype CheckAll = NothingToCheck | Polled(paymentIds: seq<string>, toast: MomoHook.Toast)

  /** Each poll's failure is caught on its own, so whether a poll fails
      changes neither the polls made nor the count shown; failures are
      therefore not an input. */
  function CheckAllStatuses(invoices: seq<Payment>): (r: CheckAll)
    ensures r.NothingToCheck? <==> forall i :: 0 <= i < |invoices| ==> !NeedsCheck(invoices[i])
    ensures r.Polled? ==> r.paymentIds == Ids(Filter(invoices, NeedsCheck))
    ensures r.Polled? ==> r.toast.description == "Checked " + IntToString(|r.paymentIds|) + " invoice(s)"
  {
    var targets := Filter(invoices, NeedsCheck);
    if |targets| == 0 then
      NothingToCheck
    else
      assert targets[0] in invoices;
      Polled(Ids(targets), MomoHook.Toast("Status Updated", "Checked " + IntToString(|targets|) + " invoice(s)", false))
  }

  /** `Check All Statuses` is disabled while a check runs or when no listed
      invoice is unpaid. */
  predicate CheckAllDisabled(checkingAll: bool, invoices: seq<Payment>) {
    checkingAll || |Filter(invoices, IsUnpaid)| == 0
  }

  predicate IsUnpaid(p: Payment) { p.status != PaymentStatus.Paid }

  /** On the listed invoices, the button is disabled (when idle) exactly when
      pressing it would find nothing to check. */
  lemma DisabledExactlyWhenNothingToCheck(payments: seq<Payment>, search: string)
    ensures CheckAllDisabled(false, Invoices(payments, search))
      <==> CheckAllStatuses(Invoices(payments, search)).NothingToCheck?
  {
    var inv := Invoices(payments, search);
    var unpaid := Filter(inv, IsUnpaid);
    if |unpaid| > 0 {
      assert unpaid[0] in inv;
      var i :| 0 <= i < |inv| && inv[i] == unpaid[0];
      assert NeedsCheck(inv[i]);
    }
  }

  // ------------------------------------------------------------ the form

  datatype Form = Form(tenantId: string, amount: int, msisdn: string, description: string, validityHours: int)

  const BlankForm := Form("", 0, "", "Rent invoice", 24)

  /** Choosing a tenant fills in the amount and number from the tenant's
      row; an id that names no tenant only records the choice. */
  function SelectTenant(form: Form, tenants: seq<Tenant>, id: string): (f: Form)
    ensures f.tenantId == id && f.description == form.description && f.validityHours == form.validityHours
    ensures forall k :: 0 <= k < |tenants| && tenants[k].id == id && (forall j :: 0 <= j < k ==> tenants[j].id != id) ==>
      (f.amount == tenants[k].rent && f.msisdn == tenants[k].phone)
    ensures (forall t :: t in tenants ==> t.id != id) ==> f.amount == form.amount && f.msisdn == form.msisdn
  {
    match Find(tenants, (t: Tenant) => t.id == id)
    case Some(t) => form.(tenantId := id, amount := t.rent, msisdn := t.phone)
    case None => form.(tenantId := id)
  }

  /** The handler's guard: a tenant, a non-zero amount and a number. */
  predicate FormComplete(form: Form) {
    form.tenantId != "" && form.amount != 0 && form.msisdn != ""
  }

  /** `Create Invoice` is disabled while creating and whenever a field,
      including the validity, is missing. */
  predicate CreateDisabled(creating: bool, form: Form) {
    creating || form.tenantId == "" || form.amount == 0 || form.msisdn == "" || form.validityHours == 0
  }

  /** What submitting the form did: the row inserted, the invoice
      function's outcome, the toast and the form afterwards. */
  datatype Creation = Creation(
    inserted: Option<NewPayment>, outcome: Option<CreateInvoice.Outcome>,
    toast: MomoHook.Toast, form: Form)

  const FillInError := MomoHook.Toast("Error", "Please fill in all required fields", true)

  /** What the page sends the invoice function for the row `paymentId`. */
  function InvoiceBody(form: Form, paymentId: string): (b: CreateInvoice.Body)
    ensures b.paymentId == Some(paymentId) && b.amount == Some(form.amount) && b.msisdn == Some(form.msisdn)
    ensures b.validityHours == Some(form.validityHours) && b.description == Some(form.description)
    ensures b.payeeMsisdn.None?
  {
    CreateInvoice.Body(Some(paymentId), Some(form.amount), Some(form.msisdn),
                       Some(form.validityHours), Some(form.description), None)
  }

  /** `handleCreateInvoice`. `inDays30` is the date thirty days from now;
      `insert` is the result of inserting the row (its id, or the error's
      message); `caller` to `now` are the parameters of
      `CreateInvoice.Handle`; `invokeError` is the message the client gives
      a reply outside 2xx. */
  function CreateFromForm(form: Form, tenants: seq<Tenant>, inDays30: string, insert: Result<string, string>,
                          caller: CreateInvoice.Caller, env: CreateInvoice.Env, referenceId: string, externalId: string,
                          token: TokenReply, reply: PlainReply, now: string, invokeError: string): (c: Creation)
    ensures !FormComplete(form) ==> c == Creation(None, None, FillInError, form)
    ensures c.inserted.Some? ==>
      && FormComplete(form)
      && c.inserted.value.tenantId == form.tenantId && c.inserted.value.amount == form.amount
      && c.inserted.value.status == PaymentStatus.Pending
      && c.inserted.value.paymentMethod == "MTN Mobile Money" && c.inserted.value.dueDate == inDays30
    ensures c.outcome.Some? ==> c.inserted.Some? && insert.Ok?
    ensures c.toast.title == "Invoice Created" <==> c.outcome.Some? && c.outcome.value.response.body.Created?
    ensures c.toast.title == "Invoice Created" ==>
      c.toast.description == "Reference ID: " + referenceId && c.form == BlankForm
    ensures c.toast.title != "Invoice Created" ==> c.form == form
  {
    if !FormComplete(form) then
      Creation(None, None, FillInError, form)
    else
      match Find(tenants, (t: Tenant) => t.id == form.tenantId)
      case None => Creation(None, None, MomoHook.ErrorToast("Tenant not found"), form)
      case Some(t) =>
        var row := NewPayment(form.tenantId, t.propertyId, form.amount, PaymentStatus.Pending, "MTN Mobile Money", inDays30);
        match insert
        case Err(m) => Creation(Some(row), None, MomoHook.ErrorToast(m), form)
        case Ok(id) =>
          var o := CreateInvoice.Handle(caller, env, InvoiceBody(form, id), referenceId, externalId, token, reply, now);
          if IsOk(o.response.code) then
            Creation(Some(row), Some(o), MomoHook.Toast("Invoice Created", "Reference ID: " + o.response.body.referenceId, false), BlankForm)
          else
            Creation(Some(row), Some(o), MomoHook.ErrorToast(invokeError), form)
  }

  /** An invoice the page reports as created is on the list: the inserted
      row, once the function's update is applied, carries the reference the
      toast names, and "check all" will poll it. */
  lemma CreatedInvoiceIsListed(form: Form, tenants: seq<Tenant>, inDays30: string, insert: Result<string, string>,
                               caller: CreateInvoice.Caller, env: CreateInvoice.Env, referenceId: string, externalId: string,
                               token: TokenReply, reply: PlainReply, now: string, invokeError: string, p: Payment)
    requires CreateFromForm(form, tenants, inDays30, insert, caller, env, referenceId, externalId,
                            token, reply, now, invokeError).toast.title == "Invoice Created"
    requires insert.Ok? && insert.value != "" && referenceId != ""
    requires p.id == insert.value && p.status == PaymentStatus.Pending
    ensures var c := CreateFromForm(form, tenants, inDays30, insert, caller, env, referenceId, externalId,
                                    token, reply, now, invokeError);
      && c.outcome.Some? && c.outcome.value.update.Some?
      && var q := Apply(c.outcome.value.update.value, p);
      && q.momoReferenceId == Some(referenceId) && q.invoiceStatus == Some("PENDING")
      && Listed("")(q) && NeedsCheck(q)
  {
  }

  /** The button is stricter than the handler: whenever it can be pressed,
      the handler's own guard passes. The converse fails for a zero
      validity. */
  lemma EnabledButtonPassesGuard(form: Form)
    ensures !CreateDisabled(false, form) ==> FormComplete(form)
    ensures FormComplete(form.(validityHours := 0)) && CreateDisabled(false, form.(validityHours := 0))
      <==> FormComplete(form)
  {
  }

  // ------------------------------------------------------------ a row

  /** The badge of the invoice status. */
  function InvoiceBadge(s: Option<string>): (b: StatusDisplay.Badge)
    ensures b != StatusDisplay.Outline
    ensures b == StatusDisplay.Default <==> s == Some("SUCCESSFUL")
    ensures b == StatusDisplay.Destructive <==> s == Some("FAILED") || s == Some("CANCELLED")
    ensures b == StatusDisplay.Secondary <==> s !in {Some("SUCCESSFUL"), Some("FAILED"), Some("CANCELLED")}
  {
    if s == Some("SUCCESSFUL") then StatusDisplay.Default
    else if s == Some("FAILED") || s == Some("CANCELLED") then StatusDisplay.Destructive
    else StatusDisplay.Secondary
  }

  /** Where the status display is decided by the invoice status and does
      not show the payment as expired, the invoice badge matches it. */
  lemma InvoiceBadgeAgreesWithDisplay(p: Payment, due: Option<int>, now: int)
    requires !Truthy(p.requestStatus) && Truthy(p.invoiceStatus)
    requires !StatusDisplay.PaymentStatusDisplay(p, due, now).isExpired
    ensures InvoiceBadge(p.invoiceStatus) == StatusDisplay.PaymentStatusDisplay(p, due, now).badge
  {
  }

  /** The cancel button is disabled while this row is being cancelled, once
      the invoice is cancelled, and once the payment is paid. */
  predicate CancelDisabled(cancelling: Option<string>, p: Payment) {
    cancelling == Some(p.id) || p.invoiceStatus == Some("CANCELLED") || p.status == PaymentStatus.Paid
  }

  /** The delete button is shown for pending payments and created invoices. */
  predicate DeleteShown(p: Payment) {
    p.status == PaymentStatus.Pending || p.invoiceStatus == Some("CREATED")
  }

  const InvoiceCancelled := MomoHook.Toast("Invoice Cancelled", "The invoice has been cancelled successfully", false)
  const CancelFailed := MomoHook.Toast("Error", "Failed to cancel invoice", true)

  /** A cancellation: the cancel function's outcome and the page's toast. */
  datatype Cancellation = Cancellation(outcome: CancelInvoice.Outcome, toast: MomoHook.Toast)

  /** `handleCancelInvoice`: the cancel function is called with the row's
      payment id alone and reads the ids stored on the row `p`. The other
      parameters are those of `CancelInvoice.Handle`. */
  function CancelRow(p: Payment, credentials: bool, generated: string, token: TokenReply,
                     reply: CancelInvoice.CancelReply, now: string): (c: Cancellation)
    ensures c.toast == InvoiceCancelled <==> c.outcome.response.body.Cancelled?
    ensures c.toast != InvoiceCancelled ==> c.toast == CancelFailed
    ensures c.outcome.request.Some? ==>
      && IsInvoice(p) && p.id != ""
      && c.outcome.request.value.referenceId == p.momoReferenceId.value
      && c.outcome.request.value.externalId == p.momoExternalId.GetOr(p.id)
  {
    var stored := CancelInvoice.StoredIds(p.momoReferenceId, p.momoExternalId);
    var o := CancelInvoice.Handle(credentials, CancelInvoice.Body(Some(p.id), None, None), Some(stored),
                                  generated, token, reply, now);
    Cancellation(o, if IsOk(o.response.code) then InvoiceCancelled else CancelFailed)
  }

  /** After a cancellation the page reports, the row offers neither a second
      cancellation nor deletion; its status is failed, yet "check all" still
      polls it. */
  lemma CancelledRowOffersNoAction(p: Payment, credentials: bool, generated: string, token: TokenReply,
                                   reply: CancelInvoice.CancelReply, now: string, cancelling: Option<string>)
    requires CancelRow(p, credentials, generated, token, reply, now).toast == InvoiceCancelled
    ensures var c := CancelRow(p, credentials, generated, token, reply, now);
      && c.outcome.update == Some(CancelInvoice.CancelUpdate(now))
      && var q := Apply(CancelInvoice.CancelUpdate(now), p);
      && CancelDisabled(cancelling, q) && !DeleteShown(q)
      && q.status == PaymentStatus.Failed && NeedsCheck(q)
  {
  }
}

=== FILE: invoke.dfy ===
/** What the browser sees when it calls an edge function through the backend
    client, and how the client code turns that into a value or an error. */
module Invoke {
  import opened Wrappers
  import opened Text

  /** The result of invoking an edge function: an invocation error (the
      network, or a response outside 2xx), or the parsed JSON reply with its
      `success` flag, its `error` text and the payload the caller reads. */
  datatype Invocation<T> = InvokeError(message: string) | Returned(success: bool, error: Option<string>, payload: T)

  /** The client pattern `if (error) throw new Error(prefix + error.message);
      if (!data.success) throw new Error(data.error || fallback);`. */
  function Unwrap<T>(inv: Invocation<T>, prefix: string, fallback: string): (r: Result<T, string>)
    requires fallback != ""
    ensures r.Ok? <==> inv.Returned? && inv.success
    ensures r.Ok? ==> r.value == inv.payload
    ensures inv.InvokeError? ==> r == Err(prefix + inv.message)
    ensures inv.Returned? && !inv.success ==> r.error != ""
    ensures inv.Returned? && !inv.success ==> r.error == (if Truthy(inv.error) then inv.error.value else fallback)
  {
    match inv
    case InvokeError(m) => Err(prefix + m)
    case Returned(ok, e, p) =>
      if !ok then Err(OrDefault(e, fallback)) else Ok(p)
  }

  /** A transaction record as the status function returns it to the browser. */
  datatype Transaction = Transaction(
    status: Option<string>,
    amount: Option<string>,
    currency: Option<string>,
    financialTransactionId: Option<string>,
    externalId: Option<string>,
    checkedAt: Option<string>)

  /** `transaction.status?.toUpperCase()`. */
  function UpperStatus(t: Transaction): (s: Option<string>)
    ensures s.Some? <==> t.status.Some?
    ensures s.Some? ==> s.value == Upper(t.status.value)
  {
    if t.status.Some? then Some(Upper(t.status.value)) else None
  }
}

=== FILE: momo_hook.dfy ===
/** The `useMtnMomo` hook: the dashboard's entry points for requesting a
    payment and checking a transaction. Each operation raises the loading
    flag, reports errors as a destructive toast instead of throwing, and
    lowers the flag again whatever happened. */
module MomoHook {
  import opened Wrappers
  import opened Text
  import opened Uuid
  import opened Invoke

  datatype PaymentRequest = PaymentRequest(
    phoneNumber: Option<string>,
    amount: Option<int>,
    tenantId: Option<string>,
    paymentId: Option<string>,
    externalId: Option<string>)

  datatype Toast = Toast(title: string, description: string, destructive: bool)

  /** What an operation of the hook amounts to: the value it resolves to
      (`null` as `None`), the toast it shows, whether it invoked the edge
      function, and the values written to the loading flag, in order. */
  datatype Run<T> = Run(value: Option<T>, toast: Option<Toast>, invoked: bool, loading: seq<bool>)

  function ErrorToast(message: string): Toast { Toast("Error", message, true) }

  /** `requestPayment`. A request without a phone number or a non-zero
      amount, or with a negative amount, is refused before anything is sent;
      every failure resolves to no reference id and a destructive toast. */
  function RequestPayment(request: PaymentRequest, reply: Invocation<Option<string>>): (run: Run<string>)
    ensures run.loading == [true, false]
    ensures run.invoked <==> Truthy(request.phoneNumber) && request.amount.Some? && request.amount.value > 0
    ensures run.value.Some? ==> run.invoked && reply.Returned? && reply.success
    ensures run.value == (if run.invoked && reply.Returned? && reply.success then reply.payload else None)
    ensures run.toast.Some?
    ensures run.toast.value.destructive <==> !(run.invoked && reply.Returned? && reply.success)
    ensures !run.invoked && !(request.amount.Some? && request.amount.value < 0 && Truthy(request.phoneNumber)) ==>
      run.toast == Some(ErrorToast("Phone number and amount are required"))
    ensures Truthy(request.phoneNumber) && request.amount.Some? && request.amount.value < 0 ==>
      run.toast == Some(ErrorToast("Amount must be greater than 0"))
    ensures run.invoked && reply.InvokeError? ==> run.toast == Some(ErrorToast("Request failed: " + reply.message))
  {
    if !Truthy(request.phoneNumber) || request.amount.None? || request.amount.value == 0 then
      Run(None, Some(ErrorToast("Phone number and amount are required")), false, [true, false])
    else if request.amount.value <= 0 then
      Run(None, Some(ErrorToast("Amount must be greater than 0")), false, [true, false])
    else
      match Unwrap(reply, "Request failed: ", "Failed to request payment")
      case Err(e) => Run(None, Some(ErrorToast(e)), true, [true, false])
      case Ok(ref) => Run(ref, Some(Toast("Success", "Payment request sent successfully", false)), true, [true, false])
  }

  /** The transaction the hook hands back: the function's record with the
      status upper-cased and a time stamp of its own. */
  datatype Checked = Checked(transaction: Transaction, status: Option<string>, timestamp: string)

  /** `checkTransactionStatus`. Only a well-formed reference id is sent; a
      failure resolves to nothing and a destructive toast; success shows no
      toast. */
  function CheckTransactionStatus(referenceId: string, paymentId: Option<string>,
                                  reply: Invocation<Transaction>, now: string): (run: Run<Checked>)
    ensures run.loading == [true, false]
    ensures run.invoked <==> IsUuid(referenceId)
    ensures run.value.Some? <==> run.invoked && reply.Returned? && reply.success
    ensures run.value.Some? ==> run.value.value.status == UpperStatus(reply.payload) && run.toast.None?
    ensures run.value.None? ==> run.toast.Some? && run.toast.value.destructive
  {
    if !IsUuid(referenceId) then
      Run(None, Some(ErrorToast("Invalid reference ID format. Must be a valid UUID.")), false, [true, false])
    else
      match Unwrap(reply, "Status check failed: ", "Failed to check transaction status")
      case Err(e) => Run(None, Some(ErrorToast(e)), true, [true, false])
      case Ok(t) => Run(Some(Checked(t, UpperStatus(t), now)), None, true, [true, false])
  }

  /** The request `createInvoice` forwards: the number and amount of the
      invoice and its payment id. Validity and description are dropped. */
  datatype InvoiceRequest = InvoiceRequest(
    paymentId: string,
    amount: int,
    msisdn: string,
    validitySeconds: Option<int>,
    description: Option<string>)

  function InvoiceAsPayment(request: InvoiceRequest): (p: PaymentRequest)
    ensures p.phoneNumber == Some(request.msisdn) && p.amount == Some(request.amount)
    ensures p.paymentId == Some(request.paymentId) && p.tenantId.None? && p.externalId.None?
  {
    PaymentRequest(Some(request.msisdn), Some(request.amount), None, Some(request.paymentId), None)
  }

  /** `createInvoice` is a request-to-pay: whatever validity or description
      the invoice carries, it behaves as the payment request with the same
      number, amount and payment id. */
  function CreateInvoice(request: InvoiceRequest, reply: Invocation<Option<string>>): (run: Run<string>)
    ensures forall v, d :: run == RequestPayment(InvoiceAsPayment(request.(validitySeconds := v, description := d)), reply)
  {
    RequestPayment(InvoiceAsPayment(request), reply)
  }

  /** `getInvoiceStatus` checks the request-to-pay status of the reference.
      A missing reference reaches the format test as the text "undefined",
      which is no identifier, so nothing is sent. */
  function GetInvoiceStatus(referenceId: Option<string>, paymentId: Option<string>,
                            reply: Invocation<Transaction>, now: string): (run: Run<Checked>)
    ensures run.invoked <==> referenceId.Some? && IsUuid(referenceId.value)
    ensures run.value.None? ==> run.toast.Some? && run.toast.value.destructive
    ensures referenceId.None? ==>
      run == Run(None, Some(ErrorToast("Invalid reference ID format. Must be a valid UUID.")), false, [true, false])
    ensures referenceId.Some? ==> run == CheckTransactionStatus(referenceId.value, paymentId, reply, now)
  {
    CheckTransactionStatus(referenceId.GetOr("undefined"), paymentId, reply, now)
  }
}

=== FILE: momo_service.dfy ===
/** The browser-side mobile-money service: validates a payment before asking
    the request-payment function for it, validates a reference id before
    asking the status function about it, and polls until a payment settles. */
module MomoService {
  import opened Wrappers
  import opened Text
  import opened Seqs
  import opened Uuid
  import opened Invoke
  import RequestPayment
  import Http

  /** `/^\+[1-9]\d{1,14}$/`: a plus sign, a non-zero digit, then one to
      fourteen digits. */
  predicate IsInternationalMsisdn(s: string) {
    3 <= |s| <= 16 && s[0] == '+' && IsNonZeroDigit(s[1]) && AllDigits(s[2..])
  }

  /** The service's phone check: the digits and plus signs of the number
      must form an international number. */
  predicate ValidMsisdn(msisdn: string) {
    IsInternationalMsisdn(KeepDigitsAndPlus(msisdn))
  }

  const SupportedCurrencies := ["EUR", "UGX", "USD"]

  /** The body the service sends to the request-payment function. The
      service's request never carries a tenant or payment id. */
  datatype InvokeBody = InvokeBody(
    phoneNumber: string,
    amount: int,
    currency: string,
    externalId: Option<string>,
    payerMessage: Option<string>,
    payeeNote: Option<string>,
    tenantId: Option<string>,
    paymentId: Option<string>)

  /** What a call of `create_payment` amounts to: the reference id or the
      error thrown, and the body sent if the function was invoked. */
  datatype Creation = Creation(result: Result<Option<string>, string>, sent: Option<InvokeBody>)

  const Required := "MSISDN and amount are required"
  const InvalidMsisdn := "Invalid MSISDN format. Must be in international format (e.g., +256123456789)"
  const NotPositive := "Amount must be greater than 0"
  const InvalidCurrency := "Invalid currency. Supported: EUR, UGX, USD"

  /** `create_payment`. A missing currency means `EUR`; `reply` is what the
      invocation would return. Nothing is sent unless the number is a valid
      international number, the amount positive and the currency supported;
      the currency is sent upper-cased. */
  function CreatePayment(msisdn: string, amount: int, currency: Option<string>, externalId: Option<string>,
                         payerMessage: Option<string>, payeeNote: Option<string>,
                         reply: Invocation<Option<string>>): (c: Creation)
    ensures c.sent.Some? ==> ValidMsisdn(msisdn) && amount > 0
    ensures c.sent.Some? ==> c.sent.value.currency == Upper(currency.GetOr("EUR"))
    ensures c.sent.Some? && Truthy(currency) ==> Upper(currency.value) in SupportedCurrencies
    ensures c.sent.Some? ==> c.sent.value.tenantId.None? && c.sent.value.paymentId.None?
    ensures c.sent.None? ==> c.result.Err?
    ensures c.result.Ok? ==> c.sent.Some?
    ensures c.sent.Some? <==>
      ValidMsisdn(msisdn) && amount > 0 && !(Truthy(currency) && Upper(currency.value) !in SupportedCurrencies)
    ensures c.sent.Some? ==>
      && c.sent.value.phoneNumber == msisdn && c.sent.value.amount == amount
      && c.sent.value.externalId == externalId
      && c.sent.value.payerMessage == payerMessage && c.sent.value.payeeNote == payeeNote
    ensures c.result.Ok? <==> c.sent.Some? && reply.Returned? && reply.success
    ensures c.result.Ok? ==> c.result.value == reply.payload
    ensures c.sent.Some? && reply.InvokeError? ==> c.result == Err("Payment creation failed: " + reply.message)
    ensures msisdn == "" || amount == 0 ==> c == Creation(Err(Required), None)
    ensures msisdn != "" && amount != 0 && !ValidMsisdn(msisdn) ==> c == Creation(Err(InvalidMsisdn), None)
    ensures msisdn != "" && ValidMsisdn(msisdn) && amount < 0 ==> c == Creation(Err(NotPositive), None)
    ensures ValidMsisdn(msisdn) && amount > 0 && Truthy(currency) && Upper(currency.value) !in SupportedCurrencies ==>
      c == Creation(Err(InvalidCurrency), None)
  {
    var cur := currency.GetOr("EUR");
    UpperOfUpperCaseWord("EUR");
    if msisdn == "" || amount == 0 then Creation(Err(Required), None)
    else if !ValidMsisdn(msisdn) then Creation(Err(InvalidMsisdn), None)
    else if amount <= 0 then Creation(Err(NotPositive), None)
    else if cur != "" && Upper(cur) !in SupportedCurrencies then Creation(Err(InvalidCurrency), None)
    else
      var body := InvokeBody(msisdn, amount, Upper(cur), externalId, payerMessage, payeeNote, None, None);
      var r := Unwrap(reply, "Payment creation failed: ", "Payment creation failed");
      Creation(if r.Ok? then Ok(r.value) else Err(r.error), Some(body))
  }

  /** The request-payment function reads the service's body without its
      currency and messages. */
  function AsFunctionBody(b: InvokeBody): RequestPayment.Body {
    RequestPayment.Body(Some(b.phoneNumber), None, Some(b.amount), b.paymentId, b.externalId, None, None)
  }

  /** A payment created through the service is always asked for in euros,
      with the default payer message, whatever currency and messages the
      caller passed; and since the service names no payment, the function
      never updates a payment row for it. */
  lemma ServicePaymentsIgnoreCurrencyAndMessages(
    msisdn: string, amount: int, currency: Option<string>, externalId: Option<string>,
    payerMessage: Option<string>, payeeNote: Option<string>, reply: Invocation<Option<string>>,
    caller: RequestPayment.Caller, credentials: bool, generated: string,
    token: Http.TokenReply, answer: Http.PlainReply, now: string)
    requires CreatePayment(msisdn, amount, currency, externalId, payerMessage, payeeNote, reply).sent.Some?
    ensures var b := AsFunctionBody(CreatePayment(msisdn, amount, currency, externalId, payerMessage, payeeNote, reply).sent.value);
      && RequestPayment.BuildRequest(b, amount, generated).currency == "EUR"
      && RequestPayment.BuildRequest(b, amount, generated).payerMessage == "Rent invoice payment"
      && RequestPayment.Handle(caller, b, credentials, generated, token, answer, now).update.None?
  {
  }

  /** Every number the service accepts survives the request-payment
      function's cleaning unchanged, unless it is a North American number,
      which the function replaces by the sandbox payer. */
  lemma AcceptedNumbersReachTheProvider(msisdn: string)
    requires ValidMsisdn(msisdn)
    ensures KeepDigitsAndPlus(msisdn)[1] != '1' ==>
      RequestPayment.CleanPayerPhone(Some(msisdn)) == KeepDigitsAndPlus(msisdn)
    ensures KeepDigitsAndPlus(msisdn)[1] == '1' ==>
      RequestPayment.CleanPayerPhone(Some(msisdn)) == RequestPayment.SandboxPayer
  {
    RequestPayment.CleanPayerPhoneByFirstCharacters(Some(msisdn));
  }

  const InvalidReferenceFormat := "Invalid reference ID format. Must be a valid UUID."

  /** The status a caller gets back. */
  datatype StatusView = StatusView(
    status: Option<string>,
    amount: Option<string>,
    currency: Option<string>,
    financialTransactionId: Option<string>,
    externalId: Option<string>,
    checkedAt: string)

  /** What a call of `get_payment_status` amounts to. */
  datatype StatusCheck = StatusCheck(result: Result<StatusView, string>, invoked: bool)

  /** `get_payment_status`. The status function is only asked about
      well-formed ids; the returned status is upper-cased and stamped with the
      function's check time, or with `now` when it sent none. */
  function GetPaymentStatus(referenceId: string, reply: Invocation<Transaction>, now: string): (c: StatusCheck)
    ensures c.invoked <==> IsUuid(referenceId)
    ensures referenceId == "" ==> c.result == Err("Reference ID is required")
    ensures c.result.Ok? ==> c.invoked && reply.Returned? && reply.success
    ensures referenceId != "" && !IsUuid(referenceId) ==> c.result == Err(InvalidReferenceFormat)
    ensures c.result.Ok? <==> IsUuid(referenceId) && reply.Returned? && reply.success
    ensures c.result.Ok? ==> c.result.value.status == UpperStatus(reply.payload)
    ensures c.result.Ok? ==>
      && c.result.value.amount == reply.payload.amount && c.result.value.currency == reply.payload.currency
      && c.result.value.financialTransactionId == reply.payload.financialTransactionId
      && c.result.value.externalId == reply.payload.externalId
    ensures c.result.Ok? ==>
      c.result.value.checkedAt == (if Truthy(reply.payload.checkedAt) then reply.payload.checkedAt.value else now)
    ensures IsUuid(referenceId) && reply.InvokeError? ==> c.result == Err("Status check failed: " + reply.message)
  {
    if referenceId == "" then StatusCheck(Err("Reference ID is required"), false)
    else if !IsUuid(referenceId) then StatusCheck(Err(InvalidReferenceFormat), false)
    else
      match Unwrap(reply, "Status check failed: ", "Status check failed")
      case Err(e) => StatusCheck(Err(e), true)
      case Ok(t) =>
        StatusCheck(Ok(StatusView(UpperStatus(t), t.amount, t.currency, t.financialTransactionId, t.externalId,
                                  OrDefault(t.checkedAt, now))), true)
  }

  /** `isPaymentCompleted`: true only for a successful status; an error
      counts as not completed. */
  function IsPaymentCompleted(check: Result<StatusView, string>): (done: bool)
    ensures done ==> check.Ok?
    ensures done <==> check.Ok? && check.value.status == Some("SUCCESSFUL")
  {
    match check
    case Err(_) => false
    case Ok(v) => v.status == Some("SUCCESSFUL")
  }

  /** The statuses that end the wait. */
  predicate IsTerminal(status: Option<string>) {
    status == Some("SUCCESSFUL") || status == Some("FAILED") || status == Some("REJECTED")
  }

  /** A poll result that ends the wait: an error, or a final status. */
  predicate StopsPolling(p: Result<StatusView, string>) {
    p.Err? || IsTerminal(p.value.status)
  }

  function TimeoutMessage(timeoutSeconds: int): string {
    "Payment status check timed out after " + IntToString(timeoutSeconds) + " seconds"
  }

  /** What waiting should give, read off the poll results: the first result
      that ends the wait, or the time-out error when none does. */
  function ExpectedWait(polls: seq<Result<StatusView, string>>, timeoutSeconds: int): (r: Result<StatusView, string>)
    ensures r.Ok? ==> IsTerminal(r.value.status) && r in polls
    ensures r != Err(TimeoutMessage(timeoutSeconds)) ==> exists i :: 0 <= i < |polls| && polls[i] == r
  {
    match FindIndex(polls, StopsPolling)
    case Some(k) => polls[k]
    case None => Err(TimeoutMessage(timeoutSeconds))
  }

  /** `waitForPaymentCompletion`. `polls` are the results of the polls the
      time limit leaves room for, in order. Returns the first final status,
      rethrows the first error, or gives up with the time-out error; it makes
      no poll after the one that ended the wait. */
  method WaitForCompletion(polls: seq<Result<StatusView, string>>, timeoutSeconds: int)
    returns (r: Result<StatusView, string>, made: nat)
    ensures r == ExpectedWait(polls, timeoutSeconds)
    ensures made <= |polls|
    ensures forall i :: 0 <= i < made - 1 ==> !StopsPolling(polls[i])
    ensures made < |polls| ==> made > 0 && StopsPolling(polls[made - 1])
  {
    var i := 0;
    while i < |polls|
      invariant 0 <= i <= |polls|
      invariant forall j :: 0 <= j < i ==> !StopsPolling(polls[j])
    {
      var p := polls[i];
      if StopsPolling(p) {
        assert FindIndex(polls, StopsPolling) == Some(i) by {
          FindIndexFirst(polls, StopsPolling, i);
        }
        return p, i + 1;
      }
      i := i + 1;
    }
    return Err(TimeoutMessage(timeoutSeconds)), |polls|;
  }

  /** The first index satisfying a predicate is the one `FindIndex` finds. */
  lemma FindIndexFirst<T>(s: seq<T>, p: T -> bool, i: nat)
    requires i < |s| && p(s[i])
    requires forall j :: 0 <= j < i ==> !p(s[j])
    ensures FindIndex(s, p) == Some(i)
  {
    var r := FindIndex(s, p);
    assert r.Some?;
    assert !(r.value < i);
    assert !(r.value > i);
  }
}

=== FILE: notifications.dfy ===
/** The realtime notifications: a toast when a mobile-money request row is
    inserted, when a payment becomes paid and when it becomes overdue. */
module Notifications {
  import opened Wrappers
  import opened Text
  import PaymentStatus
  import opened Records
  import TransactionStatus
  import InvoiceStatus
  import CancelInvoice

  datatype Notice = RequestSent(amount: int) | Received(amount: int) | NowOverdue(amount: int)

  /** The insert handler: only a pending mobile-money row is announced. */
  function OnInsert(p: NewPayment): (n: Option<Notice>)
    ensures n.Some? <==> p.paymentMethod == "MTN Mobile Money" && p.status == PaymentStatus.Pending
    ensures n.Some? ==> n.value == RequestSent(p.amount)
  {
    if p.paymentMethod == "MTN Mobile Money" && p.status == PaymentStatus.Pending then Some(RequestSent(p.amount))
    else None
  }

  /** The update handler: a notice for each status the row has just entered,
      paid first. */
  function OnUpdate(before: Payment, after: Payment): (ns: seq<Notice>)
    ensures |ns| <= 1
    ensures Received(after.amount) in ns <==> before.status != PaymentStatus.Paid && after.status == PaymentStatus.Paid
    ensures NowOverdue(after.amount) in ns <==> before.status != PaymentStatus.Overdue && after.status == PaymentStatus.Overdue
    ensures forall n :: n in ns ==> n.amount == after.amount && !n.RequestSent?
  {
    (if before.status != PaymentStatus.Paid && after.status == PaymentStatus.Paid then [Received(after.amount)] else [])
    + (if before.status != PaymentStatus.Overdue && after.status == PaymentStatus.Overdue then [NowOverdue(after.amount)] else [])
  }

  /** Saving a row again without a change of status announces nothing. */
  lemma UnchangedStatusIsSilent(before: Payment, after: Payment)
    requires after.status == before.status
    ensures OnUpdate(before, after) == []
  {
  }

  /** A poll that finds the request-to-pay successful announces the payment
      exactly when the row was not paid yet. */
  lemma SuccessfulPollAnnouncesPayment(p: Payment, now: string, today: string)
    ensures OnUpdate(p, Apply(TransactionStatus.StatusUpdate("SUCCESSFUL", now, today), p))
      == (if p.status == PaymentStatus.Paid then [] else [Received(p.amount)])
  {
    UpperOfUpperCaseWord("SUCCESSFUL");
  }

  /** No edge function ever writes `overdue`, so the overdue notice never
      follows one of their updates. */
  lemma FunctionsNeverRaiseOverdue(p: Payment, raw: string, expired: bool, txn: Option<string>,
                                   reason: Option<InvoiceStatus.Reason>, now: string, today: string)
    ensures NowOverdue(p.amount) !in OnUpdate(p, Apply(TransactionStatus.StatusUpdate(raw, now, today), p))
    ensures NowOverdue(p.amount) !in OnUpdate(p, Apply(InvoiceStatus.InvoiceUpdate(raw, expired, txn, reason, now, today), p))
    ensures NowOverdue(p.amount) !in OnUpdate(p, Apply(CancelInvoice.CancelUpdate(now), p))
  {
  }
}

=== FILE: payment_status.dfy ===
/** The `status` column of a payment row. The edge functions write `paid`,
    `pending`, `failed` and `expired`; the dashboard also knows `overdue` and
    `cancelled`. Any other string is carried unchanged. */
module PaymentStatus {

  datatype Status =
    | Paid | Pending | Overdue | Failed | Expired | Cancelled
    | Other(raw: string)

  function Raw(st: Status): string {
    match st
    case Paid => "paid"
    case Pending => "pending"
    case Overdue => "overdue"
    case Failed => "failed"
    case Expired => "expired"
    case Cancelled => "cancelled"
    case Other(s) => s
  }

  predicate IsKnown(s: string) {
    s in ["paid", "pending", "overdue", "failed", "expired", "cancelled"]
  }

  predicate Canonical(st: Status) {
    st.Other? ==> !IsKnown(st.raw)
  }

  /** Reads the column by exact comparison. */
  function Parse(s: string): (st: Status)
    ensures Raw(st) == s
    ensures Canonical(st)
  {
    if s == "paid" then Paid
    else if s == "pending" then Pending
    else if s == "overdue" then Overdue
    else if s == "failed" then Failed
    else if s == "expired" then Expired
    else if s == "cancelled" then Cancelled
    else Other(s)
  }

  lemma ParseRaw(st: Status)
    requires Canonical(st)
    ensures Parse(Raw(st)) == st
  {
  }
}

=== FILE: payments_view.dfy ===
/** The payments overview: the completed and pending sets, their totals,
    the overdue count, the collection rate and the payment-method icon. */
module PaymentsView {
  import opened Wrappers
  import opened Text
  import opened Seqs
  import PaymentStatus
  import opened Records

  predicate IsCompleted(p: Payment) { p.status == PaymentStatus.Paid }

  predicate IsPending(p: Payment) { p.status == PaymentStatus.Pending || p.status == PaymentStatus.Overdue }

  predicate IsOverdue(p: Payment) { p.status == PaymentStatus.Overdue }

  /** Neither paid nor awaiting payment. */
  predicate IsSettledOtherwise(p: Payment) { !IsCompleted(p) && !IsPending(p) }

  function Amount(p: Payment): int { p.amount }

  function Completed(ps: seq<Payment>): seq<Payment> { Filter(ps, IsCompleted) }

  function Pending(ps: seq<Payment>): seq<Payment> { Filter(ps, IsPending) }

  /** No payment is both completed and pending; each set holds exactly the
      payments of its statuses. */
  lemma CompletedAndPendingAreDisjoint(ps: seq<Payment>)
    ensures forall p :: p in Completed(ps) ==> p !in Pending(ps)
    ensures forall p :: p in ps ==> (p in Completed(ps) <==> IsCompleted(p))
    ensures forall p :: p in ps ==> (p in Pending(ps) <==> IsPending(p))
  {
  }

  /** "Total Collected" and the pending total. */
  function Collected(ps: seq<Payment>): int { SumBy(Completed(ps), Amount) }

  function Outstanding(ps: seq<Payment>): int { SumBy(Pending(ps), Amount) }

  /** The two totals and the total of the remaining payments add up to the
      sum of all amounts. */
  lemma {:induction false} TotalsPartitionTheAmounts(ps: seq<Payment>)
    ensures Collected(ps) + Outstanding(ps) + SumBy(Filter(ps, IsSettledOtherwise), Amount) == SumBy(ps, Amount)
    decreases |ps|
  {
    if ps != [] {
      TotalsPartitionTheAmounts(ps[1..]);
    }
  }

  /** With non-negative amounts, each total is at most the sum of all. */
  lemma TotalsBounded(ps: seq<Payment>)
    requires forall i :: 0 <= i < |ps| ==> ps[i].amount >= 0
    ensures 0 <= Collected(ps) && 0 <= Outstanding(ps)
    ensures Collected(ps) + Outstanding(ps) <= SumBy(ps, Amount)
  {
    TotalsPartitionTheAmounts(ps);
    var rest := Filter(ps, IsSettledOtherwise);
    SumByNonNegative(Completed(ps), Amount);
    SumByNonNegative(Pending(ps), Amount);
    SumByNonNegative(rest, Amount);
  }

  /** The "Overdue" card: the overdue payments among the pending ones. */
  function OverdueCount(ps: seq<Payment>): (n: nat)
    ensures n <= |Pending(ps)|
  {
    |Filter(Pending(ps), IsOverdue)|
  }

  /** Every overdue payment is pending, so the card counts all overdue
      payments. */
  lemma {:induction false} OverdueCountCountsAllOverdue(ps: seq<Payment>)
    ensures OverdueCount(ps) == |Filter(ps, IsOverdue)|
    decreases |ps|
  {
    if ps != [] {
      OverdueCountCountsAllOverdue(ps[1..]);
    }
  }

  /** The collection rate as the fraction it displays (times 100); no
      payments at all shows 0. */
  datatype Rate = NoPayments | Ratio(completed: nat, total: nat)

  function SuccessRate(ps: seq<Payment>): (r: Rate)
    ensures r.NoPayments? <==> ps == []
    ensures r.Ratio? ==> 0 < r.total == |ps| && r.completed <= r.total
    ensures r.Ratio? ==> r.completed == |Completed(ps)|
    ensures r.Ratio? ==> 0 <= 100 * r.completed <= 100 * r.total
  {
    if |ps| > 0 then Ratio(|Completed(ps)|, |ps|) else NoPayments
  }

  /** The rate is 100% exactly when every payment is paid. */
  lemma FullRateMeansAllPaid(ps: seq<Payment>)
    requires ps != []
    ensures SuccessRate(ps).completed == SuccessRate(ps).total <==>
      forall i :: 0 <= i < |ps| ==> ps[i].status == PaymentStatus.Paid
  {
    FilterKeepsLength(ps, IsCompleted);
  }

  /** The icon shown for a payment method. */
  datatype Icon = CardIcon | CashIcon | GenericIcon

  /** Card wins over cash: "card" or "credit" anywhere in the lower-cased
      method gives the card icon, else "cash" the cash icon. */
  function MethodIcon(m: string): (icon: Icon)
    ensures icon == CardIcon <==> Contains(Lower(m), "card") || Contains(Lower(m), "credit")
    ensures icon == CashIcon <==> !Contains(Lower(m), "card") && !Contains(Lower(m), "credit") && Contains(Lower(m), "cash")
  {
    var l := Lower(m);
    if Contains(l, "card") || Contains(l, "credit") then CardIcon
    else if Contains(l, "cash") then CashIcon
    else GenericIcon
  }

  /** The icon does not depend on the method's letter case. */
  lemma MethodIconIgnoresCase(m: string)
    ensures MethodIcon(Lower(m)) == MethodIcon(m)
  {
    LowerIdempotent(m);
  }

  /** A string without the letter `c` contains no word that has one. */
  lemma NoLetterNoWord(s: string, w: string, k: nat)
    requires k < |w| && w[k] !in s
    ensures !Contains(s, w)
  {
    forall i | 0 <= i <= |s| - |w|
      ensures !MatchAt(s, w, i)
    {
      assert s[i..i + |w|][k] == s[i + k];
      assert s[i + k] in s;
    }
  }

  /** A method without the letter `c` in either case shows the generic
      icon; the functions' "MTN Mobile Money" is such a method. */
  lemma MethodWithoutCIsGeneric(m: string)
    requires forall i :: 0 <= i < |m| ==> m[i] != 'c' && m[i] != 'C'
    ensures MethodIcon(m) == GenericIcon
  {
    var l := Lower(m);
    assert 'c' !in l;
    NoLetterNoWord(l, "card", 0);
    NoLetterNoWord(l, "credit", 0);
    NoLetterNoWord(l, "cash", 0);
  }

  lemma MobileMoneyIsGeneric()
    ensures MethodIcon("MTN Mobile Money") == GenericIcon
  {
    MethodWithoutCIsGeneric("MTN Mobile Money");
  }
}

=== FILE: provider_status.dfy ===
/** The status strings the mobile-money provider reports for request-to-pay
    transactions and invoices. Any other string is carried unchanged. */
module ProviderStatus {

  datatype Status =
    | Created | Pending | Ongoing | Successful | Failed | Rejected | Cancelled
    | Other(raw: string)

  /** The provider's spelling of a status. */
  function Raw(st: Status): string {
    match st
    case Created => "CREATED"
    case Pending => "PENDING"
    case Ongoing => "ONGOING"
    case Successful => "SUCCESSFUL"
    case Failed => "FAILED"
    case Rejected => "REJECTED"
    case Cancelled => "CANCELLED"
    case Other(s) => s
  }

  predicate IsKnown(s: string) {
    s in ["CREATED", "PENDING", "ONGOING", "SUCCESSFUL", "FAILED", "REJECTED", "CANCELLED"]
  }

  /** A status value as parsing can produce it: `Other` never hides a known name. */
  predicate Canonical(st: Status) {
    st.Other? ==> !IsKnown(st.raw)
  }

  /** Reads a status by exact, case-sensitive comparison, as the source's
      `switch` statements and `===` tests do. */
  function Parse(s: string): (st: Status)
    ensures Raw(st) == s
    ensures Canonical(st)
  {
    if s == "CREATED" then Created
    else if s == "PENDING" then Pending
    else if s == "ONGOING" then Ongoing
    else if s == "SUCCESSFUL" then Successful
    else if s == "FAILED" then Failed
    else if s == "REJECTED" then Rejected
    else if s == "CANCELLED" then Cancelled
    else Other(s)
  }

  /** Parsing the spelling of a canonical status gives the status back. */
  lemma ParseRaw(st: Status)
    requires Canonical(st)
    ensures Parse(Raw(st)) == st
  {
  }
}

=== FILE: records.dfy ===
/** The rows of the `payments`, `tenants` and `properties` tables as the
    dashboard and the edge functions see them, and the partial updates the
    edge functions send to the `payments` table. */
module Records {
  import opened Wrappers
  import PaymentStatus

  /** A payment row joined with its tenant's and property's names. Amounts are
      whole currency units; `createdAt` is the creation time as a number. */
  datatype Payment = Payment(
    id: string,
    tenantId: string,
    propertyId: string,
    amount: int,
    status: PaymentStatus.Status,
    paymentMethod: string,
    dueDate: string,
    paidDate: Option<string>,
    momoReferenceId: Option<string>,
    momoExternalId: Option<string>,
    requestStatus: Option<string>,
    invoiceStatus: Option<string>,
    financialTransactionId: Option<string>,
    errorCode: Option<string>,
    errorMessage: Option<string>,
    tenantName: Option<string>,
    propertyName: Option<string>,
    createdAt: int,
    updatedAt: Option<string>)

  /** A partial update of a payment row: `Some` marks a column the update
      writes. The error columns may be written with `null`, hence the nested
      option. */
  datatype PaymentUpdate = PaymentUpdate(
    status: Option<PaymentStatus.Status>,
    paidDate: Option<string>,
    paymentMethod: Option<string>,
    momoReferenceId: Option<string>,
    requestStatus: Option<string>,
    invoiceStatus: Option<string>,
    financialTransactionId: Option<string>,
    errorCode: Option<Option<string>>,
    errorMessage: Option<Option<string>>,
    updatedAt: Option<string>)

  const NoChange := PaymentUpdate(None, None, None, None, None, None, None, None, None, None)

  /** The names of the columns an update writes. */
  function Columns(u: PaymentUpdate): set<string> {
    (if u.status.Some? then {"status"} else {})
    + (if u.paidDate.Some? then {"paid_date"} else {})
    + (if u.paymentMethod.Some? then {"payment_method"} else {})
    + (if u.momoReferenceId.Some? then {"momo_reference_id"} else {})
    + (if u.requestStatus.Some? then {"momo_request_status"} else {})
    + (if u.invoiceStatus.Some? then {"momo_invoice_status"} else {})
    + (if u.financialTransactionId.Some? then {"momo_financial_transaction_id"} else {})
    + (if u.errorCode.Some? then {"momo_error_code"} else {})
    + (if u.errorMessage.Some? then {"momo_error_message"} else {})
    + (if u.updatedAt.Some? then {"updated_at"} else {})
  }

  function Over<T>(w: Option<T>, old_: T): T {
    if w.Some? then w.value else old_
  }

  function OverOpt<T>(w: Option<T>, old_: Option<T>): Option<T> {
    if w.Some? then w else old_
  }

  /** The row after the database applies `u` to `p`: written columns take the
      new value, every other column keeps its value. */
  function Apply(u: PaymentUpdate, p: Payment): (q: Payment)
    ensures q.id == p.id && q.tenantId == p.tenantId && q.propertyId == p.propertyId
    ensures q.amount == p.amount && q.dueDate == p.dueDate && q.createdAt == p.createdAt
    ensures q.momoExternalId == p.momoExternalId
    ensures q.tenantName == p.tenantName && q.propertyName == p.propertyName
    ensures "status" !in Columns(u) ==> q.status == p.status
    ensures "paid_date" !in Columns(u) ==> q.paidDate == p.paidDate
    ensures "payment_method" !in Columns(u) ==> q.paymentMethod == p.paymentMethod
    ensures "momo_reference_id" !in Columns(u) ==> q.momoReferenceId == p.momoReferenceId
    ensures "momo_request_status" !in Columns(u) ==> q.requestStatus == p.requestStatus
    ensures "momo_invoice_status" !in Columns(u) ==> q.invoiceStatus == p.invoiceStatus
    ensures "momo_financial_transaction_id" !in Columns(u) ==> q.financialTransactionId == p.financialTransactionId
    ensures "momo_error_code" !in Columns(u) ==> q.errorCode == p.errorCode
    ensures "momo_error_message" !in Columns(u) ==> q.errorMessage == p.errorMessage
    ensures "updated_at" !in Columns(u) ==> q.updatedAt == p.updatedAt
    ensures u.status.Some? ==> q.status == u.status.value
    ensures u.paidDate.Some? ==> q.paidDate == u.paidDate
    ensures u.paymentMethod.Some? ==> q.paymentMethod == u.paymentMethod.value
    ensures u.momoReferenceId.Some? ==> q.momoReferenceId == u.momoReferenceId
    ensures u.requestStatus.Some? ==> q.requestStatus == u.requestStatus
    ensures u.invoiceStatus.Some? ==> q.invoiceStatus == u.invoiceStatus
    ensures u.financialTransactionId.Some? ==> q.financialTransactionId == u.financialTransactionId
    ensures u.errorCode.Some? ==> q.errorCode == u.errorCode.value
    ensures u.errorMessage.Some? ==> q.errorMessage == u.errorMessage.value
    ensures u.updatedAt.Some? ==> q.updatedAt == u.updatedAt
  {
    p.(status := Over(u.status, p.status),
       paidDate := OverOpt(u.paidDate, p.paidDate),
       paymentMethod := Over(u.paymentMethod, p.paymentMethod),
       momoReferenceId := OverOpt(u.momoReferenceId, p.momoReferenceId),
       requestStatus := OverOpt(u.requestStatus, p.requestStatus),
       invoiceStatus := OverOpt(u.invoiceStatus, p.invoiceStatus),
       financialTransactionId := OverOpt(u.financialTransactionId, p.financialTransactionId),
       errorCode := Over(u.errorCode, p.errorCode),
       errorMessage := Over(u.errorMessage, p.errorMessage),
       updatedAt := OverOpt(u.updatedAt, p.updatedAt))
  }

  /** An update that writes no column leaves the row as it was. */
  lemma ApplyNoChange(p: Payment)
    ensures Columns(NoChange) == {}
    ensures Apply(NoChange, p) == p
  {
  }

  /** Sending the same update twice has the effect of sending it once. */
  lemma ApplyTwice(u: PaymentUpdate, p: Payment)
    ensures Apply(u, Apply(u, p)) == Apply(u, p)
  {
  }

  /** A payment row the dashboard inserts before it asks the provider for
      the money. */
  datatype NewPayment = NewPayment(
    tenantId: string, propertyId: Option<string>, amount: int,
    status: PaymentStatus.Status, paymentMethod: string, dueDate: string)

  /** The tenant statuses the `tenants` table holds. */
  datatype TenantStatus = Active | Inactive | Overdue | Pending | OtherStatus(raw: string)

  /** An emergency contact; only the name is mandatory. */
  datatype Contact = Contact(name: string, phone: Option<string>, email: Option<string>)

  datatype Tenant = Tenant(
    id: string,
    name: string,
    email: string,
    phone: string,
    rent: int,
    status: TenantStatus,
    propertyId: Option<string>,
    emergencyContacts: Option<seq<Contact>>)

  datatype Property = Property(id: string, name: string, tenantId: Option<string>)
}

=== FILE: request_payment.dfy ===
/** The `mtn-momo-request-payment` edge function: an administrator asks the
    provider to collect an amount from a payer's phone. The function cleans
    the phone number (replacing anything it cannot use by the sandbox test
    payer), sends the request-to-pay under a reference id, and records the
    reference on the payment row. */
module RequestPayment {
  import opened Wrappers
  import opened Text
  import opened Http
  import opened Records
  import PaymentStatus

  /** The caller as the backend resolves it: `user` is absent when the token
      lookup fails or finds no user; `isAdmin` tells whether an admin row
      exists in `user_roles`. */
  datatype Caller = Caller(authHeader: Option<string>, user: Option<string>, isAdmin: bool)

  datatype Body = Body(
    phoneNumber: Option<string>,
    msisdn: Option<string>,
    amount: Option<int>,
    paymentId: Option<string>,
    externalId: Option<string>,
    validityHours: Option<int>,
    description: Option<string>)

  /** The request-to-pay as sent: the `X-Reference-Id` header and the body. */
  datatype RequestToPay = RequestToPay(
    referenceHeader: string,
    amount: string,
    currency: string,
    externalId: string,
    payerPartyId: string,
    payerMessage: string,
    payeeNote: string,
    validitySeconds: Option<int>)

  datatype ResponseBody = Requested(referenceId: string, externalId: string, message: string) | Error(error: string)

  datatype Response = Response(code: int, body: ResponseBody)

  datatype Outcome = Outcome(
    response: Response,
    calls: seq<Call>,
    request: Option<RequestToPay>,
    update: Option<PaymentUpdate>)

  /** The sandbox test payer that stands in for unusable numbers. */
  const SandboxPayer := "+46114477000"

  /** What `(undefined).toString()` throws when the amount is missing. */
  const MissingAmountError := "Cannot read properties of undefined (reading 'toString')"

  /** The payer's number as the function sends it: the digits and plus signs
      of the number, unless that is missing, starts with `+1`, starts with
      `1` and has eleven characters, or does not start with `+` at all, in
      which case the sandbox test payer. */
  function CleanPayerPhone(target: Option<string>): (phone: string)
    ensures |phone| > 0 && phone[0] == '+'
    ensures forall i :: 0 <= i < |phone| ==> IsDigitOrPlus(phone[i])
    ensures phone == SandboxPayer || (target.Some? && phone == KeepDigitsAndPlus(target.value))
  {
    if target.None? then SandboxPayer
    else
      var clean := KeepDigitsAndPlus(target.value);
      if StartsWith(clean, "+1") then SandboxPayer
      else if StartsWith(clean, "1") && |clean| == 11 then SandboxPayer
      else if !StartsWith(clean, "+") then SandboxPayer
      else clean
  }

  /** The same decision read off the first two characters: a cleaned number
      is kept exactly when it starts with `+` not followed by `1`. The
      eleven-digit rule never changes the outcome. */
  lemma CleanPayerPhoneByFirstCharacters(target: Option<string>)
    ensures CleanPayerPhone(target) ==
      (if target.None? then SandboxPayer
       else
         var c := KeepDigitsAndPlus(target.value);
         if |c| >= 1 && c[0] == '+' && !(|c| >= 2 && c[1] == '1') then c else SandboxPayer)
  {
  }

  /** `cleanPhoneNumber.replace('+', '')`: the payer's party id. */
  function PayerPartyId(phone: string): (id: string)
    ensures |phone| > 0 && phone[0] == '+' ==> id == phone[1..]
  {
    RemoveFirst(phone, '+')
  }

  /** The update that records a sent request on the payment row. */
  function RequestedUpdate(referenceId: string, now: string): (u: PaymentUpdate)
    ensures Columns(u) == {"status", "payment_method", "momo_reference_id", "momo_request_status", "updated_at"}
    ensures u.status == Some(PaymentStatus.Pending) && u.momoReferenceId == Some(referenceId)
    ensures u.requestStatus == Some("PENDING")
    ensures u.paymentMethod == Some("MTN Mobile Money") && u.updatedAt == Some(now)
  {
    NoChange.(status := Some(PaymentStatus.Pending), paymentMethod := Some("MTN Mobile Money"),
              momoReferenceId := Some(referenceId), requestStatus := Some("PENDING"), updatedAt := Some(now))
  }

  /** `targetPhone?.substring(0, 5)` inside a string. */
  function MaskedPrefix(target: Option<string>): string {
    if target.None? then "undefined"
    else if |target.value| <= 5 then target.value
    else target.value[..5]
  }

  /** The request sent for a body, under `referenceId`: the reference is both
      the header and the external id; the payer is the cleaned `msisdn`, or
      the cleaned `phoneNumber` when `msisdn` is empty, without its plus sign;
      the description, when given, is both messages; a validity in hours is
      sent in seconds. */
  function BuildRequest(body: Body, amount: int, referenceId: string): (r: RequestToPay)
    ensures r.referenceHeader == referenceId && r.externalId == referenceId
    ensures r.amount == IntToString(amount) && r.currency == "EUR"
    ensures r.payerPartyId == CleanPayerPhone(if Truthy(body.msisdn) then body.msisdn else body.phoneNumber)[1..]
    ensures Truthy(body.description) ==> r.payerMessage == body.description.value && r.payeeNote == body.description.value
    ensures !Truthy(body.description) ==> r.payerMessage == "Rent invoice payment" && r.payeeNote == "Property rent invoice"
    ensures r.validitySeconds.Some? <==> body.validityHours.Some? && body.validityHours.value != 0
    ensures r.validitySeconds.Some? ==> r.validitySeconds.value == body.validityHours.value * 3600
  {
    var phone := CleanPayerPhone(Or(body.msisdn, body.phoneNumber));
    RequestToPay(
      referenceId, IntToString(amount), "EUR", referenceId, PayerPartyId(phone),
      OrDefault(body.description, "Rent invoice payment"),
      OrDefault(body.description, "Property rent invoice"),
      if body.validityHours.Some? && body.validityHours.value != 0
      then Some(body.validityHours.value * 3600) else None)
  }

  predicate IsAdmin(caller: Caller) {
    Truthy(caller.authHeader) && caller.user.Some? && caller.isAdmin
  }

  /** The whole function. `generated` is the random id used when the body
      names no external id. Only an administrator's request reaches the
      provider; the one reference id is the request's header, its external
      id, the id in the response and the id recorded on the row; and the row
      is only updated after the provider accepted the request. */
  function Handle(caller: Caller, body: Body, credentials: bool, generated: string,
                  token: TokenReply, reply: PlainReply, now: string): (o: Outcome)
    ensures o.response.code in {200, 401, 403, 500}
    ensures o.response.code == 200 <==> o.response.body.Requested?
    ensures o.request.Some? <==> ProviderCall in o.calls
    ensures o.request.Some? ==> IsAdmin(caller) && credentials && IsOk(token.code)
    ensures o.response.code == 200 ==> o.request.Some? && IsOk(reply.code)
    ensures o.response.body.Requested? ==>
      var id := o.response.body.referenceId;
      && o.response.body.externalId == id
      && o.request.value.referenceHeader == id && o.request.value.externalId == id
      && (o.update.Some? ==> o.update.value.momoReferenceId == Some(id))
    ensures o.update.Some? <==> o.response.code == 200 && Truthy(body.paymentId)
    ensures !Truthy(caller.authHeader) ==> o.response == Response(401, Error("Authentication required")) && o.calls == []
    ensures Truthy(caller.authHeader) && caller.user.None? ==> o.response == Response(401, Error("Invalid authentication"))
    ensures Truthy(caller.authHeader) && caller.user.Some? && !caller.isAdmin ==>
      o.response == Response(403, Error("Admin access required"))
    ensures !IsAdmin(caller) ==> ReadBody !in o.calls && FetchToken !in o.calls && o.update.None?
    ensures o.request.Some? <==> IsAdmin(caller) && credentials && IsOk(token.code) && body.amount.Some?
    ensures o.request.Some? ==>
      o.request.value == BuildRequest(body, body.amount.value, OrDefault(body.externalId, generated))
    ensures o.response.body.Requested? ==> o.response.body.referenceId == OrDefault(body.externalId, generated)
    ensures o.update.Some? ==> o.update.value == RequestedUpdate(OrDefault(body.externalId, generated), now)
    ensures o.request.Some? && IsOk(reply.code) ==> o.response.code == 200
    ensures o.request.Some? && !IsOk(reply.code) ==>
      o.response == Response(500, Error("MTN MoMo API error: " + IntToString(reply.code) + " - " + reply.text))
      && o.update.None?
  {
    if !Truthy(caller.authHeader) then Outcome(Response(401, Error("Authentication required")), [], None, None)
    else if caller.user.None? then Outcome(Response(401, Error("Invalid authentication")), [CheckCaller], None, None)
    else if !caller.isAdmin then Outcome(Response(403, Error("Admin access required")), [CheckCaller], None, None)
    else if !credentials then
      Outcome(Response(500, Error("Missing MTN MoMo credentials")), [CheckCaller, ReadBody], None, None)
    else
      var referenceId := OrDefault(body.externalId, generated);
      var asked := [CheckCaller, ReadBody, FetchToken];
      if !IsOk(token.code) then
        Outcome(Response(500, Error("MTN MoMo token error: " + IntToString(token.code) + " - " + token.text)),
                asked, None, None)
      else if body.amount.None? then
        Outcome(Response(500, Error(MissingAmountError)), asked, None, None)
      else
        var request := BuildRequest(body, body.amount.value, referenceId);
        if !IsOk(reply.code) then
          Outcome(Response(500, Error("MTN MoMo API error: " + IntToString(reply.code) + " - " + reply.text)),
                  asked + [ProviderCall], Some(request), None)
        else
          var update := if Truthy(body.paymentId) then Some(RequestedUpdate(referenceId, now)) else None;
          var message := "Invoice created successfully for " + MaskedPrefix(Or(body.msisdn, body.phoneNumber)) + "***";
          Outcome(Response(200, Requested(referenceId, referenceId, message)),
                  asked + [ProviderCall] + (if update.Some? then [WritePayment] else []),
                  Some(request), update)
  }

  /** A request without any usable phone number still goes out, to the
      sandbox test payer. */
  lemma MissingPhoneFallsBackToSandbox(body: Body, amount: int, referenceId: string)
    requires !Truthy(body.msisdn) && body.phoneNumber.None?
    ensures BuildRequest(body, amount, referenceId).payerPartyId == "46114477000"
  {
  }

  /** An international number that is not North American is sent as its
      digits, without the plus sign. */
  lemma InternationalNumberIsKept(body: Body, amount: int, referenceId: string)
    requires Truthy(body.msisdn)
    requires var c := KeepDigitsAndPlus(body.msisdn.value); |c| >= 2 && c[0] == '+' && c[1] != '1'
    ensures BuildRequest(body, amount, referenceId).payerPartyId == KeepDigitsAndPlus(body.msisdn.value)[1..]
  {
    CleanPayerPhoneByFirstCharacters(Or(body.msisdn, body.phoneNumber));
  }
}

=== FILE: seqs.dfy ===
/** Generic sequence operations the components build on: the source's
    `Array.prototype.filter`, `find` and `reduce((sum, x) => sum + f(x), 0)`. */
module Seqs {
  import opened Wrappers

  /** The elements of `s` that satisfy `p`, in their original order. */
  function Filter<T>(s: seq<T>, p: T -> bool): (r: seq<T>)
    ensures |r| <= |s|
    ensures forall i :: 0 <= i < |r| ==> r[i] in s && p(r[i])
    ensures forall i :: 0 <= i < |s| && p(s[i]) ==> s[i] in r
    decreases |s|
  {
    if s == [] then []
    else if p(s[0]) then [s[0]] + Filter(s[1..], p)
    else Filter(s[1..], p)
  }

  /** Filtering distributes over concatenation; with the one-element case this
      pins down the order of the result. */
  lemma {:induction false} FilterConcat<T>(a: seq<T>, b: seq<T>, p: T -> bool)
    ensures Filter(a + b, p) == Filter(a, p) + Filter(b, p)
    decreases |a|
  {
    if a == [] {
      assert a + b == b;
    } else {
      assert (a + b)[1..] == a[1..] + b;
      FilterConcat(a[1..], b, p);
    }
  }

  /** Filtering keeps the whole length exactly when every element passes. */
  lemma {:induction false} FilterKeepsLength<T>(s: seq<T>, p: T -> bool)
    ensures |Filter(s, p)| == |s| <==> forall i :: 0 <= i < |s| ==> p(s[i])
    decreases |s|
  {
    if s != [] {
      FilterKeepsLength(s[1..], p);
      assert forall i :: 1 <= i < |s| ==> s[1..][i - 1] == s[i];
    }
  }

  /** Filtering by a predicate every element satisfies keeps the sequence. */
  lemma {:induction false} FilterKeepsAll<T>(s: seq<T>, p: T -> bool)
    requires forall i :: 0 <= i < |s| ==> p(s[i])
    ensures Filter(s, p) == s
    decreases |s|
  {
    if s != [] {
      FilterKeepsAll(s[1..], p);
    }
  }

  /** Filtering twice is filtering by the conjunction. */
  lemma {:induction false} FilterFilter<T>(s: seq<T>, p: T -> bool, q: T -> bool)
    ensures Filter(Filter(s, p), q) == Filter(s, x => p(x) && q(x))
    decreases |s|
  {
    if s != [] {
      FilterFilter(s[1..], p, q);
    }
  }

  /** Filtering by two predicates that agree on the elements gives the same
      result. */
  lemma {:induction false} FilterAgreeing<T>(s: seq<T>, p: T -> bool, q: T -> bool)
    requires forall i :: 0 <= i < |s| ==> p(s[i]) == q(s[i])
    ensures Filter(s, p) == Filter(s, q)
    decreases |s|
  {
    if s != [] {
      FilterAgreeing(s[1..], p, q);
    }
  }

  /** The sum of `f` over the elements of `s`. */
  function SumBy<T>(s: seq<T>, f: T -> int): int
    decreases |s|
  {
    if s == [] then 0 else f(s[0]) + SumBy(s[1..], f)
  }

  /** A sum over non-negative terms is non-negative. */
  lemma {:induction false} SumByNonNegative<T>(s: seq<T>, f: T -> int)
    requires forall i :: 0 <= i < |s| ==> f(s[i]) >= 0
    ensures SumBy(s, f) >= 0
    decreases |s|
  {
    if s != [] {
      SumByNonNegative(s[1..], f);
    }
  }

  /** Summing over a filter and over its complement adds up to the whole sum. */
  lemma {:induction false} SumByPartition<T>(s: seq<T>, f: T -> int, p: T -> bool)
    ensures SumBy(Filter(s, p), f) + SumBy(Filter(s, x => !p(x)), f) == SumBy(s, f)
    decreases |s|
  {
    if s != [] {
      SumByPartition(s[1..], f, p);
    }
  }

  /** The position of the first element satisfying `p`, if any (`findIndex`). */
  function FindIndex<T>(s: seq<T>, p: T -> bool): (r: Option<nat>)
    ensures r.Some? ==> r.value < |s| && p(s[r.value])
    ensures r.Some? ==> forall j :: 0 <= j < r.value ==> !p(s[j])
    ensures r.None? <==> forall j :: 0 <= j < |s| ==> !p(s[j])
    decreases |s|
  {
    if s == [] then None
    else if p(s[0]) then Some(0)
    else
      match FindIndex(s[1..], p)
      case None => None
      case Some(k) => Some(k + 1)
  }

  /** The first element satisfying `p`, if any (`Array.prototype.find`). */
  function Find<T>(s: seq<T>, p: T -> bool): (r: Option<T>)
    ensures r.Some? <==> exists i :: 0 <= i < |s| && p(s[i])
    ensures r.Some? ==> r.value in s && p(r.value)
  {
    match FindIndex(s, p)
    case None => None
    case Some(k) => Some(s[k])
  }
}

=== FILE: status_agreement.dfy ===
/** How the three places that turn a provider status into a payment status
    compare: the request-to-pay poller (case-insensitive, unknown means
    pending), the invoice poller (exact, unknown leaves the row alone) and the
    callback (exact, only success and failure count). */
module StatusAgreement {
  import opened Wrappers
  import opened Records
  import PaymentStatus
  import TransactionStatus
  import InvoiceStatus
  import Callback

  /** On the provider's own spelling of success and failure all three agree. */
  lemma AgreeOnSuccessAndFailure(expired: bool)
    ensures TransactionStatus.RequestToPayStatus("SUCCESSFUL") == PaymentStatus.Paid
    ensures InvoiceStatus.InvoicePaymentStatus("SUCCESSFUL", expired) == Some(PaymentStatus.Paid)
    ensures Callback.CallbackStatus(Some("SUCCESSFUL")) == PaymentStatus.Paid
    ensures TransactionStatus.RequestToPayStatus("FAILED") == PaymentStatus.Failed
    ensures InvoiceStatus.InvoicePaymentStatus("FAILED", expired) == Some(PaymentStatus.Failed)
    ensures Callback.CallbackStatus(Some("FAILED")) == PaymentStatus.Failed
  {
  }

  /** A rejected request is a failure to the poller but still pending to the
      callback. */
  lemma RejectedDisagrees()
    ensures TransactionStatus.RequestToPayStatus("REJECTED") == PaymentStatus.Failed
    ensures Callback.CallbackStatus(Some("REJECTED")) == PaymentStatus.Pending
  {
  }

  /** A status in lower case is a payment to the request-to-pay poller only. */
  lemma LowerCaseSuccessDisagrees(expired: bool)
    ensures TransactionStatus.RequestToPayStatus("successful") == PaymentStatus.Paid
    ensures Callback.CallbackStatus(Some("successful")) == PaymentStatus.Pending
    ensures InvoiceStatus.InvoicePaymentStatus("successful", expired).None?
  {
  }

  /** An ongoing request puts a paid row back to pending through the
      request-to-pay poller, while the invoice poller leaves it paid. */
  lemma OngoingOnPaidRow(p: Payment, ftid: Option<string>, reason: Option<InvoiceStatus.Reason>,
                         expired: bool, now: string, today: string)
    requires p.status == PaymentStatus.Paid
    ensures Apply(TransactionStatus.StatusUpdate("ONGOING", now, today), p).status == PaymentStatus.Pending
    ensures Apply(InvoiceStatus.InvoiceUpdate("ONGOING", expired, ftid, reason, now, today), p).status
      == PaymentStatus.Paid
  {
  }

  /** Only the invoice poller ever marks a row expired. */
  lemma OnlyInvoicePollerExpires(raw: string, status: Option<string>)
    ensures TransactionStatus.RequestToPayStatus(raw) != PaymentStatus.Expired
    ensures Callback.CallbackStatus(status) != PaymentStatus.Expired
    ensures InvoiceStatus.InvoicePaymentStatus("PENDING", true) == Some(PaymentStatus.Expired)
  {
  }
}

=== FILE: status_display.dfy ===
/** How a payment's status is shown on the payments and invoices pages: the
    request-to-pay status wins over the invoice status, which wins over the
    row's own status; pending items past their due date show as expired. */
module StatusDisplay {
  import opened Wrappers
  import opened Text
  import PaymentStatus
  import opened Records

  /** The badge variants of the user-interface kit. */
  datatype Badge = Default | Secondary | Destructive | Outline

  datatype Display = Display(text: string, badge: Badge, isExpired: bool)

  /** `now > new Date(due_date)`: false when the due date does not parse. */
  predicate PastDue(due: Option<int>, now: int) {
    due.Some? && now > due.value
  }

  /** The three parts of a display agree: the expired flag goes with the
      outline badge and the text "Expired", the destructive badge with a text
      starting "Failed", the default badge with "Paid". */
  predicate Coherent(d: Display) {
    && (d.isExpired <==> d.badge == Outline)
    && (d.isExpired <==> d.text == "Expired")
    && (d.badge == Destructive <==> StartsWith(d.text, "Failed"))
    && (d.badge == Default <==> d.text == "Paid")
  }

  /** A text whose first letter is not `F` does not start with "Failed". */
  lemma NotFailedText(t: string)
    requires |t| > 0 && t[0] != 'F'
    ensures !StartsWith(t, "Failed")
  {
  }

  const ExpiredDisplay := Display("Expired", Outline, true)
  const AwaitingDisplay := Display("Awaiting payment", Secondary, false)
  const PaidDisplay := Display("Paid", Default, false)
  const ProcessingDisplay := Display("Processing", Secondary, false)

  /** A provider failure: "Failed: " and the stored message, or "Payment
      failed" without one. */
  function FailedDisplay(message: Option<string>): (d: Display)
    ensures Coherent(d)
    ensures d.text == "Failed: " + (if Truthy(message) then message.value else "Payment failed")
    ensures d.badge == Destructive && !d.isExpired
  {
    var text := "Failed: " + OrDefault(message, "Payment failed");
    assert text[..6] == "Failed";
    Display(text, Destructive, false)
  }

  /** An open item: expired once past its due date, else awaiting payment. */
  function ByDueDate(due: Option<int>, now: int): (d: Display)
    ensures Coherent(d)
    ensures d.isExpired <==> PastDue(due, now)
    ensures !d.isExpired ==> d.text == "Awaiting payment" && d.badge == Secondary
  {
    NotFailedText("Expired");
    NotFailedText("Awaiting payment");
    if PastDue(due, now) then ExpiredDisplay else AwaitingDisplay
  }

  /** The display for a recorded request-to-pay status. */
  function RequestDisplay(raw: string, p: Payment, due: Option<int>, now: int): (d: Display)
    ensures Coherent(d)
    ensures raw == "PENDING" ==> d == ByDueDate(due, now)
    ensures raw == "SUCCESSFUL" ==> d == Display("Paid", Default, false)
    ensures raw == "FAILED" || raw == "REJECTED" ==> d == FailedDisplay(p.errorMessage)
    ensures raw !in {"PENDING", "SUCCESSFUL", "FAILED", "REJECTED"} ==> d == Display("Processing", Secondary, false)
  {
    NotFailedText("Paid");
    NotFailedText("Processing");
    if raw == "PENDING" then ByDueDate(due, now)
    else if raw == "SUCCESSFUL" then PaidDisplay
    else if raw == "FAILED" || raw == "REJECTED" then FailedDisplay(p.errorMessage)
    else ProcessingDisplay
  }

  /** The display for a recorded invoice status. */
  function InvoiceDisplay(raw: string, p: Payment, due: Option<int>, now: int): (d: Display)
    ensures Coherent(d)
    ensures raw == "CREATED" || raw == "PENDING" ==> d == ByDueDate(due, now)
    ensures raw == "SUCCESSFUL" ==> d == Display("Paid", Default, false)
    ensures raw == "FAILED" || raw == "CANCELLED" ==> d == FailedDisplay(p.errorMessage)
    ensures raw !in {"CREATED", "PENDING", "SUCCESSFUL", "FAILED", "CANCELLED"} ==>
      d == Display("Processing", Secondary, false)
  {
    NotFailedText("Paid");
    NotFailedText("Processing");
    if raw == "CREATED" || raw == "PENDING" then ByDueDate(due, now)
    else if raw == "SUCCESSFUL" then PaidDisplay
    else if raw == "FAILED" || raw == "CANCELLED" then FailedDisplay(p.errorMessage)
    else ProcessingDisplay
  }

  /** The display from the row's own status. */
  function LocalDisplay(p: Payment, due: Option<int>, now: int): (d: Display)
    ensures Coherent(d)
    ensures p.status == PaymentStatus.Paid ==> d == Display("Paid", Default, false)
    ensures p.status == PaymentStatus.Failed ==> d == Display("Failed", Destructive, false)
    ensures p.status == PaymentStatus.Expired ==> d == Display("Expired", Outline, true)
    ensures p.status !in {PaymentStatus.Paid, PaymentStatus.Failed, PaymentStatus.Expired} ==> d == ByDueDate(due, now)
  {
    NotFailedText("Paid");
    NotFailedText("Expired");
    assert "Failed"[..6] == "Failed";
    match p.status
    case Paid => PaidDisplay
    case Failed => Display("Failed", Destructive, false)
    case Expired => ExpiredDisplay
    case _ => ByDueDate(due, now)
  }

  /** The display of a payment. `due` is the parsed due date and `now` the
      current time. Its parts always agree, and a payment only shows as
      expired when its due date has passed or its own status says so. */
  function PaymentStatusDisplay(p: Payment, due: Option<int>, now: int): (d: Display)
    ensures Coherent(d)
    ensures d.isExpired ==> PastDue(due, now) || p.status == PaymentStatus.Expired
    ensures Truthy(p.requestStatus) ==> d == RequestDisplay(p.requestStatus.value, p, due, now)
    ensures !Truthy(p.requestStatus) && Truthy(p.invoiceStatus) ==>
      d == InvoiceDisplay(p.invoiceStatus.value, p, due, now)
    ensures !Truthy(p.requestStatus) && !Truthy(p.invoiceStatus) ==> d == LocalDisplay(p, due, now)
  {
    if Truthy(p.requestStatus) then RequestDisplay(p.requestStatus.value, p, due, now)
    else if Truthy(p.invoiceStatus) then InvoiceDisplay(p.invoiceStatus.value, p, due, now)
    else LocalDisplay(p, due, now)
  }

  /** Once a request-to-pay status is recorded, neither the invoice status
      nor the row's own status affects the display. */
  lemma RequestStatusDominates(p: Payment, q: Payment, due: Option<int>, now: int)
    requires Truthy(p.requestStatus)
    requires q.requestStatus == p.requestStatus && q.errorMessage == p.errorMessage
    ensures PaymentStatusDisplay(p, due, now) == PaymentStatusDisplay(q, due, now)
  {
  }

  /** Without a request-to-pay status, a recorded invoice status hides the
      row's own status. */
  lemma InvoiceStatusHidesLocalStatus(p: Payment, q: Payment, due: Option<int>, now: int)
    requires !Truthy(p.requestStatus) && !Truthy(q.requestStatus) && Truthy(p.invoiceStatus)
    requires q.invoiceStatus == p.invoiceStatus && q.errorMessage == p.errorMessage
    ensures PaymentStatusDisplay(p, due, now) == PaymentStatusDisplay(q, due, now)
  {
  }

  /** A failure reported by the provider shows the stored error message, or
      "Payment failed" when none is stored. */
  lemma ProviderFailureShowsReason(p: Payment, due: Option<int>, now: int)
    requires
      || p.requestStatus in {Some("FAILED"), Some("REJECTED")}
      || (!Truthy(p.requestStatus) && p.invoiceStatus in {Some("FAILED"), Some("CANCELLED")})
    ensures PaymentStatusDisplay(p, due, now).text
      == "Failed: " + (if Truthy(p.errorMessage) then p.errorMessage.value else "Payment failed")
  {
  }

  /** A settled payment never shows as expired, however late it is. */
  lemma SettledNeverExpired(p: Payment, due: Option<int>, now: int)
    requires p.requestStatus == Some("SUCCESSFUL")
      || (!Truthy(p.requestStatus) && p.invoiceStatus == Some("SUCCESSFUL"))
      || (!Truthy(p.requestStatus) && !Truthy(p.invoiceStatus) && p.status == PaymentStatus.Paid)
    ensures PaymentStatusDisplay(p, due, now) == PaidDisplay
  {
  }

  /** The badge both the payments list and the invoices page give a row's
      own status: paid is default, overdue destructive, anything else
      secondary. */
  function RowBadge(s: PaymentStatus.Status): (b: Badge)
    ensures b != Outline
    ensures b == Default <==> s == PaymentStatus.Paid
    ensures b == Destructive <==> s == PaymentStatus.Overdue
    ensures b == Secondary <==> s != PaymentStatus.Paid && s != PaymentStatus.Overdue
  {
    match s
    case Paid => Default
    case Overdue => Destructive
    case _ => Secondary
  }

  /** The row badge and the status display agree on paid rows, but an
      overdue row without provider statuses has a destructive row badge
      while its display is never destructive. */
  lemma RowBadgeVersusDisplay(p: Payment, due: Option<int>, now: int)
    requires !Truthy(p.requestStatus) && !Truthy(p.invoiceStatus)
    ensures p.status == PaymentStatus.Paid ==> RowBadge(p.status) == PaymentStatusDisplay(p, due, now).badge
    ensures p.status == PaymentStatus.Overdue ==>
      RowBadge(p.status) == Destructive && PaymentStatusDisplay(p, due, now).badge != Destructive
  {
  }
}

=== FILE: tenant_detail.dfy ===
/** The tenant detail page: the edit form with its emergency contacts, the
    property assigned to the tenant, and the document uploads. */
module TenantDetail {
  import opened Wrappers
  import opened Text
  import opened Seqs
  import opened Records
  import MomoHook

  // ------------------------------------------------------------ the form

  /** A value held by the edit form. */
  datatype FieldValue = Str(s: string) | Num(n: int) | ContactList(contacts: seq<Contact>)

  /** The edit form: a partial tenant, keyed by column name. */
  type Form = map<string, FieldValue>

  const ContactsField := "emergency_contacts"

  /** `handleInputChange`: one field takes the value, every other field keeps
      its own. */
  function SetField(form: Form, field: string, value: FieldValue): (f: Form)
    ensures field in f && f[field] == value
    ensures f.Keys == form.Keys + {field}
    ensures forall k :: k in form && k != field ==> k in f && f[k] == form[k]
  {
    form[field := value]
  }

  /** `formData.emergency_contacts || []`. */
  function Contacts(form: Form): seq<Contact> {
    if ContactsField in form && form[ContactsField].ContactList? then form[ContactsField].contacts else []
  }

  /** The three editable parts of a contact. */
  datatype ContactField = Name | Phone | Email

  function SetContactField(c: Contact, field: ContactField, value: string): (d: Contact)
    ensures field == Name ==> d == c.(name := value)
    ensures field == Phone ==> d == c.(phone := Some(value))
    ensures field == Email ==> d == c.(email := Some(value))
  {
    match field
    case Name => c.(name := value)
    case Phone => c.(phone := Some(value))
    case Email => c.(email := Some(value))
  }

  /** `handleEmergencyContactChange`: only the edited part of contact `i`
      changes; the other contacts and the other fields of the form are
      untouched. The page only offers the indices of listed contacts. */
  function EditContact(form: Form, i: nat, field: ContactField, value: string): (f: Form)
    requires i < |Contacts(form)|
    ensures |Contacts(f)| == |Contacts(form)|
    ensures Contacts(f)[i] == SetContactField(Contacts(form)[i], field, value)
    ensures forall j :: 0 <= j < |Contacts(form)| && j != i ==> Contacts(f)[j] == Contacts(form)[j]
    ensures forall k :: k in form && k != ContactsField ==> k in f && f[k] == form[k]
  {
    var cs := Contacts(form);
    SetField(form, ContactsField, ContactList(cs[i := SetContactField(cs[i], field, value)]))
  }

  const BlankContact := Contact("", Some(""), Some(""))

  /** `addEmergencyContact`: one blank contact at the end. */
  function AddContact(form: Form): (f: Form)
    ensures Contacts(f) == Contacts(form) + [BlankContact]
    ensures forall k :: k in form && k != ContactsField ==> k in f && f[k] == form[k]
  {
    SetField(form, ContactsField, ContactList(Contacts(form) + [BlankContact]))
  }

  /** `removeEmergencyContact` (`splice(i, 1)`): contact `i` goes, the others
      keep their order; an index past the end removes nothing. */
  function RemoveContact(form: Form, i: nat): (f: Form)
    ensures i < |Contacts(form)| ==> |Contacts(f)| == |Contacts(form)| - 1
    ensures i < |Contacts(form)| ==> forall j :: 0 <= j < i ==> Contacts(f)[j] == Contacts(form)[j]
    ensures i < |Contacts(form)| ==> forall j :: i < j < |Contacts(form)| ==> Contacts(f)[j - 1] == Contacts(form)[j]
    ensures i >= |Contacts(form)| ==> Contacts(f) == Contacts(form)
    ensures forall k :: k in form && k != ContactsField ==> k in f && f[k] == form[k]
  {
    var cs := Contacts(form);
    SetField(form, ContactsField, ContactList(if i < |cs| then cs[..i] + cs[i + 1..] else cs))
  }

  /** Removing the contact just added restores the list. */
  lemma RemoveUndoesAdd(form: Form)
    ensures Contacts(RemoveContact(AddContact(form), |Contacts(form)|)) == Contacts(form)
  {
    var cs := Contacts(form);
    assert (cs + [BlankContact])[..|cs|] == cs;
  }

  /** Editing a contact with the value it already has changes no contact. */
  lemma EditWithSameNameKeepsContacts(form: Form, i: nat)
    requires i < |Contacts(form)|
    ensures Contacts(EditContact(form, i, Name, Contacts(form)[i].name)) == Contacts(form)
  {
  }

  // ------------------------------------------------------------ assigned property

  predicate Assigned(tenantId: string, p: Property) { p.tenantId == Some(tenantId) }

  /** The first property whose tenant is this one; none for a tenant
      without an id. */
  function AssignedProperty(properties: seq<Property>, tenantId: Option<string>): (r: Option<Property>)
    ensures !Truthy(tenantId) ==> r.None?
    ensures Truthy(tenantId) ==>
      (r.None? <==> forall i :: 0 <= i < |properties| ==> properties[i].tenantId != tenantId)
    ensures r.Some? ==>
      r.value.tenantId == tenantId &&
      (exists k :: 0 <= k < |properties| && properties[k] == r.value &&
        forall j :: 0 <= j < k ==> properties[j].tenantId != tenantId)
  {
    if !Truthy(tenantId) then None
    else
      match FindIndex(properties, p => Assigned(tenantId.value, p))
      case None => None
      case Some(k) => Some(properties[k])
  }

  // ------------------------------------------------------------ uploads

  datatype Document = IdDocument | LeaseDocument

  function TypeName(d: Document): string {
    match d
    case IdDocument => "id"
    case LeaseDocument => "lease"
  }

  /** The storage bucket and the form field of each document type. */
  function Bucket(d: Document): string {
    match d
    case IdDocument => "tenant-documents"
    case LeaseDocument => "lease-documents"
  }

  function UrlField(d: Document): string {
    match d
    case IdDocument => "id_document_url"
    case LeaseDocument => "lease_document_url"
  }

  /** `file.name.split('.').pop()`: the text after the last dot, or the
      whole name when it has none. */
  function Extension(fileName: string): (e: string)
    ensures '.' !in e
    ensures e == fileName[LastIndexOf(fileName, '.') + 1..]
  {
    AfterLastIsSuffix(fileName, '.');
    AfterLast(fileName, '.')
  }

  /** The stored file's name, `tenantId_type_now.ext`: it starts with the
      tenant id, the document type and the time stamp, each followed by its
      separator, and ends with the uploaded file's extension, which is also
      the stored name's own extension. */
  function StoredName(tenantId: string, d: Document, now: nat, fileName: string): (n: string)
    ensures StartsWith(n, tenantId + "_")
    ensures StartsWith(n, tenantId + "_" + TypeName(d) + "_" + NatToString(now) + ".")
    ensures |n| == |tenantId| + |TypeName(d)| + |NatToString(now)| + |Extension(fileName)| + 3
    ensures Extension(n) == Extension(fileName)
  {
    var stem := tenantId + "_" + TypeName(d) + "_" + NatToString(now);
    var n := stem + "." + Extension(fileName);
    assert n[..|tenantId + "_"|] == tenantId + "_";
    assert n[..|stem + "."|] == stem + ".";
    ExtensionAfterLastDot(stem, Extension(fileName));
    n
  }

  /** The extension of `base.ext` is `ext` whatever dots the base holds. */
  lemma ExtensionAfterLastDot(base: string, ext: string)
    requires '.' !in ext
    ensures Extension(base + "." + ext) == ext
  {
    var s := base + "." + ext;
    var k := LastIndexOf(s, '.');
    assert s[|base|] == '.';
    forall j | |base| < j < |s|
      ensures s[j] != '.'
    {
      assert s[j] == ext[j - |base| - 1];
    }
    assert k == |base|;
    assert s[k + 1..] == ext;
  }

  /** What an upload did: the stored file's bucket and name, the form
      afterwards, and the toast. */
  datatype Upload = NoTenant | Uploaded(bucket: string, storedName: string, form: Form, toast: MomoHook.Toast)

  /** `handleFileUpload`. `result` is the file's public address, or the
      upload's error. Only a successful upload writes the address, into the
      field of the document's type. */
  function HandleUpload(tenant: Option<Tenant>, form: Form, d: Document, now: nat, fileName: string,
                        result: Result<string, string>): (u: Upload)
    ensures tenant.None? <==> u.NoTenant?
    ensures u.Uploaded? ==> u.bucket == Bucket(d) && u.storedName == StoredName(tenant.value.id, d, now, fileName)
    ensures u.Uploaded? && result.Ok? ==> u.form == SetField(form, UrlField(d), Str(result.value))
    ensures u.Uploaded? && result.Err? ==> u.form == form && u.toast.destructive
  {
    if tenant.None? then NoTenant
    else
      var name := StoredName(tenant.value.id, d, now, fileName);
      match result
      case Ok(url) =>
        var what := if d == IdDocument then "ID document" else "Lease document";
        Uploaded(Bucket(d), name, SetField(form, UrlField(d), Str(url)), MomoHook.Toast("Success", what + " uploaded successfully", false))
      case Err(_) =>
        Uploaded(Bucket(d), name, form, MomoHook.Toast("Error", "Failed to upload file", true))
  }

  /** An upload of one type never touches the other type's field. */
  lemma UploadKeepsOtherDocument(tenant: Tenant, form: Form, now: nat, fileName: string, result: Result<string, string>)
    ensures var u := HandleUpload(Some(tenant), form, IdDocument, now, fileName, result);
      UrlField(LeaseDocument) in form ==> UrlField(LeaseDocument) in u.form && u.form[UrlField(LeaseDocument)] == form[UrlField(LeaseDocument)]
  {
  }
}

=== FILE: tenants_view.dfy ===
/** The tenants list: each tenant's most recent payment and its label, the
    summary counts, the avatar initials and the "request payment" action. */
module TenantsView {
  import opened Wrappers
  import opened Text
  import opened Seqs
  import PaymentStatus
  import opened Records
  import StatusDisplay
  import MomoHook
  import Invoke

  // ------------------------------------------------------------ recent payment

  /** `k` is the position the stable descending sort by creation time puts
      first among the tenant's payments: it has the latest creation time,
      and no earlier payment of the tenant has the same time. */
  predicate IsMostRecent(ps: seq<Payment>, tenantId: string, k: int) {
    && 0 <= k < |ps|
    && ps[k].tenantId == tenantId
    && (forall j :: 0 <= j < |ps| && ps[j].tenantId == tenantId ==> ps[j].createdAt <= ps[k].createdAt)
    && (forall j :: 0 <= j < k && ps[j].tenantId == tenantId ==> ps[j].createdAt < ps[k].createdAt)
  }

  /** At most one position is the most recent. */
  lemma MostRecentIsUnique(ps: seq<Payment>, tenantId: string, k: int, m: int)
    requires IsMostRecent(ps, tenantId, k) && IsMostRecent(ps, tenantId, m)
    ensures k == m
  {
  }

  /** `getTenantPaymentStatus`: one pass that keeps the first payment with
      the latest creation time. */
  method RecentPayment(ps: seq<Payment>, tenantId: string) returns (r: Option<Payment>)
    ensures r.None? <==> forall j :: 0 <= j < |ps| ==> ps[j].tenantId != tenantId
    ensures r.Some? ==> exists k :: IsMostRecent(ps, tenantId, k) && r.value == ps[k]
  {
    var best := -1;
    var i := 0;
    while i < |ps|
      invariant 0 <= i <= |ps|
      invariant -1 <= best < i
      invariant best == -1 <==> forall j :: 0 <= j < i ==> ps[j].tenantId != tenantId
      invariant best >= 0 ==> IsMostRecent(ps[..i], tenantId, best)
    {
      if ps[i].tenantId == tenantId && (best == -1 || ps[i].createdAt > ps[best].createdAt) {
        best := i;
      }
      i := i + 1;
    }
    assert ps[..i] == ps;
    if best == -1 {
      r := None;
    } else {
      r := Some(ps[best]);
    }
  }

  /** The recent-payment badge and its label. */
  datatype RecentLabel = RecentLabel(text: string, badge: StatusDisplay.Badge)

  /** Paid reads "Recently Paid", pending "Payment Requested", and every
      other status, failed and cancelled included, "Payment Overdue". */
  function Label(s: PaymentStatus.Status): (l: RecentLabel)
    ensures l.badge == StatusDisplay.Default <==> l.text == "Recently Paid"
    ensures l.badge == StatusDisplay.Secondary <==> l.text == "Payment Requested"
    ensures l.badge == StatusDisplay.Destructive <==> l.text == "Payment Overdue"
    ensures s == PaymentStatus.Pending ==> l.text == "Payment Requested"
    ensures s == PaymentStatus.Paid ==> l.text == "Recently Paid"
    ensures s != PaymentStatus.Pending && s != PaymentStatus.Paid ==> l.text == "Payment Overdue"
  {
    if s == PaymentStatus.Pending then RecentLabel("Payment Requested", StatusDisplay.Secondary)
    else if s == PaymentStatus.Paid then RecentLabel("Recently Paid", StatusDisplay.Default)
    else RecentLabel("Payment Overdue", StatusDisplay.Destructive)
  }

  /** The label agrees with the row badge of the payments list on paid,
      pending and overdue payments, but calls a failed payment overdue. */
  lemma LabelVersusRowBadge(s: PaymentStatus.Status)
    ensures s in {PaymentStatus.Paid, PaymentStatus.Pending, PaymentStatus.Overdue} ==>
      Label(s).badge == StatusDisplay.RowBadge(s)
    ensures Label(PaymentStatus.Failed).text == "Payment Overdue"
    ensures StatusDisplay.RowBadge(PaymentStatus.Failed) == StatusDisplay.Secondary
  {
  }

  // ------------------------------------------------------------ summary

  predicate IsActive(t: Tenant) { t.status == Active }

  predicate IsOverdue(t: Tenant) { t.status == Overdue }

  function Rent(t: Tenant): int { t.rent }

  function ActiveCount(ts: seq<Tenant>): nat { |Filter(ts, IsActive)| }

  function OverdueCount(ts: seq<Tenant>): nat { |Filter(ts, IsOverdue)| }

  function TotalRent(ts: seq<Tenant>): int { SumBy(ts, Rent) }

  /** No tenant is both active and overdue, so the two counts together are
      at most the number of tenants. */
  lemma {:induction false} CountsAreDisjoint(ts: seq<Tenant>)
    ensures ActiveCount(ts) + OverdueCount(ts) <= |ts|
    decreases |ts|
  {
    if ts != [] {
      CountsAreDisjoint(ts[1..]);
    }
  }

  /** The total rent of two lists is the sum of their totals. */
  lemma {:induction false} TotalRentOfConcat(a: seq<Tenant>, b: seq<Tenant>)
    ensures TotalRent(a + b) == TotalRent(a) + TotalRent(b)
    decreases |a|
  {
    if a == [] {
      assert a + b == b;
    } else {
      assert (a + b)[1..] == a[1..] + b;
      assert (a + b)[0] == a[0];
      TotalRentOfConcat(a[1..], b);
    }
  }

  /** The badge of a tenant's own status. */
  function TenantBadge(s: TenantStatus): (b: StatusDisplay.Badge)
    ensures b != StatusDisplay.Outline
    ensures b == StatusDisplay.Default <==> s == Active
    ensures b == StatusDisplay.Destructive <==> s == Overdue
    ensures b == StatusDisplay.Secondary <==> s != Active && s != Overdue
  {
    match s
    case Active => StatusDisplay.Default
    case Overdue => StatusDisplay.Destructive
    case _ => StatusDisplay.Secondary
  }

  predicate HasDestructiveBadge(t: Tenant) { TenantBadge(t.status) == StatusDisplay.Destructive }

  /** The "Overdue" card counts exactly the tenants with a destructive badge. */
  lemma OverdueCardCountsDestructiveBadges(ts: seq<Tenant>)
    ensures OverdueCount(ts) == |Filter(ts, HasDestructiveBadge)|
  {
    FilterAgreeing(ts, IsOverdue, HasDestructiveBadge);
  }

  // ------------------------------------------------------------ initials

  /** The first character of each part, an empty part contributing nothing. */
  function Heads(parts: seq<string>): (r: string)
    ensures |r| <= |parts|
    decreases |parts|
  {
    if parts == [] then ""
    else (if parts[0] == "" then "" else [parts[0][0]]) + Heads(parts[1..])
  }

  /** The avatar's fallback: the name split at single spaces, each part's
      first character, joined. */
  function Initials(name: string): (r: string)
    ensures |r| <= |Split(name, ' ')|
    ensures forall i :: 0 <= i < |r| ==> r[i] != ' '
  {
    HeadsOfParts(Split(name, ' '));
    Heads(Split(name, ' '))
  }

  /** No initial is a space when no part holds one. */
  lemma {:induction false} HeadsOfParts(parts: seq<string>)
    requires forall k :: 0 <= k < |parts| ==> ' ' !in parts[k]
    ensures forall i :: 0 <= i < |Heads(parts)| ==> Heads(parts)[i] != ' '
    decreases |parts|
  {
    if parts != [] {
      HeadsOfParts(parts[1..]);
      if parts[0] != "" {
        assert parts[0][0] in parts[0];
      }
    }
  }

  /** The initials of a first and a last name. */
  lemma InitialsOfTwoNames(first: string, last: string)
    requires first != "" && last != "" && ' ' !in first && ' ' !in last
    ensures Initials(first + " " + last) == [first[0], last[0]]
  {
    SplitAround(first, last, ' ');
    SplitWithoutSeparator(first, ' ');
    SplitWithoutSeparator(last, ' ');
    assert Split(first + " " + last, ' ') == [first, last];
    assert Heads([last]) == [last[0]];
  }

  // ------------------------------------------------------------ payment request

  /** `paymentAmount || tenant.rent`: an entry of 0 means the rent. */
  function RequestedAmount(entered: int, t: Tenant): (a: int)
    ensures entered != 0 ==> a == entered
    ensures entered == 0 ==> a == t.rent
  {
    if entered != 0 then entered else t.rent
  }

  datatype Dialog = Dialog(openFor: Option<string>, entered: int)

  /** What the request action did: the row it inserted, the hook's run, and
      the dialog afterwards. */
  datatype Sent = Ignored | Sent(inserted: Option<NewPayment>, run: Option<MomoHook.Run<string>>, dialog: Dialog)

  /** `handleSendPaymentRequest`. `insert` is the inserted row's id (`null`
      as `None`) or the message the insertion threw; `reply` is what the
      request function answers. A press while a request is in flight does
      nothing; the dialog closes and its amount resets only when a reference
      id comes back. */
  function SendPaymentRequest(loading: bool, dialog: Dialog, t: Tenant, dueDate: string,
                              insert: Result<Option<string>, string>,
                              reply: Invoke.Invocation<Option<string>>): (s: Sent)
    ensures loading <==> s.Ignored?
    ensures s.Sent? ==> s.inserted.Some?
    ensures s.Sent? ==> s.inserted.value == NewPayment(t.id, Some(OrDefault(t.propertyId, "")),
      RequestedAmount(dialog.entered, t), PaymentStatus.Pending, "MTN Mobile Money", dueDate)
    ensures s.Sent? && s.run.Some? ==> insert.Ok?
    ensures s.Sent? && s.dialog != dialog ==> s.dialog == Dialog(None, 0)
    ensures s.Sent? && s.dialog != dialog ==> s.run.Some? && Truthy(s.run.value.value)
  {
    if loading then Ignored
    else
      var amount := RequestedAmount(dialog.entered, t);
      var row := NewPayment(t.id, Some(OrDefault(t.propertyId, "")), amount, PaymentStatus.Pending, "MTN Mobile Money", dueDate);
      match insert
      case Err(_) => Sent(Some(row), None, dialog)
      case Ok(id) =>
        var run := MomoHook.RequestPayment(MomoHook.PaymentRequest(Some(t.phone), Some(amount), Some(t.id), id, None), reply);
        Sent(Some(row), Some(run), if Truthy(run.value) then Dialog(None, 0) else dialog)
  }

  /** A tenant without a phone number gets a row but no request, and the
      dialog stays open. */
  lemma NoPhoneKeepsDialogOpen(dialog: Dialog, t: Tenant, dueDate: string, id: Option<string>,
                               reply: Invoke.Invocation<Option<string>>)
    requires t.phone == ""
    ensures SendPaymentRequest(false, dialog, t, dueDate, Ok(id), reply).dialog == dialog
    ensures !SendPaymentRequest(false, dialog, t, dueDate, Ok(id), reply).run.value.invoked
  {
  }
}

=== FILE: text.dfy ===
/** Strings as sequences of characters, and the handful of JavaScript string
    operations the components use: truthiness, ASCII case mapping, character
    filters (`replace(/[^\d+]/g, '')`), `startsWith`, `includes`, `trim`,
    `split` and decimal rendering of numbers. */
module Text {
  import opened Wrappers
  import opened Seqs

  predicate IsDigit(c: char) { '0' <= c <= '9' }

  predicate IsNonZeroDigit(c: char) { '1' <= c <= '9' }

  predicate IsHexDigit(c: char) { IsDigit(c) || 'a' <= c <= 'f' || 'A' <= c <= 'F' }

  predicate IsAsciiLetter(c: char) { 'a' <= c <= 'z' || 'A' <= c <= 'Z' }

  /** The ECMAScript WhiteSpace and LineTerminator code points: what `trim()`
      strips and what the regular-expression class `\s` matches. */
  predicate IsJsSpace(c: char) {
    || c == '\t' || c == '\n' || c == '\U{000B}' || c == '\U{000C}' || c == '\r'
    || c == ' ' || c == '\U{00A0}' || c == '\U{1680}' || ('\U{2000}' <= c <= '\U{200A}')
    || c == '\U{2028}' || c == '\U{2029}' || c == '\U{202F}' || c == '\U{205F}'
    || c == '\U{3000}' || c == '\U{FEFF}'
  }

  predicate IsDigitOrPlus(c: char) { IsDigit(c) || c == '+' }

  predicate AllDigits(s: string) { forall i :: 0 <= i < |s| ==> IsDigit(s[i]) }

  /** JavaScript truthiness of a string that may be undefined or null. */
  predicate Truthy(o: Option<string>) { o.Some? && o.value != "" }

  /** `a || b` on possibly-undefined strings. */
  function Or(a: Option<string>, b: Option<string>): (r: Option<string>)
    ensures Truthy(a) ==> r == a
    ensures !Truthy(a) ==> r == b
  {
    if Truthy(a) then a else b
  }

  /** `a || d` with a string default: the value of `a` when truthy, else `d`. */
  function OrDefault(a: Option<string>, d: string): (r: string)
    ensures Truthy(a) ==> r == a.value
    ensures !Truthy(a) ==> r == d
  {
    if Truthy(a) then a.value else d
  }

  // ---------------------------------------------------------------- case

  /** `toUpperCase` on one character, for the ASCII letters. */
  function UpperChar(c: char): char {
    if 'a' <= c <= 'z' then (c as int - 32) as char else c
  }

  /** `toLowerCase` on one character, for the ASCII letters. */
  function LowerChar(c: char): char {
    if 'A' <= c <= 'Z' then (c as int + 32) as char else c
  }

  function Upper(s: string): (r: string)
    ensures |r| == |s|
    ensures forall i :: 0 <= i < |s| ==> r[i] == UpperChar(s[i])
  {
    seq(|s|, i requires 0 <= i < |s| => UpperChar(s[i]))
  }

  function Lower(s: string): (r: string)
    ensures |r| == |s|
    ensures forall i :: 0 <= i < |s| ==> r[i] == LowerChar(s[i])
  {
    seq(|s|, i requires 0 <= i < |s| => LowerChar(s[i]))
  }

  /** Lower-casing is idempotent. */
  lemma LowerIdempotent(s: string)
    ensures Lower(Lower(s)) == Lower(s)
  {
  }

  /** Upper-casing is idempotent, and it leaves no lower-case ASCII letter. */
  lemma UpperIdempotent(s: string)
    ensures Upper(Upper(s)) == Upper(s)
    ensures forall i :: 0 <= i < |s| ==> !('a' <= Upper(s)[i] <= 'z')
  {
  }

  /** A string with no lower-case ASCII letter is its own upper-case form. */
  lemma UpperOfUpperCaseWord(s: string)
    requires forall i :: 0 <= i < |s| ==> !('a' <= s[i] <= 'z')
    ensures Upper(s) == s
  {
  }

  // ---------------------------------------------------------------- filters

  /** `s.replace(/[^\d+]/g, '')`: keep only digits and plus signs. */
  function KeepDigitsAndPlus(s: string): (r: string)
    ensures |r| <= |s|
    ensures forall i :: 0 <= i < |r| ==> IsDigitOrPlus(r[i])
    ensures forall i :: 0 <= i < |s| && IsDigitOrPlus(s[i]) ==> s[i] in r
  {
    Filter(s, IsDigitOrPlus)
  }

  /** `s.replace(/\D/g, '')`: keep only digits. */
  function KeepDigits(s: string): (r: string)
    ensures |r| <= |s|
    ensures AllDigits(r)
    ensures forall i :: 0 <= i < |s| && IsDigit(s[i]) ==> s[i] in r
  {
    Filter(s, IsDigit)
  }

  /** Both cleanings work character by character, in order: a single character
      is kept exactly when it is allowed, and the cleaning of a concatenation is
      the concatenation of the cleanings. Together these determine the result. */
  lemma KeepDigitsAndPlusPointwise(a: string, b: string, c: char)
    ensures KeepDigitsAndPlus([c]) == (if IsDigitOrPlus(c) then [c] else [])
    ensures KeepDigitsAndPlus(a + b) == KeepDigitsAndPlus(a) + KeepDigitsAndPlus(b)
  {
    assert [c][1..] == [];
    FilterConcat(a, b, IsDigitOrPlus);
  }

  lemma KeepDigitsPointwise(a: string, b: string, c: char)
    ensures KeepDigits([c]) == (if IsDigit(c) then [c] else [])
    ensures KeepDigits(a + b) == KeepDigits(a) + KeepDigits(b)
  {
    assert [c][1..] == [];
    FilterConcat(a, b, IsDigit);
  }

  /** A string made only of digits and plus signs survives the cleaning unchanged. */
  lemma KeepDigitsAndPlusOfClean(s: string)
    requires forall i :: 0 <= i < |s| ==> IsDigitOrPlus(s[i])
    ensures KeepDigitsAndPlus(s) == s
  {
    FilterKeepsAll(s, IsDigitOrPlus);
  }

  // ---------------------------------------------------------------- prefixes and substrings

  predicate StartsWith(s: string, prefix: string) {
    |prefix| <= |s| && s[..|prefix|] == prefix
  }

  /** `m` occurs in `s` starting at position `i`. */
  predicate MatchAt(s: string, m: string, i: nat) {
    i + |m| <= |s| && s[i..i + |m|] == m
  }

  /** `s.includes(m)`. */
  predicate Contains(s: string, m: string) {
    exists i :: 0 <= i <= |s| - |m| && MatchAt(s, m, i)
  }

  /** The two characters `x`, `y` occur next to each other somewhere in `s`. */
  predicate HasPair(s: string, x: char, y: char) {
    exists i :: 0 <= i && i + 1 < |s| && s[i] == x && s[i + 1] == y
  }

  lemma InfixContains(a: string, m: string, b: string)
    ensures Contains(a + m + b, m)
  {
    assert (a + m + b)[|a|..|a| + |m|] == m;
    assert MatchAt(a + m + b, m, |a|);
  }

  lemma PrefixContains(m: string, b: string)
    ensures Contains(m + b, m)
  {
    InfixContains("", m, b);
    assert "" + m + b == m + b;
  }

  /** An occurrence of `m` brings along an occurrence of each pair of
      neighbouring characters of `m`. */
  lemma ContainsHasPair(s: string, m: string, k: nat)
    requires k + 1 < |m|
    ensures Contains(s, m) ==> HasPair(s, m[k], m[k + 1])
  {
    if Contains(s, m) {
      var i :| 0 <= i <= |s| - |m| && MatchAt(s, m, i);
      assert s[i + k] == s[i..i + |m|][k];
      assert s[i + k + 1] == s[i..i + |m|][k + 1];
    }
  }

  /** A pair in a concatenation lies in one part or straddles the seam. */
  lemma PairOfConcat(a: string, b: string, x: char, y: char)
    ensures HasPair(a + b, x, y) ==>
      HasPair(a, x, y) || HasPair(b, x, y) || (|a| > 0 && |b| > 0 && a[|a| - 1] == x && b[0] == y)
  {
    if HasPair(a + b, x, y) {
      var i :| 0 <= i && i + 1 < |a + b| && (a + b)[i] == x && (a + b)[i + 1] == y;
      if i + 1 < |a| {
        assert a[i] == x && a[i + 1] == y;
      } else if i >= |a| {
        assert b[i - |a|] == x && b[i - |a| + 1] == y;
      }
    }
  }

  /** A marker two of whose neighbouring characters (`m[k]`, `m[k+1]`) never
      stand next to each other in any of three short pieces, nor across their
      seams, does not occur in their concatenation. */
  lemma AbsentFromPieces(a: string, b: string, c: string, m: string, k: nat)
    requires k + 1 < |m| && |a| > 0 && |b| > 0
    requires !HasPair(a, m[k], m[k + 1]) && !HasPair(b, m[k], m[k + 1]) && !HasPair(c, m[k], m[k + 1])
    requires !(a[|a| - 1] == m[k] && b[0] == m[k + 1])
    requires c == [] || !(b[|b| - 1] == m[k] && c[0] == m[k + 1])
    ensures !Contains(a + b + c, m)
  {
    PairOfConcat(a, b, m[k], m[k + 1]);
    PairOfConcat(a + b, c, m[k], m[k + 1]);
    ContainsHasPair(a + b + c, m, k);
  }

  /** `s.replace(c, '')` with a one-character string pattern, which removes
      the first occurrence only. */
  function RemoveFirst(s: string, c: char): (r: string)
    ensures c !in s ==> r == s
    ensures c in s ==> |r| == |s| - 1
    ensures |s| > 0 && s[0] == c ==> r == s[1..]
    decreases |s|
  {
    if s == [] then []
    else if s[0] == c then s[1..]
    else [s[0]] + RemoveFirst(s[1..], c)
  }

  // ---------------------------------------------------------------- trim

  function TrimStart(s: string): (r: string)
    ensures |r| <= |s| && r == s[|s| - |r|..]
    ensures r == [] || !IsJsSpace(r[0])
    ensures forall i :: 0 <= i < |s| - |r| ==> IsJsSpace(s[i])
    decreases |s|
  {
    if |s| > 0 && IsJsSpace(s[0]) then TrimStart(s[1..]) else s
  }

  function TrimEnd(s: string): (r: string)
    ensures |r| <= |s| && r == s[..|r|]
    ensures r == [] || !IsJsSpace(r[|r| - 1])
    ensures forall i :: |r| <= i < |s| ==> IsJsSpace(s[i])
    decreases |s|
  {
    if |s| > 0 && IsJsSpace(s[|s| - 1]) then TrimEnd(s[..|s| - 1]) else s
  }

  /** `s.trim()`. */
  function Trim(s: string): string {
    TrimEnd(TrimStart(s))
  }

  /** How many leading white-space characters `trim()` cuts off. */
  function TrimmedLead(s: string): nat {
    |s| - |TrimStart(s)|
  }

  /** `trim()` removes exactly a leading and a trailing run of white space:
      the result is a middle piece of `s` that neither starts nor ends with
      white space, and everything cut off on either side is white space. */
  lemma TrimShape(s: string)
    ensures TrimmedLead(s) + |Trim(s)| <= |s|
    ensures Trim(s) == s[TrimmedLead(s)..TrimmedLead(s) + |Trim(s)|]
    ensures forall i :: 0 <= i < TrimmedLead(s) ==> IsJsSpace(s[i])
    ensures forall i :: TrimmedLead(s) + |Trim(s)| <= i < |s| ==> IsJsSpace(s[i])
    ensures Trim(s) == [] || (!IsJsSpace(Trim(s)[0]) && !IsJsSpace(Trim(s)[|Trim(s)| - 1]))
  {
    var t := TrimStart(s);
    var r := TrimEnd(t);
    TrimPieces(s, t, r);
    if r != [] {
      assert r[0] == t[0];
    }
  }

  /** A prefix `r` of a suffix `t` of `s`, with only white space cut off on
      either side, is a middle slice of `s` followed by white space. */
  lemma TrimPieces(s: string, t: string, r: string)
    requires |t| <= |s| && t == s[|s| - |t|..]
    requires |r| <= |t| && r == t[..|r|]
    requires forall i :: |r| <= i < |t| ==> IsJsSpace(t[i])
    ensures r == s[|s| - |t|..|s| - |t| + |r|]
    ensures forall i :: |s| - |t| + |r| <= i < |s| ==> IsJsSpace(s[i])
  {
    var lead := |s| - |t|;
    SliceOfSuffix(s, t, lead, |r|);
    forall i | lead + |r| <= i < |s|
      ensures IsJsSpace(s[i])
    {
      assert s[i] == t[i - lead];
    }
  }

  /** A prefix of a suffix of `s` is a middle slice of `s`. */
  lemma SliceOfSuffix(s: string, t: string, lead: nat, n: nat)
    requires lead <= |s| && t == s[lead..] && n <= |t|
    ensures t[..n] == s[lead..lead + n]
    ensures forall i :: lead + n <= i < |s| ==> s[i] == t[i - lead]
  {
  }

  /** Trimming a trimmed string changes nothing. */
  lemma TrimIdempotent(s: string)
    ensures Trim(Trim(s)) == Trim(s)
  {
    var t := Trim(s);
    TrimShape(s);
    assert TrimStart(t) == t;
    assert TrimEnd(t) == t;
  }

  // ---------------------------------------------------------------- split and join

  /** `s.split(sep)` for a one-character separator. */
  function Split(s: string, sep: char): (parts: seq<string>)
    ensures |parts| >= 1
    ensures forall k, i :: 0 <= k < |parts| && 0 <= i < |parts[k]| ==> parts[k][i] != sep
    decreases |s|
  {
    if s == [] then [""]
    else
      var rest := Split(s[1..], sep);
      if s[0] == sep then [""] + rest
      else [[s[0]] + rest[0]] + rest[1..]
  }

  /** `parts.join(sep)`. */
  function Join(parts: seq<string>, sep: char): string
    decreases |parts|
  {
    if parts == [] then ""
    else if |parts| == 1 then parts[0]
    else parts[0] + [sep] + Join(parts[1..], sep)
  }

  /** Joining the pieces of a split with the same separator restores the string. */
  lemma {:induction false} JoinSplit(s: string, sep: char)
    ensures Join(Split(s, sep), sep) == s
    decreases |s|
  {
    if s != [] {
      var rest := Split(s[1..], sep);
      JoinSplit(s[1..], sep);
      if s[0] == sep {
        assert Split(s, sep) == [""] + rest;
        assert ([""] + rest)[1..] == rest;
      } else {
        var parts := Split(s, sep);
        assert parts == [[s[0]] + rest[0]] + rest[1..];
        if |rest| == 1 {
          assert Join(parts, sep) == [s[0]] + rest[0];
        } else {
          assert parts[1..] == rest[1..];
          assert Join(rest, sep) == rest[0] + [sep] + Join(rest[1..], sep);
        }
      }
    }
  }

  /** Splitting a string by its first character. */
  lemma SplitCons(c: char, t: string, sep: char)
    ensures Split([c] + t, sep) == ConsPart(c, sep, Split(t, sep))
  {
    assert ([c] + t)[1..] == t;
  }

  /** One step of a split, as `SplitCons` states it, on a list of parts. */
  function ConsPart(c: char, sep: char, parts: seq<string>): seq<string>
    requires |parts| >= 1
  {
    if c == sep then [""] + parts else [[c] + parts[0]] + parts[1..]
  }

  /** The step only touches the first part, so it commutes with appending
      further parts. */
  lemma ConsPartAppend(c: char, sep: char, rest: seq<string>, tail: seq<string>)
    requires |rest| >= 1
    ensures ConsPart(c, sep, rest + tail) == ConsPart(c, sep, rest) + tail
  {
    if c != sep {
      assert (rest + tail)[0] == rest[0];
      assert (rest + tail)[1..] == rest[1..] + tail;
    }
  }

  /** Prepending a character to the left piece of a split at a separator. */
  lemma SplitAroundStep(c: char, a: string, b: string, sep: char)
    requires Split(a + [sep] + b, sep) == Split(a, sep) + Split(b, sep)
    ensures Split([c] + a + [sep] + b, sep) == Split([c] + a, sep) + Split(b, sep)
  {
    assert [c] + a + [sep] + b == [c] + (a + [sep] + b);
    SplitCons(c, a + [sep] + b, sep);
    SplitCons(c, a, sep);
    ConsPartAppend(c, sep, Split(a, sep), Split(b, sep));
  }

  /** Splitting at a separator splits the pieces on either side independently. */
  lemma {:induction false} SplitAround(a: string, b: string, sep: char)
    ensures Split(a + [sep] + b, sep) == Split(a, sep) + Split(b, sep)
    decreases |a|
  {
    if a == [] {
      assert a + [sep] + b == [sep] + b;
      SplitCons(sep, b, sep);
    } else {
      SplitAround(a[1..], b, sep);
      SplitAroundStep(a[0], a[1..], b, sep);
      assert [a[0]] + a[1..] == a;
    }
  }

  /** A string without the separator splits into itself alone. */
  lemma {:induction false} SplitWithoutSeparator(s: string, sep: char)
    requires sep !in s
    ensures Split(s, sep) == [s]
    decreases |s|
  {
    if s != [] {
      assert sep !in s[1..];
      SplitWithoutSeparator(s[1..], sep);
      assert [s[0]] + s[1..] == s;
    }
  }

  /** The position of the last occurrence of `c` in `s`, or -1 (`lastIndexOf`). */
  function LastIndexOf(s: string, c: char): (r: int)
    ensures -1 <= r < |s|
    ensures r >= 0 ==> s[r] == c
    ensures forall j :: r < j < |s| ==> s[j] != c
    decreases |s|
  {
    if s == [] then -1
    else if s[|s| - 1] == c then |s| - 1
    else LastIndexOf(s[..|s| - 1], c)
  }

  /** The last piece of `s.split(sep)`: the text after the last separator, or
      the whole string when there is none (`s.split(sep).pop()`). */
  function AfterLast(s: string, sep: char): (r: string)
    ensures forall i :: 0 <= i < |r| ==> r[i] != sep
  {
    var parts := Split(s, sep);
    parts[|parts| - 1]
  }

  /** The last piece of a split is exactly the text after the last
      separator, and the whole string when there is no separator. */
  lemma AfterLastIsSuffix(s: string, sep: char)
    ensures AfterLast(s, sep) == s[LastIndexOf(s, sep) + 1..]
  {
    var k := LastIndexOf(s, sep);
    if k < 0 {
      assert sep !in s;
      SplitWithoutSeparator(s, sep);
    } else {
      var pre, post := s[..k], s[k + 1..];
      assert s == pre + [sep] + post;
      assert sep !in post;
      SplitAround(pre, post, sep);
      SplitWithoutSeparator(post, sep);
    }
  }

  // ---------------------------------------------------------------- numbers

  function DigitChar(d: nat): char
    requires d < 10
  {
    ('0' as int + d) as char
  }

  /** The decimal rendering of a natural number (`String(n)`). */
  function NatToString(n: nat): (r: string)
    ensures |r| >= 1 && AllDigits(r)
    decreases n
  {
    if n < 10 then [DigitChar(n)] else NatToString(n / 10) + [DigitChar(n % 10)]
  }

  /** The decimal rendering of an integer, with a leading minus sign when negative. */
  function IntToString(n: int): string {
    if n < 0 then "-" + NatToString(-n) else NatToString(n)
  }

  /** The value of a string of decimal digits. */
  function ParseDigits(s: string): nat
    requires AllDigits(s)
    decreases |s|
  {
    if s == [] then 0 else ParseDigits(s[..|s| - 1]) * 10 + (s[|s| - 1] as int - '0' as int)
  }

  /** Reading back a rendered number gives the number. */
  lemma {:induction false} ParseNatToString(n: nat)
    ensures ParseDigits(NatToString(n)) == n
    decreases n
  {
    if n >= 10 {
      var s := NatToString(n);
      assert s[..|s| - 1] == NatToString(n / 10);
      ParseNatToString(n / 10);
    }
  }
}

=== FILE: transaction_status.dfy ===
/** The `mtn-momo-transaction-status` edge function: an administrator asks for
    the provider's status of a request-to-pay; the function checks the
    caller, validates the reference id, asks the provider, optionally records
    the outcome on a payment row, and answers with a status code derived from
    the error text. */
module TransactionStatus {
  import opened Wrappers
  import opened Text
  import opened Uuid
  import opened Http
  import opened Records
  import PaymentStatus
  import ProviderStatus

  /** The caller as the backend resolves it: `user` is absent when the token
      lookup fails or finds no user, `role` when the profile lookup fails or
      finds no row. */
  datatype Caller = Caller(authHeader: Option<string>, user: Option<string>, role: Option<string>)

  /** Whether the provider's credentials, the backend's address and the
      backend's service key are configured. */
  datatype Env = Env(momoCredentials: bool, backendUrl: bool, backendKey: bool)

  predicate BackendConfigured(env: Env) { env.backendUrl && env.backendKey }

  datatype Body = Body(referenceId: Option<string>, paymentId: Option<string>)

  /** The fields of the provider's transaction record that the function reads
      or passes on. */
  datatype Transaction = Transaction(
    status: Option<string>,
    amount: Option<string>,
    currency: Option<string>,
    financialTransactionId: Option<string>,
    externalId: Option<string>)

  datatype StatusReply = StatusReply(code: int, text: string, transaction: Transaction)

  datatype ResponseBody = Checked(transaction: Transaction, checkedAt: string) | Error(error: string)

  datatype Response = Response(code: int, body: ResponseBody)

  /** What a call of the function amounts to: its response, the external calls
      it made in order, and the payment update it sent, if any. */
  datatype Outcome = Outcome(response: Response, calls: seq<Call>, update: Option<PaymentUpdate>)

  // ------------------------------------------------------------ error texts

  const ReferenceRequired := "Reference ID is " + "required"
  const InvalidReferenceFormat := "Invalid" + " reference ID format." + " Must be a valid UUID."
  const MissingMomoCredentials := "Missing MTN " + "MoMo credentials"
  const MissingBackendCredentials := "Missing " + "Supabase credentials"
  const NoAccessToken := "No access " + "token received " + "from MTN MoMo API"
  const TransactionNotFound :=
    "Transaction " + "not found" + ". The reference ID may be invalid or the transaction may not exist."
  const ProviderAuthenticationFailed := "Authentication" + " failed. Please check" + " MTN MoMo credentials."
  const ProviderForbidden := "Access " + "forbidden" + ". Check subscription key and permissions."

  /** What the backend client library throws when it is built without an
      address or without a key. The library is not part of this model; these
      are its documented messages. */
  const ClientUrlRequired := "supabaseUrl is " + "required."
  const ClientKeyRequired := "supabaseKey is " + "required."

  function ClientError(env: Env): string {
    if !env.backendUrl then ClientUrlRequired else ClientKeyRequired
  }

  function TokenError(code: int, text: string): string {
    "MTN MoMo token error: " + IntToString(code) + " - " + text
  }

  /** The error thrown when the provider's status call fails. */
  function ProviderError(code: int, text: string): string {
    if code == 404 then TransactionNotFound
    else if code == 401 then ProviderAuthenticationFailed
    else if code == 403 then ProviderForbidden
    else "MTN MoMo API error: " + IntToString(code) + " - " + text
  }

  // ------------------------------------------------------------ classification

  predicate MentionsNotFound(m: string) { Contains(m, "not found") || Contains(m, "404") }
  predicate MentionsAuthentication(m: string) { Contains(m, "Authentication") || Contains(m, "401") }
  predicate MentionsForbidden(m: string) { Contains(m, "forbidden") || Contains(m, "403") }
  predicate MentionsBadInput(m: string) { Contains(m, "Invalid") || Contains(m, "required") }

  /** The status code of an error response, chosen from words in the error
      text, the first matching rule winning; a text matching no rule is a
      server error. */
  function ErrorStatusCode(message: string): (code: int)
    ensures code in {400, 401, 403, 404, 500}
    ensures MentionsNotFound(message) ==> code == 404
    ensures !MentionsNotFound(message) && MentionsAuthentication(message) ==> code == 401
    ensures !MentionsNotFound(message) && !MentionsAuthentication(message) && MentionsForbidden(message) ==> code == 403
    ensures (!MentionsNotFound(message) && !MentionsAuthentication(message) && !MentionsForbidden(message)
             && MentionsBadInput(message)) ==> code == 400
    ensures code == 500 <==>
      !MentionsNotFound(message) && !MentionsAuthentication(message)
      && !MentionsForbidden(message) && !MentionsBadInput(message)
  {
    if MentionsNotFound(message) then 404
    else if MentionsAuthentication(message) then 401
    else if MentionsForbidden(message) then 403
    else if MentionsBadInput(message) then 400
    else 500
  }

  lemma ReferenceRequiredIs400()
    ensures ErrorStatusCode(ReferenceRequired) == 400
  {
    var a, b := "Reference ID is ", "required";
    AbsentFromPieces(a, b, "", "not found", 0);
    AbsentFromPieces(a, b, "", "404", 0);
    AbsentFromPieces(a, b, "", "Authentication", 0);
    AbsentFromPieces(a, b, "", "401", 0);
    AbsentFromPieces(a, b, "", "forbidden", 2);
    AbsentFromPieces(a, b, "", "403", 0);
    assert a + b + "" == ReferenceRequired;
    InfixContains(a, b, "");
  }

  /** The format error names none of the not-found, authentication or
      forbidden markers. */
  lemma InvalidReferenceFormatHasNoRejectionMarker()
    ensures !MentionsNotFound(InvalidReferenceFormat)
    ensures !MentionsAuthentication(InvalidReferenceFormat)
    ensures !MentionsForbidden(InvalidReferenceFormat)
  {
    var a, b, c := "Invalid", " reference ID format.", " Must be a valid UUID.";
    AbsentFromPieces(a, b, c, "not found", 0);
    AbsentFromPieces(a, b, c, "404", 0);
    AbsentFromPieces(a, b, c, "Authentication", 0);
    AbsentFromPieces(a, b, c, "401", 0);
    AbsentFromPieces(a, b, c, "forbidden", 2);
    AbsentFromPieces(a, b, c, "403", 0);
  }

  lemma InvalidReferenceFormatIs400()
    ensures ErrorStatusCode(InvalidReferenceFormat) == 400
  {
    InvalidReferenceFormatHasNoRejectionMarker();
    var a, b, c := "Invalid", " reference ID format.", " Must be a valid UUID.";
    InfixContains("", a, b + c);
    assert "" + a + (b + c) == InvalidReferenceFormat;
  }

  /** The two validation errors are answered with 400. */
  lemma ValidationErrorsAre400()
    ensures ErrorStatusCode(ReferenceRequired) == 400
    ensures ErrorStatusCode(InvalidReferenceFormat) == 400
  {
    ReferenceRequiredIs400();
    InvalidReferenceFormatIs400();
  }

  lemma TransactionNotFoundIs404()
    ensures ErrorStatusCode(TransactionNotFound) == 404
  {
    InfixContains("Transaction ", "not found",
      ". The reference ID may be invalid or the transaction may not exist.");
  }

  lemma ProviderAuthenticationFailedIs401()
    ensures ErrorStatusCode(ProviderAuthenticationFailed) == 401
  {
    var a, b, c := "Authentication", " failed. Please check", " MTN MoMo credentials.";
    AbsentFromPieces(a, b, c, "not found", 0);
    AbsentFromPieces(a, b, c, "404", 0);
    InfixContains("", a, b + c);
    assert "" + a + (b + c) == ProviderAuthenticationFailed;
  }

  lemma ProviderForbiddenIs403()
    ensures ErrorStatusCode(ProviderForbidden) == 403
  {
    var a, b, c := "Access ", "forbidden", ". Check subscription key and permissions.";
    AbsentFromPieces(a, b, c, "not found", 0);
    AbsentFromPieces(a, b, c, "404", 0);
    AbsentFromPieces(a, b, c, "Authentication", 0);
    AbsentFromPieces(a, b, c, "401", 0);
    InfixContains(a, b, c);
  }

  /** The provider's 404, 401 and 403 answers keep their codes. */
  lemma ProviderRejectionsKeepTheirCodes()
    ensures ErrorStatusCode(ProviderError(404, "")) == 404
    ensures ErrorStatusCode(ProviderError(401, "")) == 401
    ensures ErrorStatusCode(ProviderError(403, "")) == 403
  {
    TransactionNotFoundIs404();
    ProviderAuthenticationFailedIs401();
    ProviderForbiddenIs403();
  }

  /** A text whose pieces hold none of the eight words, nor across the seams. */
  lemma NoMarkers(a: string, b: string, c: string)
    requires |a| > 0 && |b| > 0
    requires !HasPair(a, 'n', 'o') && !HasPair(b, 'n', 'o') && !HasPair(c, 'n', 'o')
    requires !HasPair(a, '4', '0') && !HasPair(b, '4', '0') && !HasPair(c, '4', '0')
    requires !HasPair(a, 'A', 'u') && !HasPair(b, 'A', 'u') && !HasPair(c, 'A', 'u')
    requires !HasPair(a, 'r', 'b') && !HasPair(b, 'r', 'b') && !HasPair(c, 'r', 'b')
    requires !HasPair(a, 'I', 'n') && !HasPair(b, 'I', 'n') && !HasPair(c, 'I', 'n')
    requires !HasPair(a, 'q', 'u') && !HasPair(b, 'q', 'u') && !HasPair(c, 'q', 'u')
    requires a[|a| - 1] == ' ' && (c == [] || b[|b| - 1] == ' ')
    ensures ErrorStatusCode(a + b + c) == 500
  {
    AbsentFromPieces(a, b, c, "not found", 0);
    AbsentFromPieces(a, b, c, "404", 0);
    AbsentFromPieces(a, b, c, "Authentication", 0);
    AbsentFromPieces(a, b, c, "401", 0);
    AbsentFromPieces(a, b, c, "forbidden", 2);
    AbsentFromPieces(a, b, c, "403", 0);
    AbsentFromPieces(a, b, c, "Invalid", 0);
    AbsentFromPieces(a, b, c, "required", 2);
  }

  lemma MissingMomoCredentialsIs500()
    ensures ErrorStatusCode(MissingMomoCredentials) == 500
  {
    NoMarkers("Missing MTN ", "MoMo credentials", "");
    assert "Missing MTN " + "MoMo credentials" + "" == MissingMomoCredentials;
  }

  lemma NoAccessTokenIs500()
    ensures ErrorStatusCode(NoAccessToken) == 500
  {
    NoMarkers("No access ", "token received ", "from MTN MoMo API");
  }

  /** Missing provider credentials and a token reply without a token are
      server errors. */
  lemma ConfigurationErrorsAre500()
    ensures ErrorStatusCode(MissingMomoCredentials) == 500
    ensures ErrorStatusCode(NoAccessToken) == 500
  {
    MissingMomoCredentialsIs500();
    NoAccessTokenIs500();
  }

  /** A text `a + "required." ` whose first piece holds none of the
      not-found, authentication or forbidden markers is a bad request. */
  lemma RequiredAfterPlainText(a: string)
    requires |a| > 0 && a[|a| - 1] == ' '
    requires !HasPair(a, 'n', 'o') && !HasPair(a, '4', '0') && !HasPair(a, 'A', 'u') && !HasPair(a, 'r', 'b')
    ensures ErrorStatusCode(a + "required.") == 400
  {
    var b := "required.";
    assert a + b + "" == a + b;
    AbsentFromPieces(a, b, "", "not found", 0);
    AbsentFromPieces(a, b, "", "404", 0);
    AbsentFromPieces(a, b, "", "Authentication", 0);
    AbsentFromPieces(a, b, "", "401", 0);
    AbsentFromPieces(a, b, "", "forbidden", 2);
    AbsentFromPieces(a, b, "", "403", 0);
    InfixContains(a, "required", ".");
    assert a + "required" + "." == a + b;
  }

  /** The client library's refusals classify as bad requests. */
  lemma ClientErrorsAre400()
    ensures ErrorStatusCode(ClientUrlRequired) == 400
    ensures ErrorStatusCode(ClientKeyRequired) == 400
  {
    RequiredAfterPlainText("supabaseUrl is ");
    RequiredAfterPlainText("supabaseKey is ");
  }

  // ------------------------------------------------------------ status mapping

  /** The payment status a provider status is recorded as. The provider's
      status is upper-cased first; unknown statuses count as pending. */
  function RequestToPayStatus(raw: string): (st: PaymentStatus.Status)
    ensures st in {PaymentStatus.Paid, PaymentStatus.Failed, PaymentStatus.Pending}
    ensures st == PaymentStatus.Paid <==> Upper(raw) == "SUCCESSFUL"
    ensures st == PaymentStatus.Failed <==> Upper(raw) == "FAILED" || Upper(raw) == "REJECTED"
  {
    match ProviderStatus.Parse(Upper(raw))
    case Successful => PaymentStatus.Paid
    case Failed | Rejected => PaymentStatus.Failed
    case Pending | Ongoing => PaymentStatus.Pending
    case _ => PaymentStatus.Pending
  }

  /** The mapping ignores the letter case of the provider's status. */
  lemma RequestToPayStatusIgnoresCase(raw: string)
    ensures RequestToPayStatus(raw) == RequestToPayStatus(Upper(raw))
  {
    UpperIdempotent(raw);
  }

  /** The update recorded for a provider status: the payment status and the
      time, plus today's date as the paid date when the payment succeeded. */
  function StatusUpdate(raw: string, now: string, today: string): (u: PaymentUpdate)
    ensures u.status == Some(RequestToPayStatus(raw))
    ensures u.updatedAt == Some(now)
    ensures u.paidDate.Some? <==> RequestToPayStatus(raw) == PaymentStatus.Paid
    ensures u.paidDate.Some? ==> u.paidDate.value == today
    ensures Columns(u) <= {"status", "paid_date", "updated_at"}
  {
    var st := RequestToPayStatus(raw);
    NoChange.(status := Some(st),
              paidDate := if st == PaymentStatus.Paid then Some(today) else None,
              updatedAt := Some(now))
  }

  /** A status the mapping does not know sets even a paid row back to pending. */
  lemma UnknownStatusResetsPaidRow(p: Payment, raw: string, now: string, today: string)
    requires p.status == PaymentStatus.Paid
    requires !ProviderStatus.IsKnown(Upper(raw))
    ensures Apply(StatusUpdate(raw, now, today), p).status == PaymentStatus.Pending
  {
  }

  // ------------------------------------------------------------ the handler

  /** The part of the handler after the caller has been accepted. */
  datatype Polled = Polled(result: Result<Transaction, string>, calls: seq<Call>, update: Option<PaymentUpdate>)

  /** The transaction as returned to the client: its status upper-cased. */
  function Normalized(tx: Transaction): (r: Transaction)
    ensures r.status.Some? <==> tx.status.Some?
    ensures r.status.Some? ==> r.status.value == Upper(tx.status.value)
    ensures r.amount == tx.amount && r.currency == tx.currency
    ensures r.financialTransactionId == tx.financialTransactionId && r.externalId == tx.externalId
  {
    tx.(status := if tx.status.Some? then Some(Upper(tx.status.value)) else None)
  }

  function Poll(env: Env, body: Body, token: TokenReply, reply: StatusReply, now: string, today: string): (p: Polled)
    ensures |p.calls| > 0 && p.calls[0] == ReadBody
    ensures ProviderCall in p.calls ==> Truthy(body.referenceId) && IsUuid(body.referenceId.value)
    ensures p.update.Some? <==> WritePayment in p.calls
    ensures p.update.Some? ==> p.result.Ok? && Truthy(body.paymentId)
    ensures p.result.Ok? <==>
      && Truthy(body.referenceId) && IsUuid(body.referenceId.value)
      && env.momoCredentials && BackendConfigured(env)
      && IsOk(token.code) && Truthy(token.accessToken) && IsOk(reply.code)
    ensures p.result.Ok? ==> p.result.value == Normalized(reply.transaction)
    ensures p.result.Ok? ==>
      p.update == (if Truthy(body.paymentId) && Truthy(reply.transaction.status)
                   then Some(StatusUpdate(reply.transaction.status.value, now, today)) else None)
    ensures !Truthy(body.referenceId) ==> p == Polled(Err(ReferenceRequired), [ReadBody], None)
    ensures Truthy(body.referenceId) && !IsUuid(body.referenceId.value) ==>
      p == Polled(Err(InvalidReferenceFormat), [ReadBody], None)
    ensures (Truthy(body.referenceId) && IsUuid(body.referenceId.value) && !env.momoCredentials) ==>
      p == Polled(Err(MissingMomoCredentials), [ReadBody], None)
    ensures (Truthy(body.referenceId) && IsUuid(body.referenceId.value) && env.momoCredentials
             && !BackendConfigured(env)) ==>
      p == Polled(Err(MissingBackendCredentials), [ReadBody], None)
    ensures (p.result.Err? && FetchToken in p.calls && ProviderCall !in p.calls) ==>
      p.result.error == (if !IsOk(token.code) then TokenError(token.code, token.text) else NoAccessToken)
    ensures (p.result.Err? && ProviderCall in p.calls) ==> p.result.error == ProviderError(reply.code, reply.text)
    ensures FetchToken in p.calls ==> env.momoCredentials && BackendConfigured(env)
    ensures ProviderCall in p.calls ==> FetchToken in p.calls && IsOk(token.code) && Truthy(token.accessToken)
  {
    if !Truthy(body.referenceId) then Polled(Err(ReferenceRequired), [ReadBody], None)
    else if !IsUuid(body.referenceId.value) then Polled(Err(InvalidReferenceFormat), [ReadBody], None)
    else if !env.momoCredentials then Polled(Err(MissingMomoCredentials), [ReadBody], None)
    else if !BackendConfigured(env) then Polled(Err(MissingBackendCredentials), [ReadBody], None)
    else if !IsOk(token.code) then Polled(Err(TokenError(token.code, token.text)), [ReadBody, FetchToken], None)
    else if !Truthy(token.accessToken) then Polled(Err(NoAccessToken), [ReadBody, FetchToken], None)
    else if !IsOk(reply.code) then
      Polled(Err(ProviderError(reply.code, reply.text)), [ReadBody, FetchToken, ProviderCall], None)
    else
      var tx := reply.transaction;
      if Truthy(body.paymentId) && Truthy(tx.status) then
        Polled(Ok(Normalized(tx)), [ReadBody, FetchToken, ProviderCall, WritePayment],
               Some(StatusUpdate(tx.status.value, now, today)))
      else
        Polled(Ok(Normalized(tx)), [ReadBody, FetchToken, ProviderCall], None)
  }

  predicate IsAdmin(caller: Caller) {
    Truthy(caller.authHeader) && caller.user.Some? && caller.role == Some("admin")
  }

  /** The whole function. A request with a token builds the backend client
      first, which throws without the backend's address or key; only an
      administrator's request gets past the caller checks; the provider is
      only asked about well-formed reference ids; an update is only sent for a
      named payment and only when the call succeeds; and the response code is
      200 exactly when a transaction is returned. */
  function Handle(caller: Caller, env: Env, body: Body, token: TokenReply, reply: StatusReply,
                  now: string, today: string): (o: Outcome)
    ensures o.response.code == 200 <==> o.response.body.Checked?
    ensures !Truthy(caller.authHeader) ==> o == Outcome(Response(401, Error("Authentication required")), [], None)
    ensures Truthy(caller.authHeader) && !BackendConfigured(env) ==>
      o == Outcome(Response(400, Error(ClientError(env))), [], None)
    ensures !IsAdmin(caller) && BackendConfigured(env) ==> o.response.code in {401, 403} && ReadBody !in o.calls
    ensures !IsAdmin(caller) ==> ReadBody !in o.calls && o.update.None?
    ensures IsAdmin(caller) && BackendConfigured(env) ==>
      (o.response.code == 200 <==>
         && Truthy(body.referenceId) && IsUuid(body.referenceId.value) && env.momoCredentials
         && IsOk(token.code) && Truthy(token.accessToken) && IsOk(reply.code))
    ensures ProviderCall in o.calls ==>
      IsAdmin(caller) && Truthy(body.referenceId) && IsUuid(body.referenceId.value)
    ensures o.update.Some? ==> o.response.code == 200 && Truthy(body.paymentId) && WritePayment in o.calls
    ensures o.response.body.Checked? ==> o.response.body.checkedAt == now
    ensures o.response.body.Checked? ==> o.response.body.transaction == Normalized(reply.transaction)
    ensures o.response.body.Checked? ==>
      o.update == (if Truthy(body.paymentId) && Truthy(reply.transaction.status)
                   then Some(StatusUpdate(reply.transaction.status.value, now, today)) else None)
    ensures IsAdmin(caller) && o.response.body.Error? ==>
      o.response.code == ErrorStatusCode(o.response.body.error) && o.update.None?
  {
    if !Truthy(caller.authHeader) then Outcome(Response(401, Error("Authentication required")), [], None)
    else if !BackendConfigured(env) then
      ClientErrorsAre400();
      Outcome(Response(ErrorStatusCode(ClientError(env)), Error(ClientError(env))), [], None)
    else if caller.user.None? then Outcome(Response(401, Error("Invalid authentication")), [CheckCaller], None)
    else if caller.role != Some("admin") then Outcome(Response(403, Error("Admin access required")), [CheckCaller], None)
    else
      var p := Poll(env, body, token, reply, now, today);
      var response :=
        match p.result
        case Ok(tx) => Response(200, Checked(tx, now))
        case Err(message) => Response(ErrorStatusCode(message), Error(message));
      Outcome(response, [CheckCaller] + p.calls, p.update)
  }

  /** A malformed reference id is refused with 400 after reading the body,
      before any credential check or provider call. */
  lemma MalformedReferenceIsRefused(caller: Caller, env: Env, body: Body, token: TokenReply,
                                    reply: StatusReply, now: string, today: string)
    requires IsAdmin(caller) && BackendConfigured(env) && Truthy(body.referenceId) && !IsUuid(body.referenceId.value)
    ensures Handle(caller, env, body, token, reply, now, today)
      == Outcome(Response(400, Error(InvalidReferenceFormat)), [CheckCaller, ReadBody], None)
  {
    ValidationErrorsAre400();
  }

  /** A missing reference id is refused with 400 after reading the body. */
  lemma MissingReferenceIsRefused(caller: Caller, env: Env, body: Body, token: TokenReply,
                                  reply: StatusReply, now: string, today: string)
    requires IsAdmin(caller) && BackendConfigured(env) && !Truthy(body.referenceId)
    ensures Handle(caller, env, body, token, reply, now, today)
      == Outcome(Response(400, Error(ReferenceRequired)), [CheckCaller, ReadBody], None)
  {
    ValidationErrorsAre400();
  }

  /** A well-formed reference without the provider's credentials is
      answered with 500, before any token is fetched. */
  lemma MissingMomoCredentialsIsServerError(caller: Caller, env: Env, body: Body, token: TokenReply,
                                            reply: StatusReply, now: string, today: string)
    requires IsAdmin(caller) && Truthy(body.referenceId) && IsUuid(body.referenceId.value)
    requires BackendConfigured(env) && !env.momoCredentials
    ensures Handle(caller, env, body, token, reply, now, today)
      == Outcome(Response(500, Error(MissingMomoCredentials)), [CheckCaller, ReadBody], None)
  {
    ConfigurationErrorsAre500();
  }

  /** A request with a token but without the backend's address or key is
      refused with 400 before anything else happens, whoever the caller is. */
  lemma MissingBackendConfigurationIs400(caller: Caller, env: Env, body: Body, token: TokenReply,
                                         reply: StatusReply, now: string, today: string)
    requires Truthy(caller.authHeader) && !BackendConfigured(env)
    ensures Handle(caller, env, body, token, reply, now, today)
      == Outcome(Response(400, Error(if !env.backendUrl then ClientUrlRequired else ClientKeyRequired)), [], None)
  {
  }

  /** The poll's own check of the backend's credentials is never reached
      through the function: the client built at its start has already thrown. */
  lemma BackendGuardIsUnreachable(caller: Caller, env: Env, body: Body, token: TokenReply,
                                  reply: StatusReply, now: string, today: string)
    ensures Handle(caller, env, body, token, reply, now, today).response.body != Error(MissingBackendCredentials)
  {
    var o := Handle(caller, env, body, token, reply, now, today);
    if o.response.body.Error? {
      var m := o.response.body.error;
      assert |m| > 8 && (m[1] != 'i' || m[8] == 'M');
    }
  }

  /** A reference the provider does not know is answered with 404 and leaves
      the payment row alone. */
  lemma UnknownReferenceIs404(caller: Caller, env: Env, body: Body, token: TokenReply,
                              reply: StatusReply, now: string, today: string)
    requires IsAdmin(caller) && Truthy(body.referenceId) && IsUuid(body.referenceId.value)
    requires env.momoCredentials && BackendConfigured(env)
    requires IsOk(token.code) && Truthy(token.accessToken)
    requires reply.code == 404
    ensures Handle(caller, env, body, token, reply, now, today).response.code == 404
    ensures Handle(caller, env, body, token, reply, now, today).update.None?
  {
    ProviderRejectionsKeepTheirCodes();
  }
}

=== FILE: uuid.dfy ===
/** The reference-id format check shared by the status poller, the client
    service and the hook: the regular expression
    `^[0-9a-f]{8}-[0-9a-f]{4}-[0-9a-f]{4}-[0-9a-f]{4}-[0-9a-f]{12}$` with the
    case-insensitive flag. */
module Uuid {
  import opened Text

  /** Where the four hyphens stand in the 8-4-4-4-12 layout. */
  predicate IsHyphenPosition(i: int) { i == 8 || i == 13 || i == 18 || i == 23 }

  /** The character expected at position `i` of a well-formed id. */
  predicate FitsPosition(c: char, i: int) {
    if IsHyphenPosition(i) then c == '-' else IsHexDigit(c)
  }

  /** The regular expression's verdict, position by position. */
  predicate IsUuid(s: string) {
    |s| == 36 && forall i :: 0 <= i < |s| ==> FitsPosition(s[i], i)
  }

  predicate AllHex(s: string) { forall i :: 0 <= i < |s| ==> IsHexDigit(s[i]) }

  /** An independent reading of the same pattern: five hyphen-separated
      groups of 8, 4, 4, 4 and 12 hexadecimal digits. */
  predicate IsGroupedUuid(s: string) {
    var g := Split(s, '-');
    && |g| == 5
    && |g[0]| == 8 && |g[1]| == 4 && |g[2]| == 4 && |g[3]| == 4 && |g[4]| == 12
    && AllHex(g[0]) && AllHex(g[1]) && AllHex(g[2]) && AllHex(g[3]) && AllHex(g[4])
  }

  /** Splitting `group + "-" + rest` when the group has no hyphen. */
  lemma SplitGroup(group: string, rest: string)
    requires AllHex(group)
    ensures Split(group + "-" + rest, '-') == [group] + Split(rest, '-')
  {
    assert '-' !in group;
    SplitAround(group, rest, '-');
    SplitWithoutSeparator(group, '-');
  }

  /** A positionally well-formed id splits into the five groups. */
  lemma UuidSplitsIntoGroups(s: string)
    requires IsUuid(s)
    ensures IsGroupedUuid(s)
  {
    var g0, g1, g2, g3, g4 := s[..8], s[9..13], s[14..18], s[19..23], s[24..];
    assert AllHex(g0) && AllHex(g1) && AllHex(g2) && AllHex(g3) && AllHex(g4) by {
      assert forall i :: 0 <= i < 8 ==> g0[i] == s[i];
      assert forall i :: 0 <= i < 4 ==> g1[i] == s[9 + i] && g2[i] == s[14 + i] && g3[i] == s[19 + i];
      assert forall i :: 0 <= i < 12 ==> g4[i] == s[24 + i];
    }
    assert s == g0 + "-" + (g1 + "-" + (g2 + "-" + (g3 + "-" + g4)));
    SplitGroup(g3, g4);
    SplitGroup(g2, g3 + "-" + g4);
    SplitGroup(g1, g2 + "-" + (g3 + "-" + g4));
    SplitGroup(g0, g1 + "-" + (g2 + "-" + (g3 + "-" + g4)));
    assert '-' !in g4;
    SplitWithoutSeparator(g4, '-');
    assert Split(s, '-') == [g0, g1, g2, g3, g4];
  }

  /** Five groups of the right lengths and digits put the hyphens where the
      positional reading expects them. */
  lemma GroupsAreUuid(s: string)
    requires IsGroupedUuid(s)
    ensures IsUuid(s)
  {
    var g := Split(s, '-');
    JoinSplit(s, '-');
    assert Join(g[3..], '-') == g[3] + "-" + g[4] by {
      assert g[3..][1..] == [g[4]];
    }
    assert Join(g[2..], '-') == g[2] + "-" + Join(g[3..], '-') by {
      assert g[2..][1..] == g[3..];
    }
    assert Join(g[1..], '-') == g[1] + "-" + Join(g[2..], '-') by {
      assert g[1..][1..] == g[2..];
    }
    assert s == g[0] + "-" + g[1] + "-" + g[2] + "-" + g[3] + "-" + g[4];
    forall i | 0 <= i < |s|
      ensures FitsPosition(s[i], i)
    {
      if i < 8 { assert s[i] == g[0][i]; }
      else if i == 8 || i == 13 || i == 18 || i == 23 { }
      else if i < 13 { assert s[i] == g[1][i - 9]; }
      else if i < 18 { assert s[i] == g[2][i - 14]; }
      else if i < 23 { assert s[i] == g[3][i - 19]; }
      else { assert s[i] == g[4][i - 24]; }
    }
  }

  /** The positional reading and the grouped reading accept the same strings. */
  lemma PositionalIsGrouped(s: string)
    ensures IsUuid(s) <==> IsGroupedUuid(s)
  {
    if IsUuid(s) {
      UuidSplitsIntoGroups(s);
    }
    if IsGroupedUuid(s) {
      GroupsAreUuid(s);
    }
  }

  /** A single left-to-right scan deciding the pattern, the way a regular
      expression engine runs it. */
  method CheckUuid(s: string) returns (ok: bool)
    ensures ok <==> IsUuid(s)
  {
    if |s| != 36 {
      return false;
    }
    var i := 0;
    while i < |s|
      invariant 0 <= i <= |s|
      invariant forall j :: 0 <= j < i ==> FitsPosition(s[j], j)
    {
      if !FitsPosition(s[i], i) {
        return false;
      }
      i := i + 1;
    }
    return true;
  }
}

=== FILE: validations.dfy ===
/** The form schemas: each field is trimmed where the schema says so and
    then checked; every failing check contributes its message, in the
    schema's order, and a field parses only when no check fails. Numbers are
    exact decimals. */
module Validations {
  import opened Wrappers
  import opened Text
  import opened Uuid
  import MomoService

  // ------------------------------------------------------------ decimals

  function Pow10(n: nat): (p: nat)
    ensures p >= 1
  {
    if n == 0 then 1 else 10 * Pow10(n - 1)
  }

  /** The number `digits / 10^scale`. */
  datatype Decimal = Decimal(digits: int, scale: nat)

  /** Whether the decimal is a whole number. */
  predicate IsWhole(d: Decimal) { d.digits % Pow10(d.scale) == 0 }

  /** `d <= bound` for a whole bound. */
  predicate AtMost(d: Decimal, bound: int) { d.digits <= bound * Pow10(d.scale) }

  /** `d >= bound` for a whole bound. */
  predicate AtLeast(d: Decimal, bound: int) { d.digits >= bound * Pow10(d.scale) }

  /** Whether `d` is a whole number of hundredths. */
  predicate IsWholeCents(d: Decimal) {
    (d.digits * 100) % Pow10(d.scale) == 0
  }

  /** The messages of the amount checks that fail: positive, at most a
      billion, at most two decimal places. */
  function AmountIssues(d: Decimal): seq<string> {
    (if d.digits > 0 then [] else ["Amount must be positive"])
    + (if AtMost(d, 1000000000) then [] else ["Amount is too large"])
    + (if IsWholeCents(d) then [] else ["Amount can have at most 2 decimal places"])
  }

  /** An amount in whole cents is accepted exactly when it is between one
      cent and a billion. */
  lemma AmountInCents(cents: int)
    ensures AmountIssues(Decimal(cents, 2)) == [] <==> 0 < cents <= 100000000000
  {
    assert Pow10(2) == 100;
  }

  lemma Pow10Succ(n: nat)
    ensures Pow10(n + 1) == 10 * Pow10(n)
  {
  }

  /** Writing an amount with one more trailing zero does not change any
      verdict: the checks depend on the value, not on its notation. */
  lemma {:induction false} AmountIssuesIgnoreTrailingZero(d: Decimal)
    ensures AmountIssues(Decimal(d.digits * 10, d.scale + 1)) == AmountIssues(d)
  {
    var e := Decimal(d.digits * 10, d.scale + 1);
    var p := Pow10(d.scale);
    Pow10Succ(d.scale);
    assert Pow10(e.scale) == 10 * p;
    assert AtMost(e, 1000000000) <==> AtMost(d, 1000000000) by {
      assert e.digits <= 1000000000 * (10 * p) <==> d.digits <= 1000000000 * p;
    }
    assert IsWholeCents(e) <==> IsWholeCents(d) by {
      ModScale(d.digits * 100, p);
      assert e.digits * 100 == (d.digits * 100) * 10;
    }
  }

  /** The remainder is determined by any decomposition `x == q * m + r`
      with `0 <= r < m`. */
  lemma ModUnique(x: int, m: int, q: int, r: int)
    requires m > 0 && x == q * m + r && 0 <= r < m
    ensures x % m == r
  {
    var q', r' := x / m, x % m;
    assert (q - q') * m == r' - r;
    if q > q' {
      assert (q - q') * m >= m by { MulMonotone(q - q', m); }
    } else if q < q' {
      assert (q' - q) * m >= m by { MulMonotone(q' - q, m); }
    }
  }

  lemma MulMonotone(k: int, m: int)
    requires k >= 1 && m > 0
    ensures k * m >= m
  {
  }

  /** `(10a) mod (10p)` is zero exactly when `a mod p` is. */
  lemma ModScale(a: int, p: nat)
    requires p >= 1
    ensures (a * 10) % (10 * p) == 0 <==> a % p == 0
  {
    var q, r := a / p, a % p;
    assert a * 10 == q * (10 * p) + r * 10;
    ModUnique(a * 10, 10 * p, q, r * 10);
  }

  // ------------------------------------------------------------ strings

  /** `[1-9]\d{1,14}`: a non-zero digit and one to fourteen more. */
  predicate IsNationalNumber(u: string) {
    2 <= |u| <= 15 && IsNonZeroDigit(u[0]) && AllDigits(u[1..])
  }

  /** `^\+?[1-9]\d{1,14}$`. */
  predicate IsPhonePattern(t: string) {
    IsNationalNumber(t) || (|t| > 0 && t[0] == '+' && IsNationalNumber(t[1..]))
  }

  /** The result of a string schema: the trimmed value, or the messages of
      the failing checks. */
  function Verdict(value: string, issues: seq<string>): (r: Result<string, seq<string>>)
    ensures r.Ok? <==> issues == []
  {
    if issues == [] then Ok(value) else Err(issues)
  }

  function PhoneIssues(t: string): seq<string> {
    (if |t| >= 1 then [] else ["Phone number is required"])
    + (if IsPhonePattern(t) then [] else ["Please enter a valid phone number with country code"])
  }

  /** `phoneNumberSchema`. */
  function ParsePhone(s: string): (r: Result<string, seq<string>>)
    ensures r.Ok? <==> IsPhonePattern(Trim(s))
    ensures r.Ok? ==> r.value == Trim(s)
    ensures r.Err? ==> |r.error| in {1, 2}
    ensures r.Err? ==> r.error[|r.error| - 1] == "Please enter a valid phone number with country code"
    ensures Trim(s) == "" ==> r.Err? && |r.error| == 2 && r.error[0] == "Phone number is required"
  {
    Verdict(Trim(s), PhoneIssues(Trim(s)))
  }

  /** `^[a-zA-Z\s'-]+$`. */
  predicate IsNameChar(c: char) { IsAsciiLetter(c) || IsJsSpace(c) || c == '\'' || c == '-' }

  predicate IsNamePattern(t: string) {
    |t| >= 1 && forall i :: 0 <= i < |t| ==> IsNameChar(t[i])
  }

  function NameIssues(t: string): seq<string> {
    (if |t| >= 1 then [] else ["Name is required"])
    + (if |t| <= 100 then [] else ["Name must be less than 100 characters"])
    + (if IsNamePattern(t) then [] else ["Name can only contain letters, spaces, hyphens, and apostrophes"])
  }

  /** `nameSchema`. */
  function ParseName(s: string): (r: Result<string, seq<string>>)
    ensures r.Ok? <==> 1 <= |Trim(s)| <= 100 && IsNamePattern(Trim(s))
    ensures r.Ok? ==> r.value == Trim(s)
    ensures |Trim(s)| > 100 ==> r.Err? && "Name must be less than 100 characters" in r.error
    ensures !IsNamePattern(Trim(s)) ==>
      r.Err? && "Name can only contain letters, spaces, hyphens, and apostrophes" in r.error
  {
    Verdict(Trim(s), NameIssues(Trim(s)))
  }

  function AddressIssues(t: string): seq<string> {
    (if |t| >= 1 then [] else ["Address is required"])
    + (if |t| <= 255 then [] else ["Address must be less than 255 characters"])
  }

  /** `addressSchema`. */
  function ParseAddress(s: string): (r: Result<string, seq<string>>)
    ensures r.Ok? <==> 1 <= |Trim(s)| <= 255
    ensures r.Ok? ==> r.value == Trim(s)
  {
    Verdict(Trim(s), AddressIssues(Trim(s)))
  }

  /** Parsing what a trimming schema produced gives the same value again. */
  lemma ParseIsIdempotent(s: string)
    ensures ParsePhone(s).Ok? ==> ParsePhone(ParsePhone(s).value) == ParsePhone(s)
    ensures ParseName(s).Ok? ==> ParseName(ParseName(s).value) == ParseName(s)
    ensures ParseAddress(s).Ok? ==> ParseAddress(ParseAddress(s).value) == ParseAddress(s)
  {
    TrimIdempotent(s);
  }

  /** White space around a valid number is forgiven. */
  lemma PhoneSchemaForgivesSurroundingSpace(t: string)
    requires IsPhonePattern(t)
    ensures ParsePhone(" " + t + "\n") == Ok(t)
  {
    assert !IsJsSpace(t[0]) && !IsJsSpace(t[|t| - 1]);
    TrimSurroundingSpace(t);
  }

  /** A space before and a line feed after a text that neither starts nor
      ends with white space are trimmed away. */
  lemma TrimSurroundingSpace(t: string)
    requires |t| > 0 && !IsJsSpace(t[0]) && !IsJsSpace(t[|t| - 1])
    ensures Trim(" " + t + "\n") == t
  {
    var s := " " + t + "\n";
    assert TrimStart(s) == t + "\n" by {
      assert s[1..] == t + "\n";
      assert (t + "\n")[0] == t[0];
    }
    assert TrimEnd(t + "\n") == t by {
      assert (t + "\n")[..|t|] == t;
    }
  }

  /** Every number the payment service accepts also passes the phone
      schema, but not conversely: the schema does not insist on the plus
      sign. */
  lemma ServiceNumbersPassTheSchema(s: string)
    requires MomoService.IsInternationalMsisdn(s)
    ensures IsPhonePattern(s)
  {
    assert s[1..][1..] == s[2..];
  }

  lemma SchemaNumberTheServiceRefuses()
    ensures IsPhonePattern("1234") && !MomoService.IsInternationalMsisdn("1234")
  {
    assert "1234"[1..] == "234";
  }

  // ------------------------------------------------------------ forms

  /** The start of zod's message for a value outside an enum. zod goes on
      with ". Expected " and the allowed values, then ", received " and the
      value given; that tail is not modelled. */
  const EnumIssue := "Invalid enum value"

  datatype TenantForm = TenantForm(
    name: string, email: string, phone: string, rent: Decimal,
    leaseStart: string, leaseEnd: string, propertyId: string, status: string)

  /** `emailSchema` up to the address format itself, whose verdict is
      `formatOk`. */
  function EmailIssues(t: string, formatOk: bool): seq<string> {
    (if |t| >= 1 then [] else ["Email is required"])
    + (if formatOk then [] else ["Please enter a valid email address"])
    + (if |t| <= 255 then [] else ["Email must be less than 255 characters"])
  }

  /** `tenantFormSchema`: the messages of all failing checks of all fields,
      in field order. */
  function TenantFormIssues(f: TenantForm, emailFormatOk: bool): seq<string> {
    NameIssues(Trim(f.name))
    + EmailIssues(Trim(f.email), emailFormatOk)
    + PhoneIssues(Trim(f.phone))
    + AmountIssues(f.rent)
    + (if |f.leaseStart| >= 1 then [] else ["Lease start date is required"])
    + (if |f.leaseEnd| >= 1 then [] else ["Lease end date is required"])
    + (if IsUuid(f.propertyId) then [] else ["Please select a valid property"])
    + (if f.status in ["active", "inactive"] then [] else [EnumIssue])
  }

  /** A tenant form passes exactly when every one of its fields does. */
  lemma TenantFormFieldwise(f: TenantForm, emailFormatOk: bool)
    ensures TenantFormIssues(f, emailFormatOk) == [] <==>
      && ParseName(f.name).Ok?
      && ParsePhone(f.phone).Ok?
      && EmailIssues(Trim(f.email), emailFormatOk) == []
      && AmountIssues(f.rent) == []
      && f.leaseStart != "" && f.leaseEnd != ""
      && IsUuid(f.propertyId)
      && f.status in ["active", "inactive"]
  {
  }

  datatype PropertyForm = PropertyForm(
    name: string, address: string, kind: string,
    bedrooms: Decimal, bathrooms: Decimal, size: Decimal, rent: Decimal, status: string)

  /** A whole number between two bounds, with the schema's messages. */
  function CountIssues(d: Decimal, lo: int, hi: int, notWhole: string, tooSmall: string, tooLarge: string): seq<string> {
    (if IsWhole(d) then [] else [notWhole])
    + (if AtLeast(d, lo) then [] else [tooSmall])
    + (if AtMost(d, hi) then [] else [tooLarge])
  }

  /** `propertyFormSchema`. */
  function PropertyFormIssues(f: PropertyForm): seq<string> {
    (if |Trim(f.name)| >= 1 then [] else ["Property name is required"])
    + (if |Trim(f.name)| <= 100 then [] else ["Property name must be less than 100 characters"])
    + AddressIssues(Trim(f.address))
    + (if f.kind in ["apartment", "house", "condo", "townhouse", "studio"] then [] else [EnumIssue])
    + CountIssues(f.bedrooms, 0, 20, "Bedrooms must be a whole number", "Bedrooms cannot be negative", "Too many bedrooms")
    + CountIssues(f.bathrooms, 0, 20, "Bathrooms must be a whole number", "Bathrooms cannot be negative", "Too many bathrooms")
    + CountIssues(f.size, 1, 100000, "Size must be a whole number", "Size must be at least 1 square foot", "Size is too large")
    + AmountIssues(f.rent)
    + (if f.status in ["available", "occupied", "maintenance", "inactive"] then [] else [EnumIssue])
  }

  /** A whole number of bedrooms passes exactly when it is between 0 and 20. */
  lemma BedroomsRange(n: int)
    ensures CountIssues(Decimal(n, 0), 0, 20, "a", "b", "c") == [] <==> 0 <= n <= 20
  {
  }

  datatype PaymentForm = PaymentForm(
    tenantId: string, propertyId: string, amount: Decimal, dueDate: string, paymentMethod: string, status: string)

  /** `paymentFormSchema`. */
  function PaymentFormIssues(f: PaymentForm): seq<string> {
    (if IsUuid(f.tenantId) then [] else ["Please select a valid tenant"])
    + (if IsUuid(f.propertyId) then [] else ["Please select a valid property"])
    + AmountIssues(f.amount)
    + (if |f.dueDate| >= 1 then [] else ["Due date is required"])
    + (if f.paymentMethod in ["mtn_momo", "bank_transfer", "cash", "check"] then [] else [EnumIssue])
    + (if f.status in ["pending", "paid", "failed", "cancelled"] then [] else [EnumIssue])
  }

  datatype QuickPayment = QuickPayment(
    phoneNumber: string, amount: Decimal, tenantName: Option<string>,
    paymentId: Option<string>, tenantId: Option<string>)

  /** `quickPaymentSchema`: the optional fields are only checked when given. */
  function QuickPaymentIssues(f: QuickPayment): seq<string> {
    PhoneIssues(Trim(f.phoneNumber))
    + AmountIssues(f.amount)
    + (if f.tenantName.Some? then NameIssues(Trim(f.tenantName.value)) else [])
    + (if f.paymentId.None? || IsUuid(f.paymentId.value) then [] else ["Invalid uuid"])
    + (if f.tenantId.None? || IsUuid(f.tenantId.value) then [] else ["Invalid uuid"])
  }

  /** Leaving out the optional fields never makes a quick payment fail. */
  lemma QuickPaymentOptionalFields(f: QuickPayment)
    ensures QuickPaymentIssues(f) == [] ==>
      QuickPaymentIssues(f.(tenantName := None, paymentId := None, tenantId := None)) == []
    ensures QuickPaymentIssues(f.(tenantName := None, paymentId := None, tenantId := None)) == []
      <==> ParsePhone(f.phoneNumber).Ok? && AmountIssues(f.amount) == []
  {
  }
}

=== FILE: wrappers.dfy ===
/** Option and Result, used for values a JavaScript caller may leave undefined
    and for operations that either succeed or fail with a message. */
module Wrappers {

  /** A value that may be absent (`undefined` or `null` in the source). */
  datatype Option<+T> = None | Some(value: T) {

    /** The value, or `default` when absent (the source's `??` operator). */
    function GetOr(default: T): T {
      match this
      case Some(v) => v
      case None => default
    }
  }

  /** The first present value of `a` and `b` (the source's `a ?? b`). */
  function Coalesce<T>(a: Option<T>, b: Option<T>): Option<T> {
    if a.Some? then a else b
  }

  /** Either a computed value or the message of the error that was thrown. */
  datatype Result<+R, +E> = Ok(value: R) | Err(error: E) {

    function ToOption(): Option<R> {
      match this
      case Ok(v) => Some(v)
      case Err(_) => None
    }
  }
}
